=== FILE: README.md ===
# Email digest podcast: a verified model of its pure logic

The system reads newsletters from a Gmail inbox once a day. It summarises each
one with a language model, speaks the summaries with a text-to-speech service,
and joins the clips into one chaptered M4A podcast. Then it mails the listener
a link and a chapter list. Almost all of it is glue around Gmail, OpenAI,
pydub/ffmpeg and Azure Blob storage. This project models, in Dafny, the
deterministic rules inside that glue. Every external call becomes a
parameter (an "oracle"), and the model proves what the rules guarantee.

| module | file | models |
|---|---|---|
| `PodcastAssembly` | podcast_assembly.dfy | `assemble_podcast`: the merge loop with its silence and cursor, chapter emission, temporary-file cleanup on every exit path, the ffmpeg command line |
| `ChapterMetadata` | chapter_metadata.dfy | `_create_ffmpeg_metadata_file`: the `;FFMETADATA1` text, chapter filtering and title sanitising, and a reader for the same layout that makes a round trip provable |
| `SummaryBudget` | summary_budget.dfy | `calculate_target_lengths` (duration buckets, clamping, proportional split with the 50-word floor) and `summarize_all` (target map, ordered filter of successful summaries) |
| `ContentParser` | content_parser.dfy | `_clean_text` whitespace normalisation and `parse_content` body selection |
| `EmailClient` | email_client.dfy | the Gmail search query, `get_sender` (the lazy `<(.+?)>` match), `extract_email_body` (MIME part traversal) |
| `TtsSegments` | tts_segments.dfy | `generate_speech_segment` (file-name sanitising, `.mp3` suffix) and `generate_speech_segments` (text and truncation, intro/summaries/outro order, numbering) |
| `JobReport` | job_report.dfy | the pure fragments of the daily job: unknown-sender label, placeholder chapter timing, minutes and seconds, article count, chapter lines of the mail |
| `Config` | config.dfy | `get_setting` precedence and `missing_settings` |
| `Strings`, `Decimal`, `Paths`, `Wrappers` | strings.dfy, decimal.dfy, paths.dfy, wrappers.dfy | Python's whitespace set, strip and join, substring search, decimal text of integers, file paths, `Option` and the truthiness of an optional string |

Oracles:
- `Loader`: the audio loader. It maps a path to `Loaded(ms)`, `Missing` or `Undecodable`.
- `TempStep` and `ToolOutcome`: the outcome of each temporary-file step and of the ffmpeg run.
- `summarize`: the language-model call.
- `speak`: the speech call, given the call number, the text and the file name. It answers with a duration or fails.
- `decode`: base64url followed by UTF-8 decoding (section 5 of RFC 4648).
- `extract`: the HTML extraction.
- `otherAlnum`: `str.isalnum` on non-ASCII characters.
- `Sources`: the process environment and the local settings file.

Points where the code behaves in ways a reader might not expect. The model
follows the code in each case:
- `assemble_podcast` commits the silence before a segment only after the
  existence and duration checks pass. A segment that then fails to decode
  leaves its silence in the timeline and gets no chapter.
- The `i > 0` test uses the input position. A skipped first input makes the
  first chapter start at the silence, not at 0.
- A chapter's width is the decoded length, not the declared `duration_ms`.
  A decoded length of 0 gives a chapter whose start equals its end. The
  metadata writer drops such a chapter.
- A negative `silence_ms` adds no audio but still moves the cursor back. The
  cursor equals the audio length only when `silence_ms >= 0`.
- The output file is removed on a non-zero ffmpeg exit and on any other
  ffmpeg error. It is not removed when ffmpeg is not found.
- A timeline of silence alone, with no chapter, is accepted.
- The placeholder chapters in the job title an unnamed segment
  `Segment i`, counting from 0. The assembly titles it `Segment i+1`.
- The proportional share of a summary falls as its word count rises when the
  total target is negative (a negative duration or speaking rate). The 50-word
  floor is what keeps targets monotone in that case.
- The job still sets `final_audio_path` to the fixed placeholder name
  `dummy_placeholder_podcast.m4a` (function_app.py:148-178). Unless a file of
  that name exists in the working directory, `podcast_url` is `None`, the
  mail body of function_app.py:183-194 is never built, and the job raises
  `RuntimeError` at function_app.py:200. The mail fragments are modelled as
  written all the same.
- The article count in the mail is the number of segments minus 2. It
  assumes both the intro and the outro were spoken. For each of the two that
  failed, the count falls one below the number of summaries actually spoken
  (it never goes below 0).

## Model

| member | source | states |
|---|---|---|
| PodcastAssembly.Title | src/audio_processor.py:117 | a segment's chapter title is its source, or `Segment n` with n its 1-based input position |
| PodcastAssembly.SilenceClipMs | src/audio_processor.py:112 | the silence clip is `silence_ms` long when it is positive and empty otherwise |
| PodcastAssembly.Merge | src/audio_processor.py:114-162 | the merge loop emits at most one chapter per input segment |
| PodcastAssembly.CursorDrift | src/audio_processor.py:112-147 | after the loop the cursor equals the merged audio length minus, for every committed silence, the part of `silence_ms` that produced no audio |
| PodcastAssembly.CursorIsAudioLength | src/audio_processor.py:136-147 | with `silence_ms >= 0` the cursor equals the length of the merged audio |
| PodcastAssembly.MergedAudioLength | src/audio_processor.py:112-147 | the merged audio is exactly the decoded length of every segment that passes the checks and decodes, plus one silence clip (empty when `silence_ms <= 0`) for each segment after input position 0 that passed the checks, including one that then fails to decode |
| PodcastAssembly.CursorBehindAudio | src/audio_processor.py:112-138 | with a negative `silence_ms` the cursor runs behind the audio by `-silence_ms` for every committed silence |
| PodcastAssembly.ChaptersOrdered | src/audio_processor.py:136-162 | with `silence_ms >= 0` chapters have `0 <= start <= end`, each starts at or after the previous end, and all end inside the timeline |
| PodcastAssembly.PlacedIndexes | src/audio_processor.py:114-154 | the input positions that pass the pre-checks and decode: increasing, and containing every such position |
| PodcastAssembly.ChapterAt | src/audio_processor.py:135-162 | the chapter of a placed segment: its title, a start at the cursor plus the silence when not at position 0, and the decoded length as its width |
| PodcastAssembly.ChaptersArePlaced | src/audio_processor.py:114-162 | the chapters are exactly one per placed segment, in input order, each equal to that segment's `ChapterAt` |
| PodcastAssembly.ChapterWidths | src/audio_processor.py:141-162 | each chapter is as wide as its segment's decoded audio, whatever duration was declared |
| PodcastAssembly.ThreeSegments | src/audio_processor.py:119-162 | durations 5000/3000/4000 with the default 750 ms silence give chapters (0,5000), (5750,8750), (9500,13500) and 13500 ms of audio |
| PodcastAssembly.SkippedFirstInput | src/audio_processor.py:119-141 | when input 0 is missing, the first chapter starts at 750, not 0 |
| PodcastAssembly.UndecodableKeepsSilence | src/audio_processor.py:135-154 | a segment that passes the checks but fails to decode leaves its silence in the timeline and gets no chapter |
| PodcastAssembly.FfmpegArgv | src/audio_processor.py:206-217 | the ffmpeg command holds both inputs and ends with the output path |
| PodcastAssembly.Assemble | src/audio_processor.py:96-263 | an empty list does nothing; every temporary file created is removed on every path; the output is removed exactly when ffmpeg ran and failed; success exactly when every step succeeds, giving the `.m4a` path and the merged chapters; no temporary file is created when the list or the merged audio is empty or the export's `mkstemp` fails, only the export file when the metadata `mkstemp` fails, and otherwise the export file then the metadata file; a metadata file is written exactly when both exist, and it is the one for the merged chapters; ffmpeg, once reached, is run on exactly the two temporary files, export then metadata, and the output path |
| PodcastAssembly.RunTool | src/audio_processor.py:220-263 | the ffmpeg step succeeds exactly on exit status 0, giving the output path and the chapters; the temporary files are removed on every outcome, and the output file too exactly when ffmpeg exited non-zero or raised something other than `FileNotFoundError`; the command, the created files and the metadata text are passed through unchanged |
| PodcastAssembly.MetadataFileReadsBack | src/audio_processor.py:186-191 | the metadata file the assembly writes reads back as the default podcast title and the merged chapters that have a positive width, titles sanitised, in order |
| PodcastAssembly.EmptyAudioRejected | src/audio_processor.py:166-168 | when the merged audio is empty, the result is None and no file is created |
| PodcastAssembly.SilenceOnlyAccepted | src/audio_processor.py:144-168 | two undecodable segments leave 750 ms of silence, and the assembly succeeds with no chapters |
| PodcastAssembly.MetadataOfMerge | src/audio_processor.py:187-191 | the metadata file for the merged chapters reads back as the default title and the chapters with a positive width, titles sanitised |
| ChapterMetadata.ReplaceChar | src/audio_processor.py:61 | `str.replace` of one character keeps the length and changes exactly the matching positions |
| ChapterMetadata.SanitizeTitle | src/audio_processor.py:61 | the cleaned title has the same length and none of `= ; # \ newline`; `=`, `#` and `\` become `-`, `;` becomes `,`, newline becomes a space, everything else is kept |
| ChapterMetadata.SanitizeIdempotent | src/audio_processor.py:61 | cleaning a cleaned title changes nothing |
| ChapterMetadata.SanitizeClean | src/audio_processor.py:61 | a title without special characters is left as it is |
| ChapterMetadata.Resolve | src/audio_processor.py:51-54 | a missing title becomes `Chapter i+1` and a missing start or end becomes 0 |
| ChapterMetadata.WrittenChapter | src/audio_processor.py:61-67 | a written chapter keeps its start and end and has a clean title |
| ChapterMetadata.Kept | src/audio_processor.py:51-61 | the written chapters all have `start < end` and clean titles, and there are no more of them than entries |
| ChapterMetadata.KeptIndexes | src/audio_processor.py:51-58 | the entry positions that get a block: increasing, each one with `start < end` after defaulting, and every such position listed |
| ChapterMetadata.KeptAreIndexed | src/audio_processor.py:51-61 | the written chapters are exactly one per listed position, in order, each the entry at that position with its `Chapter i+1` and 0 defaults applied and its title sanitised |
| ChapterMetadata.BlocksNoNewline | src/audio_processor.py:61-67 | the blocks of chapters with clean titles have no newline inside a line |
| ChapterMetadata.ParseBlocks | src/audio_processor.py:63-67 | the blocks written for any list of chapters read back as exactly that list |
| ChapterMetadata.MissingTimeDropped | src/audio_processor.py:53-58 | an entry missing a time whose defaulted end does not exceed its start is skipped |
| ChapterMetadata.MetadataStartsWithSignature | src/audio_processor.py:37 | the file starts with `;FFMETADATA1` and a newline |
| ChapterMetadata.ParseChapterLines | src/audio_processor.py:63-67 | a chapter block's lines read back as the same chapter |
| ChapterMetadata.MetadataLines | src/audio_processor.py:36-67 | when the podcast title has no newline, the file's lines are the header lines followed by the chapter blocks |
| ChapterMetadata.MetadataRoundTrip | src/audio_processor.py:24-67 | reading the file back gives the podcast title and exactly the kept chapters, in input order |
| SummaryBudget.TargetDuration | src/llm_handler.py:153-163 | the target duration lies in [min, max] when min <= max, and is min otherwise |
| SummaryBudget.TargetDurationMonotone | src/llm_handler.py:153-163 | more input words never give a shorter target duration |
| SummaryBudget.TargetDurationBuckets | src/llm_handler.py:153-160 | under 3000 words gives min, under 8000 gives 45, under 15000 gives 60, and beyond gives 75 minutes, when the bounds allow them |
| SummaryBudget.TruncDiv | src/llm_handler.py:176 | `int()` of a quotient truncates toward zero for either sign |
| SummaryBudget.TargetOf | src/llm_handler.py:173-179 | each target keeps the item's source and is at least 50 words |
| SummaryBudget.CalculateTargets | src/llm_handler.py:126-187 | one target per input, same order and source, each at least 50 words; with no words at all every target is 100 |
| SummaryBudget.EvenTargets | src/llm_handler.py:129-132 | the zero-word case gives every item 100 words, keeping its source |
| SummaryBudget.SharedTargets | src/llm_handler.py:168-180 | the proportional case gives item k the target computed from its own word count |
| SummaryBudget.TargetIsShare | src/llm_handler.py:164-178 | an item's target is `max(50, trunc(words * total_target / total_words))` |
| SummaryBudget.TargetOfMonotone | src/llm_handler.py:174-178 | an item with more words never gets a smaller target, for any total |
| SummaryBudget.ShareMonotone | src/llm_handler.py:174-176 | with a non-negative total target the proportional share grows with the word count |
| SummaryBudget.ShareOfNegative | src/llm_handler.py:174-176 | with a negative total target every share is at most 0, so the 50-word floor applies |
| SummaryBudget.TargetsMonotone | src/llm_handler.py:168-187 | within one call, targets are ordered as the items' word counts |
| SummaryBudget.SumSharesScaled | src/llm_handler.py:168-180 | the sum of the proportional shares, times the total words, is at most the total words times the total target |
| SummaryBudget.SharesWithinTotal | src/llm_handler.py:168-180 | before the floor, the shares add up to at most the total target |
| SummaryBudget.TargetMap | src/llm_handler.py:220 | the map holds a key for every target's source and no other key |
| SummaryBudget.TargetMapLastWins | src/llm_handler.py:220 | for a duplicated source the map keeps the last target given for it |
| SummaryBudget.TargetMapValues | src/llm_handler.py:220 | a lower bound on every target is a lower bound on every map value |
| SummaryBudget.TargetFor | src/llm_handler.py:225-229 | a missing or zero map entry falls back to 150 words, and any other entry is used as it is |
| SummaryBudget.SummarizeLoop | src/llm_handler.py:222-243 | at most one summary per input, each with non-empty text |
| SummaryBudget.SummarizeLoopAppend | src/llm_handler.py:222-243 | the loop over a concatenation is the loops over the parts, concatenated: inputs are processed in order and independently |
| SummaryBudget.SummarizeOne | src/llm_handler.py:225-241 | an input gives its source and summary exactly when the summariser returns non-empty text for its target, and nothing otherwise |
| SummaryBudget.SummarizeAll | src/llm_handler.py:210-251 | an empty input or a missing client gives `[]`; otherwise at most one non-empty summary per input |
| SummaryBudget.FallbackNeverUsed | src/llm_handler.py:217-229 | every input's source is in the map with a target of at least 50 words, so the 150-word fallback never applies |
| SummaryBudget.DuplicateSourceUsesLast | src/llm_handler.py:220-225 | an input is summarised with the target of the last input sharing its source |
| ContentParser.Words | src/llm_handler.py:129 | the words of a string are non-empty and contain no whitespace, as `str.split()` gives them |
| ContentParser.CleanText | src/content_parser.py:21-31 | `_clean_text` is the words of the input joined by single spaces |
| ContentParser.CleanTextIsJoinedWords | src/content_parser.py:26-28 | collapsing whitespace runs and then stripping gives the words joined by single spaces |
| ContentParser.JoinIsNormalized | src/content_parser.py:26-28 | words joined by single spaces have no edge whitespace and only single spaces between non-space characters |
| ContentParser.CleanTextIsNormalized | src/content_parser.py:21-31 | the cleaned text has no leading or trailing whitespace, and every whitespace in it is one space between two non-spaces |
| ContentParser.CleanTextKeepsNonSpaces | src/content_parser.py:26 | the non-whitespace characters of the input are kept, in order, and nothing else is |
| ContentParser.WordsOfJoin | src/content_parser.py:26-28 | splitting words joined by single spaces gives the words back |
| ContentParser.CleanTextIdempotent | src/content_parser.py:21-31 | cleaning cleaned text changes nothing |
| ContentParser.CleanTextEmptyIff | src/content_parser.py:23-28 | the cleaned text is empty exactly when the input is all whitespace, including empty |
| ContentParser.ParseContent | src/content_parser.py:136-158 | the HTML extraction when it yields text; else the cleaned plain body when there is one; empty exactly when neither gives text |
| EmailClient.FromTerms | src/email_client.py:87 | one `from:` term per sender, in the senders' order |
| EmailClient.QueryNoSources | src/email_client.py:87-88 | no senders give `() after:` and the date |
| EmailClient.QueryOneSource | src/email_client.py:87-88 | one sender gives `(from:s) after:` and the date |
| EmailClient.QueryAppend | src/email_client.py:87-88 | one more sender adds ` OR from:s` just before the closing parenthesis |
| EmailClient.LazyClose | src/email_client.py:231 | the lazy `.+?` stops at the first `>` after at least one non-newline character, or finds none |
| EmailClient.SearchFrom | src/email_client.py:231 | `re.search` returns the leftmost match, or None when no position matches |
| EmailClient.BracketAddress | src/email_client.py:231-233 | the captured address is non-empty, has no newline, and occurs between `<` and `>` in the value |
| EmailClient.AddressOf | src/email_client.py:231-238 | a qualifying header always yields a non-empty address |
| EmailClient.GetSender | src/email_client.py:224-239 | a returned sender is never empty |
| EmailClient.GetSenderFirst | src/email_client.py:227-239 | None exactly when no header qualifies; otherwise the address of the first qualifying `From` header |
| EmailClient.FromAnyCase | src/email_client.py:228 | the header name matches `from` in any letter case |
| EmailClient.BracketedSender | src/email_client.py:227-233 | a `To` header is passed over and `N <a@b>` yields `a@b` |
| EmailClient.Take1 | src/email_client.py:159-171 | a `text/plain` part sets the plain body, else a `text/html` part sets the HTML body, else nothing changes |
| EmailClient.PlainMessage | src/email_client.py:143-144 | a top-level `text/plain` message with data gives (decoded, None) |
| EmailClient.HtmlMessage | src/email_client.py:145-146 | a top-level `text/html` message with data gives (None, decoded) |
| EmailClient.OtherMessage | src/email_client.py:140-147 | a message of any other type gives (None, None) |
| EmailClient.DepthTwoIgnored | src/email_client.py:147-164 | removing every part below the second level leaves the extracted bodies unchanged |
| EmailClient.ScanIgnoresDepthTwo | src/email_client.py:148-175 | the part loop does not look below a nested part's children |
| EmailClient.LaterPartWins | src/email_client.py:166-175 | with two `text/plain` parts, the later one's body is the one returned |
| EmailClient.NestedBreakIsLocal | src/email_client.py:154-164 | the `break` in the nested loop does not end the outer loop: a later top-level part still overwrites |
| TtsSegments.SafeChar | src/tts_processor.py:90 | an allowed character is kept, and every other character becomes `_` |
| TtsSegments.SafeChars | src/tts_processor.py:90 | sanitising keeps the length and works character by character |
| TtsSegments.SafeFilename | src/tts_processor.py:89-93 | the name ends in `.mp3` in any case, and is 0 or 4 characters longer than the input |
| TtsSegments.SafeFilenameChars | src/tts_processor.py:89-93 | the name is made only of allowed characters and starts with the sanitised input |
| TtsSegments.SafeFilenameKeepsSuffix | src/tts_processor.py:92-93 | the suffix is added exactly when the sanitised name does not already end in `.mp3` |
| TtsSegments.SafeFilenameIdempotent | src/tts_processor.py:89-93 | sanitising a sanitised name changes nothing |
| TtsSegments.SafeFilenameKeepsPrefix | src/tts_processor.py:90 | a prefix made of allowed characters survives sanitising unchanged |
| TtsSegments.GenerateSpeechSegment | src/tts_processor.py:62-134 | a missing client or empty text gives None; a result is the sanitised file in the output directory and the probed duration; when the duration is known the call succeeds |
| TtsSegments.SegmentText | src/tts_processor.py:193-200 | the spoken text is a prefix of `Next up, from {source}. {summary}` of at most 4000 characters |
| TtsSegments.SegmentTextLength | src/tts_processor.py:197-200 | a short text is spoken whole, and a long one is cut to exactly 4000 characters |
| TtsSegments.SummarySegments | src/tts_processor.py:188-221 | at most one segment per summary |
| TtsSegments.SummarySegmentsAppend | src/tts_processor.py:188-221 | the loop over a concatenation is the loop over the first part, then the loop over the second, starting at the file number and call number the first part ends at |
| TtsSegments.NextIndexCounts | src/tts_processor.py:209-218 | the file number advances by exactly the number of segments produced |
| TtsSegments.SummaryAttemptIsSegment | src/tts_processor.py:188-218 | a summary yields a segment exactly when `generate_speech_segment` succeeds on its text and numbered name, and the segment holds that file, duration, source and text |
| TtsSegments.AnnouncementIsSegment | src/tts_processor.py:170-182 | the intro or outro yields a segment exactly when the call succeeds, and its file starts with its number |
| TtsSegments.GenerateSpeechSegments | src/tts_processor.py:138-249 | a missing client or temporary directory gives (None, []); the directory is returned exactly when some segment was made; at most intro, summaries and outro |
| TtsSegments.SegmentsNumbered | src/tts_processor.py:168-235 | the k-th returned segment's file name starts with k as three digits: successes are numbered 000, 001, … with no gap |
| TtsSegments.SummarySegmentsLabelled | src/tts_processor.py:206-218 | when every success is numbered with the current index, the summary segments are numbered consecutively from the starting index |
| TtsSegments.AllSucceed | src/tts_processor.py:206-218 | when every attempt succeeds, segment k is the attempt for summary k as file index+k and call attempt+k |
| TtsSegments.NoneSucceed | src/tts_processor.py:213-221 | when every attempt fails there are no summary segments |
| TtsSegments.EverySummarySpoken | src/tts_processor.py:188-218 | when speech always succeeds, there is one segment per summary, in order, with its source and its segment text |
| TtsSegments.EveryCallAnswered | src/tts_processor.py:170-249 | when speech always succeeds, the list is the intro, one segment per summary and the outro, and the directory is returned |
| TtsSegments.SpokenIndexes | src/tts_processor.py:188-221 | the summary positions that produce a segment, increasing and within the list |
| TtsSegments.SpokenIndexesExact | src/tts_processor.py:206-221 | a position is listed exactly when its pass of the loop produces a segment |
| TtsSegments.SummarySegmentsAreSpoken | src/tts_processor.py:188-221 | the loop's segments are one per listed position, in order, each exactly what that pass produced |
| TtsSegments.SummaryTryLabels | src/tts_processor.py:189-217 | for any speech service, a summary attempt that produces a segment labels it with that summary's source and its spoken text |
| TtsSegments.SpokenSummaries | src/tts_processor.py:188-221 | for any speech service, the loop's segments carry, in order, the source and spoken text of the listed summaries |
| TtsSegments.SpokenExactlyWhenAnswered | src/tts_processor.py:188-218 | for any speech service, summary j is spoken exactly when call j + 1, under the file number its pass runs with, is answered |
| TtsSegments.AnnouncementAnswer | src/tts_processor.py:171-182 | an announcement is the segment with its numbered file and the reported duration when the call is answered, and nothing otherwise |
| TtsSegments.AnnouncementsAnswered | src/tts_processor.py:168-237 | for any speech service, the intro is there exactly when call 0 is answered, and the outro exactly when call n + 1 is answered, under the next free file number |
| TtsSegments.AssembleInOrder | src/tts_processor.py:167-235 | for any attempts, the list is the first segment if any, then exactly one segment per producing pass, in order, each what that pass produced, then the last segment, numbered on from those, if any |
| TtsSegments.SegmentListIsAssemble | src/tts_processor.py:167-249 | with a client and a directory, the returned list is the intro (file 000, call 0), the summary loop from the next free number and call 1, and the outro as call n + 1 |
| TtsSegments.SpeechSegmentsInOrder | src/tts_processor.py:167-249 | for any speech service, the returned list starts with the intro when it was spoken, holds the segments of exactly the producing summary passes in order, and ends with the outro, under the next free file number, when it was spoken |
| TtsSegments.OutroIsLast | src/tts_processor.py:224-229 | the outro the list ends with is the one numbered after the intro and the spoken summaries, spoken as call n + 1 |
| TtsSegments.InOrderKeepsSummaries | src/tts_processor.py:188-218 | in a list laid out this way by attempts that label their segments, the middle holds the spoken summaries' sources and texts, in order |
| TtsSegments.SpeechSegmentsKeepSummaries | src/tts_processor.py:188-249 | for any speech service, the middle of the returned list holds, in order, the source and spoken text of exactly the summaries whose call was answered |
| TtsSegments.NothingSucceeds | src/tts_processor.py:239-246 | when speech always fails the result is (None, []) |
| JobReport.SenderLabel | function_app.py:102 | an extracted non-empty sender is used as it is; a missing or empty sender is replaced by the "Unknown Source <first ten characters of the message id...>" label, which is never empty |
| JobReport.UnknownSenderShape | function_app.py:102 | the label is `Unknown Source <`, the first ten characters of the id, then `...>` |
| JobReport.PlaceholderFrom | function_app.py:151-160 | at most one mark per segment, and the running time never decreases |
| JobReport.PlaceholderIsRunningSum | function_app.py:151-160 | one mark per segment with a non-negative integer duration, in order, each starting at the sum of the earlier valid durations; the running time ends at their total |
| JobReport.PlaceholderOrdered | function_app.py:151-160 | later marks never start before earlier ones |
| JobReport.NegativeDurationSkipped | function_app.py:156-160 | a negative duration gets no mark and adds no time |
| JobReport.MinutesSeconds | function_app.py:161-162 | whole seconds split into minutes and seconds below 60 that add back up to them |
| JobReport.MinutesSecondsInverse | function_app.py:161-162 | m minutes and s < 60 seconds, plus under a second of milliseconds, split back into (m, s) |
| JobReport.ArticleCount | function_app.py:187 | the article count is never more than the number of segments; what it counts after a full run is stated by ArticleCountOfFullRun |
| JobReport.ArticleCountOfFullRun | function_app.py:187 | when every speech call succeeds, the article count equals the number of summaries |
| JobReport.ChapterLine | function_app.py:193 | a chapter line starts `- ` and the title, and ends `)` and a newline |
| JobReport.ChapterLineFields | function_app.py:189-193 | the two fields are zero-padded to at least two digits, the seconds field to exactly two, and they read back as the mark's minutes and seconds |
| JobReport.ChapterLinesListEach | function_app.py:189-193 | every mark's line appears in the chapter list |
| Config.GetSetting | src/config.py:32-42 | an environment value wins even when empty; otherwise, in the deployment, the default; otherwise the local value, then the default |
| Config.GetSettingOrigin | src/config.py:32-42 | a value comes only from the environment, from the local file outside the deployment, or from the default |
| Config.EnvironmentWins | src/config.py:35-37 | when the environment has the name, neither the local file nor the default matters |
| Config.AzureIgnoresLocal | src/config.py:10-42 | in the deployment, the local settings file has no effect |
| Config.MissingAmong | src/config.py:89-91 | the report names at most the settings checked |
| Config.MissingAmongIff | src/config.py:89-91 | a name is reported exactly when it is checked and its value is unset or empty |
| Config.MissingAmongOrdered | src/config.py:82-91 | the report keeps the order of the required names |
| Config.ContainerMissingIff | src/config.py:54-91 | the container name is reported missing only when it is set to the empty string, since it has a default |
| Config.NothingMissing | src/config.py:82-91 | with every required name set non-empty in the environment, nothing is reported |
| Decimal.DigitsValueOfNatToString | function_app.py:193 | the decimal text of a number reads back as that number |
| Decimal.ParseIntOfIntToString | src/audio_processor.py:65-66 | the decimal text of an integer, sign included, parses back to it |
| Decimal.ZeroPadValue | function_app.py:193 | zero-padding to a width keeps the value |

## Left out

- Gmail, OpenAI, pydub, ffmpeg and Azure calls: I/O. Their outcomes are the oracle parameters listed above.
- OAuth token refresh, `send_email`, mail sending and `get_email_details`: I/O with no logic of their own.
- `extract_content_from_html` (src/content_parser.py): its result depends on BeautifulSoup and lxml traversal. It is the parameter `extract`, and the exception path is modelled as a `None` result.
- Base64url and UTF-8 decoding: they are the uninterpreted `decode`, a total function. The `binascii.Error` that `base64.urlsafe_b64decode` raises on malformed input (src/email_client.py:144, 146, 158, 167, 179) is not modelled: the model has no exception path for it.
- The `Path(output_dir).mkdir(parents=True, exist_ok=True)` call (src/audio_processor.py:103) is assumed to succeed. The `OSError` it can raise on a read-only or invalid directory is not modelled.
- src/storage_client.py: an Azure SDK upload and SAS URL wrapper, with nothing to compute.
- scripts/setup_gmail_auth.py: an interactive OAuth flow.
- Importing src/content_parser.py: the annotation `Optional[str]` of `parse_content` (src/content_parser.py:136) names `Optional`, but the module imports only `re`, `logging` and `bs4` (src/content_parser.py:3-5) and has no `from __future__ import annotations`. Before Python 3.14 the import therefore raises `NameError`, which the `except ImportError` clauses of function_app.py:23-36 do not catch, so the daily job never reaches `parse_content`. The model leaves the import out and models the body of `parse_content` as if the import succeeded.
- The function_app.py orchestration: timer, logging, datetime, exception routing, temporary-directory removal. Its `except openai.APIError` at function_app.py:208 names a module that file never imports. Python resolves that only when an exception reaches the clause, which the model cannot express.
- `time.sleep` between speech calls, and the float `max_tokens` and prompt text of the summariser: timing and prompt content only.
- The float `proportion` in `calculate_target_lengths`: the model uses the exact rational `trunc(words * total / total_words)`. Floating-point rounding can differ by one word near an integer boundary.
- `os.remove` failures are swallowed by the source, so cleanup is modelled as the list of paths it tries to remove. Encoder output bytes and pydub frame rounding are not modelled.
- `mkdtemp` and `mkstemp`: the chosen names are parameters (`tempDir`, `TempStep`). `mkstemp` adds a random name under `output_dir`.
- Configuration values read once at import time, `LOG_LEVEL` upper-casing, the Gmail credential paths, the fixed sender list and the podcast durations: constants with no logic to prove.
- A `local.settings.json` that is missing, not valid JSON, or failing to decode: each of these give an empty local map, which is a possible value of `Sources.local`. JSON values other than strings are not modelled.
- An existing `local.settings.json` that `open()` cannot open, for instance for lack of permission or because the path is a directory: the `open` at src/config.py:18 lies outside the `try` of lines 19-28, so the `OSError` is raised when the configuration module is imported. The model has no such path; `Sources.local` is always a map.
- Python's bool-as-int (`isinstance(True, int)`) in the duration checks is not modelled. A duration is an integer or absent.
- ChapterMetadata.MetadataRoundTrip: the reader is this model's own. It matches the layout that `_create_ffmpeg_metadata_file` writes, not FFmpeg's parser. It requires a podcast title without a newline, because that title is not sanitised (src/audio_processor.py:38).
- TtsSegments.SafeFilename: `str.isalnum` on non-ASCII characters is the parameter `otherAlnum`. The `.lower()` in the suffix test is modelled for ASCII letters only. A non-ASCII character whose lower-case form is longer (U+0130) is not modelled.
- EmailClient.FromAnyCase: only ASCII case folding is modelled. No non-ASCII character lower-cases to one of `f`, `r`, `o`, `m`, so the comparison with `from` is unaffected.
- EmailClient.ExtractBody has no contract of its own. Its behaviour is stated by the lemmas about it (PlainMessage, HtmlMessage, OtherMessage, DepthTwoIgnored, LaterPartWins, NestedBreakIsLocal), and the last two are shown on concrete messages rather than for all inputs.

=== FILE: chapter_metadata.dfy ===
/** The chapter metadata file handed to ffmpeg: a `;FFMETADATA1` text with a
    global header and one `[CHAPTER]` block per chapter whose end lies after
    its start.  Titles are made safe by substituting the characters the format
    treats specially; the podcast title is written verbatim.  A line reader
    recovers the podcast title and the kept chapters from the text. */
module ChapterMetadata {
  import opened Wrappers
  import opened Decimal

  /** A chapter as a caller hands it over: any of the three keys may be absent. */
  datatype MetaEntry = MetaEntry(title: Option<string>, startMs: Option<int>, endMs: Option<int>)

  /** A chapter with all three fields present. */
  datatype Chapter = Chapter(title: string, startMs: int, endMs: int)

  const DefaultPodcastTitle: string := "Daily Email Digest"

  /** The characters a chapter title must not contain once written. */
  predicate IsSpecial(c: char) {
    c == '=' || c == ';' || c == '#' || c == '\\' || c == '\n'
  }

  predicate NoSpecial(s: string) {
    forall i :: 0 <= i < |s| ==> !IsSpecial(s[i])
  }

  /** Python's `s.replace(a, b)` for single characters `a` and `b`. */
  function ReplaceChar(s: string, a: char, b: char): (r: string)
    ensures |r| == |s|
    ensures forall i :: 0 <= i < |s| ==> r[i] == (if s[i] == a then b else s[i])
  {
    if s == [] then [] else [if s[0] == a then b else s[0]] + ReplaceChar(s[1..], a, b)
  }

  /** The chained replacements applied to every chapter title, in the order written. */
  function SanitizeTitle(t: string): (r: string)
    ensures |r| == |t|
    ensures NoSpecial(r)
    ensures forall i :: 0 <= i < |t| && !IsSpecial(t[i]) ==> r[i] == t[i]
    ensures forall i :: 0 <= i < |t| && (t[i] == '=' || t[i] == '#' || t[i] == '\\') ==> r[i] == '-'
    ensures forall i :: 0 <= i < |t| && t[i] == ';' ==> r[i] == ','
    ensures forall i :: 0 <= i < |t| && t[i] == '\n' ==> r[i] == ' '
  {
    ReplaceChar(ReplaceChar(ReplaceChar(ReplaceChar(ReplaceChar(t, '=', '-'), ';', ','), '#', '-'), '\\', '-'), '\n', ' ')
  }

  /** Sanitising a sanitised title changes nothing. */
  lemma SanitizeIdempotent(t: string)
    ensures SanitizeTitle(SanitizeTitle(t)) == SanitizeTitle(t)
  {
    var r := SanitizeTitle(t);
    var rr := SanitizeTitle(r);
    assert forall i :: 0 <= i < |r| ==> rr[i] == r[i];
  }

  /** A title without special characters is written unchanged. */
  lemma SanitizeClean(t: string)
    requires NoSpecial(t)
    ensures SanitizeTitle(t) == t
  {
    var r := SanitizeTitle(t);
    assert forall i :: 0 <= i < |t| ==> r[i] == t[i];
  }

  /** The entry at enumeration index `i` with its defaults filled in. */
  function Resolve(i: nat, e: MetaEntry): (c: Chapter)
    ensures e.title.Some? ==> c.title == e.title.value
    ensures e.title.None? ==> c.title == "Chapter " + NatToString(i + 1)
    ensures c.startMs == (if e.startMs.Some? then e.startMs.value else 0)
    ensures c.endMs == (if e.endMs.Some? then e.endMs.value else 0)
  {
    Chapter(e.title.GetOr("Chapter " + NatToString(i + 1)), e.startMs.GetOr(0), e.endMs.GetOr(0))
  }

  /** An entry gets a block only when its end lies after its start. */
  predicate Keeps(c: Chapter) {
    c.startMs < c.endMs
  }

  /** The chapter as its block is written: the title sanitised, the times as they are. */
  function WrittenChapter(c: Chapter): (w: Chapter)
    ensures w.startMs == c.startMs && w.endMs == c.endMs && NoSpecial(w.title)
  {
    Chapter(SanitizeTitle(c.title), c.startMs, c.endMs)
  }

  /** The chapters that get a block, in input order, titles sanitised;
      `i` is the enumeration index of `es[0]`. */
  function Kept(es: seq<MetaEntry>, i: nat): (cs: seq<Chapter>)
    ensures |cs| <= |es|
    ensures forall k :: 0 <= k < |cs| ==> cs[k].startMs < cs[k].endMs && NoSpecial(cs[k].title)
    decreases |es|
  {
    if es == [] then []
    else
      var c := Resolve(i, es[0]);
      if !Keeps(c) then Kept(es[1..], i + 1)
      else [WrittenChapter(c)] + Kept(es[1..], i + 1)
  }

  /** Whether the entry at position `p` gets a block, `i` being the enumeration index of `es[0]`. */
  predicate KeepsAt(es: seq<MetaEntry>, i: nat, p: nat)
    requires p < |es|
  {
    Keeps(Resolve(i + p, es[p]))
  }

  /** The positions from `lo` on whose entry, resolved with its enumeration
      index, gets a block. */
  function KeptFrom(es: seq<MetaEntry>, i: nat, lo: nat): (ix: seq<nat>)
    requires lo <= |es|
    ensures forall k :: 0 <= k < |ix| ==> lo <= ix[k] < |es| && KeepsAt(es, i, ix[k])
    ensures forall k, l :: 0 <= k < l < |ix| ==> ix[k] < ix[l]
    decreases |es| - lo
  {
    if lo == |es| then []
    else (if KeepsAt(es, i, lo) then [lo] else []) + KeptFrom(es, i, lo + 1)
  }

  /** Every position from `lo` on that gets a block is listed. */
  lemma {:induction false} KeptFromComplete(es: seq<MetaEntry>, i: nat, lo: nat)
    requires lo <= |es|
    ensures forall p :: lo <= p < |es| && KeepsAt(es, i, p) ==> p in KeptFrom(es, i, lo)
    decreases |es| - lo
  {
    if lo < |es| {
      KeptFromComplete(es, i, lo + 1);
    }
  }

  /** The positions of the entries that get a block: increasing, and holding
      every position whose resolved end lies after its start. */
  function KeptIndexes(es: seq<MetaEntry>, i: nat): (ix: seq<nat>)
    ensures forall k :: 0 <= k < |ix| ==> ix[k] < |es| && KeepsAt(es, i, ix[k])
    ensures forall k, l :: 0 <= k < l < |ix| ==> ix[k] < ix[l]
    ensures forall p :: 0 <= p < |es| && KeepsAt(es, i, p) ==> p in ix
  {
    KeptFromComplete(es, i, 0);
    KeptFrom(es, i, 0)
  }

  /** The block chapter for the entry at position `p`, `i` being the enumeration index of `es[0]`. */
  function WrittenAt(es: seq<MetaEntry>, i: nat, p: nat): (c: Chapter)
    requires p < |es|
  {
    WrittenChapter(Resolve(i + p, es[p]))
  }

  lemma {:induction false} KeptFromIndexes(es: seq<MetaEntry>, i: nat, lo: nat)
    requires lo <= |es|
    ensures |Kept(es[lo..], i + lo)| == |KeptFrom(es, i, lo)|
    ensures forall j :: 0 <= j < |KeptFrom(es, i, lo)| ==>
              Kept(es[lo..], i + lo)[j] == WrittenAt(es, i, KeptFrom(es, i, lo)[j])
    decreases |es| - lo
  {
    if lo < |es| {
      KeptFromIndexes(es, i, lo + 1);
      KeptStep(es, i, lo);
      if KeepsAt(es, i, lo) {
        ConsIndexed(es, i, lo, Kept(es[lo..], i + lo), Kept(es[lo + 1..], i + lo + 1),
                    KeptFrom(es, i, lo), KeptFrom(es, i, lo + 1));
      } else {
        SkipIndexed(es, i, Kept(es[lo..], i + lo), Kept(es[lo + 1..], i + lo + 1),
                    KeptFrom(es, i, lo), KeptFrom(es, i, lo + 1));
      }
    }
  }

  /** An entry without a block leaves the two lists as they were. */
  lemma SkipIndexed(es: seq<MetaEntry>, i: nat, all: seq<Chapter>, rest: seq<Chapter>, jx: seq<nat>, rix: seq<nat>)
    requires all == [] + rest && jx == [] + rix
    requires |rest| == |rix|
    requires forall j :: 0 <= j < |rix| ==> rix[j] < |es| && rest[j] == WrittenAt(es, i, rix[j])
    ensures |all| == |jx|
    ensures forall j :: 0 <= j < |jx| ==> jx[j] < |es| && all[j] == WrittenAt(es, i, jx[j])
  {
    EmptyPrepend(rest);
    EmptyPrepend(rix);
  }

  /** Putting a position and its block chapter in front keeps the two lists in step. */
  lemma ConsIndexed(es: seq<MetaEntry>, i: nat, lo: nat, all: seq<Chapter>, rest: seq<Chapter>,
                    jx: seq<nat>, rix: seq<nat>)
    requires lo < |es|
    requires all == [WrittenAt(es, i, lo)] + rest && jx == [lo] + rix
    requires |rest| == |rix|
    requires forall j :: 0 <= j < |rix| ==> rix[j] < |es| && rest[j] == WrittenAt(es, i, rix[j])
    ensures |all| == |jx|
    ensures forall j :: 0 <= j < |jx| ==> jx[j] < |es| && all[j] == WrittenAt(es, i, jx[j])
  {
    forall j | 0 <= j < |jx|
      ensures jx[j] < |es| && all[j] == WrittenAt(es, i, jx[j])
    {
      if j > 0 {
        assert all[j] == rest[j - 1] && jx[j] == rix[j - 1];
      }
    }
  }

  /** One more entry in front adds its block chapter, if it gets one, and its position. */
  lemma KeptStep(es: seq<MetaEntry>, i: nat, lo: nat)
    requires lo < |es|
    ensures if KeepsAt(es, i, lo)
            then Kept(es[lo..], i + lo) == [WrittenAt(es, i, lo)] + Kept(es[lo + 1..], i + lo + 1)
                 && KeptFrom(es, i, lo) == [lo] + KeptFrom(es, i, lo + 1)
            else Kept(es[lo..], i + lo) == [] + Kept(es[lo + 1..], i + lo + 1)
                 && KeptFrom(es, i, lo) == [] + KeptFrom(es, i, lo + 1)
  {
    assert es[lo..][0] == es[lo];
    assert es[lo..][1..] == es[lo + 1..];
    EmptyPrepend(Kept(es[lo + 1..], i + lo + 1));
  }

  lemma EmptyPrepend<T>(s: seq<T>)
    ensures [] + s == s
  {
  }

  /** The kept chapters are one per kept position, in input order, each the
      entry at that position resolved and written. */
  lemma KeptAreIndexed(es: seq<MetaEntry>, i: nat)
    ensures |Kept(es, i)| == |KeptIndexes(es, i)|
    ensures forall j :: 0 <= j < |KeptIndexes(es, i)| ==>
              Kept(es, i)[j] == WrittenAt(es, i, KeptIndexes(es, i)[j])
  {
    assert es[0..] == es;
    KeptFromIndexes(es, i, 0);
  }

  /** An entry with either time missing resolves to `0 .. 0` and is never kept. */
  lemma MissingTimeDropped(i: nat, e: MetaEntry, es: seq<MetaEntry>)
    requires e.startMs.None? || e.endMs.None?
    requires e.startMs.None? ==> e.endMs.None? || e.endMs.value <= 0
    requires e.endMs.None? ==> e.startMs.None? || e.startMs.value >= 0
    ensures Kept([e] + es, i) == Kept(es, i + 1)
  {
    assert ([e] + es)[1..] == es;
  }

  // ---------------------------------------------------------------------
  // The text as a sequence of newline-terminated lines.

  /** The text up to (not including) the first newline. */
  function LineOf(s: string): (l: string)
    ensures |l| <= |s| && l == s[..|l|]
    ensures '\n' !in l
    ensures |l| == |s| || s[|l|] == '\n'
  {
    if s == [] || s[0] == '\n' then [] else [s[0]] + LineOf(s[1..])
  }

  /** Every line written followed by its newline, as the successive `write` calls produce. */
  function Unlines(ls: seq<string>): (r: string)
    decreases |ls|
  {
    if ls == [] then [] else ls[0] + "\n" + Unlines(ls[1..])
  }

  /** Splits a text into lines at each newline; a final unterminated run is a line too. */
  function Lines(s: string): (ls: seq<string>)
    ensures forall k :: 0 <= k < |ls| ==> '\n' !in ls[k]
    decreases |s|
  {
    if s == [] then []
    else
      var l := LineOf(s);
      if |l| == |s| then [s] else [l] + Lines(s[|l| + 1..])
  }

  predicate NoNewlines(ls: seq<string>) {
    forall k :: 0 <= k < |ls| ==> '\n' !in ls[k]
  }

  lemma {:induction false} LineOfLine(l: string, rest: string)
    requires '\n' !in l
    ensures LineOf(l + "\n" + rest) == l
    decreases |l|
  {
    var s := l + "\n" + rest;
    if l != [] {
      assert l[0] in l;
      assert s[1..] == l[1..] + "\n" + rest;
      LineOfLine(l[1..], rest);
      ConsTail(l);
    }
  }

  lemma AfterLine(l: string, rest: string)
    ensures (l + "\n" + rest)[|l| + 1..] == rest
  {
  }

  lemma ConsTail<T>(ls: seq<T>)
    requires ls != []
    ensures [ls[0]] + ls[1..] == ls
  {
  }

  /** Reading the lines of written lines gives them back. */
  lemma {:induction false} LinesOfUnlines(ls: seq<string>)
    requires NoNewlines(ls)
    ensures Lines(Unlines(ls)) == ls
    decreases |ls|
  {
    if ls != [] {
      var rest := Unlines(ls[1..]);
      var s := Unlines(ls);
      assert s == ls[0] + "\n" + rest;
      LineOfLine(ls[0], rest);
      AfterLine(ls[0], rest);
      assert Lines(s) == [ls[0]] + Lines(rest);
      LinesOfUnlines(ls[1..]);
      ConsTail(ls);
    }
  }

  // ---------------------------------------------------------------------
  // The metadata layout.

  function HeaderLines(podcastTitle: string): seq<string> {
    [";FFMETADATA1", "title=" + podcastTitle, "artist=Generated Podcast Bot", "", "[METADATA]", "timebase=1/1000", ""]
  }

  function ChapterLines(c: Chapter): seq<string> {
    ["[CHAPTER]", "TIMEBASE=1/1000", "START=" + IntToString(c.startMs), "END=" + IntToString(c.endMs), "title=" + c.title, ""]
  }

  /** The blocks of the chapters `cs`, one after another. */
  function Blocks(cs: seq<Chapter>): seq<string>
    decreases |cs|
  {
    if cs == [] then [] else ChapterLines(cs[0]) + Blocks(cs[1..])
  }

  /** The block lines for the entries `es`, the first of which has enumeration index `i`. */
  function BodyLines(es: seq<MetaEntry>, i: nat): seq<string> {
    Blocks(Kept(es, i))
  }

  /** The whole text written to the metadata file. */
  function MetadataText(podcastTitle: string, es: seq<MetaEntry>): string {
    Unlines(HeaderLines(podcastTitle) + BodyLines(es, 0))
  }

  /** The header starts with the format's signature line. */
  lemma MetadataStartsWithSignature(podcastTitle: string, es: seq<MetaEntry>)
    ensures |MetadataText(podcastTitle, es)| >= 13
    ensures MetadataText(podcastTitle, es)[..13] == ";FFMETADATA1\n"
  {
    var hs := HeaderLines(podcastTitle) + BodyLines(es, 0);
    assert hs[0] == ";FFMETADATA1";
  }

  // ---------------------------------------------------------------------
  // Reading the text back.

  /** The value of a `key` line, or `None` when the line has another key. */
  function Field(key: string, line: string): (v: Option<string>)
    ensures v.Some? ==> line == key + v.value
  {
    if |key| <= |line| && line[..|key|] == key then Some(line[|key|..]) else None
  }

  lemma FieldOf(key: string, v: string)
    ensures Field(key, key + v) == Some(v)
  {
    assert (key + v)[..|key|] == key;
    assert (key + v)[|key|..] == v;
  }

  function IntField(key: string, line: string): Option<int> {
    match Field(key, line)
    case None => None
    case Some(v) => ParseInt(v)
  }

  function ParseChapter(ls: seq<string>): Option<Chapter>
    requires |ls| >= 6
  {
    if ls[0] != "[CHAPTER]" || ls[1] != "TIMEBASE=1/1000" || ls[5] != "" then None
    else
      match (IntField("START=", ls[2]), IntField("END=", ls[3]), Field("title=", ls[4]))
      case (Some(s), Some(e), Some(t)) => Some(Chapter(t, s, e))
      case _ => None
  }

  /** Reads consecutive six-line chapter blocks. */
  function ParseBody(ls: seq<string>): Option<seq<Chapter>>
    decreases |ls|
  {
    if ls == [] then Some([])
    else if |ls| < 6 then None
    else
      match (ParseChapter(ls[..6]), ParseBody(ls[6..]))
      case (Some(c), Some(cs)) => Some([c] + cs)
      case _ => None
  }

  /** Reads a metadata text back into the podcast title and its chapters. */
  function ParseMetadata(text: string): Option<(string, seq<Chapter>)> {
    var ls := Lines(text);
    if |ls| < 7 || ls[0] != ";FFMETADATA1" || ls[2] != "artist=Generated Podcast Bot"
       || ls[3] != "" || ls[4] != "[METADATA]" || ls[5] != "timebase=1/1000" || ls[6] != ""
    then None
    else
      match (Field("title=", ls[1]), ParseBody(ls[7..]))
      case (Some(t), Some(cs)) => Some((t, cs))
      case _ => None
  }

  lemma ParseChapterLines(c: Chapter)
    ensures ParseChapter(ChapterLines(c)) == Some(c)
  {
    var ls := ChapterLines(c);
    FieldOf("START=", IntToString(c.startMs));
    FieldOf("END=", IntToString(c.endMs));
    FieldOf("title=", c.title);
    ParseIntOfIntToString(c.startMs);
    ParseIntOfIntToString(c.endMs);
    assert ls[..6] == ls;
  }

  lemma ChapterLinesNoNewline(c: Chapter)
    requires NoSpecial(c.title)
    ensures NoNewlines(ChapterLines(c))
  {
    var ls := ChapterLines(c);
    var s := IntToString(c.startMs);
    var e := IntToString(c.endMs);
    assert forall k :: 0 <= k < |s| ==> s[k] != '\n';
    assert forall k :: 0 <= k < |e| ==> e[k] != '\n';
    assert forall k :: 0 <= k < |c.title| ==> c.title[k] != '\n';
    assert '\n' !in ls[2] && '\n' !in ls[3] && '\n' !in ls[4];
  }

  lemma NoNewlinesAppend(a: seq<string>, b: seq<string>)
    requires NoNewlines(a) && NoNewlines(b)
    ensures NoNewlines(a + b)
  {
    forall k | 0 <= k < |a + b|
      ensures '\n' !in (a + b)[k]
    {
      if k >= |a| {
        assert (a + b)[k] == b[k - |a|];
      }
    }
  }

  lemma {:induction false} BlocksNoNewline(cs: seq<Chapter>)
    requires forall k :: 0 <= k < |cs| ==> NoSpecial(cs[k].title)
    ensures NoNewlines(Blocks(cs))
    decreases |cs|
  {
    if cs != [] {
      BlocksNoNewline(cs[1..]);
      ChapterLinesNoNewline(cs[0]);
      NoNewlinesAppend(ChapterLines(cs[0]), Blocks(cs[1..]));
    }
  }

  lemma BodyLinesNoNewline(es: seq<MetaEntry>, i: nat)
    ensures NoNewlines(BodyLines(es, i))
  {
    BlocksNoNewline(Kept(es, i));
  }

  /** The chapter blocks read back as exactly the chapters written. */
  lemma {:induction false} ParseBlocks(cs: seq<Chapter>)
    ensures ParseBody(Blocks(cs)) == Some(cs)
    decreases |cs|
  {
    if cs != [] {
      var a := ChapterLines(cs[0]);
      var b := Blocks(cs[1..]);
      assert (a + b)[..6] == a;
      assert (a + b)[6..] == b;
      ParseChapterLines(cs[0]);
      ParseBlocks(cs[1..]);
      assert [cs[0]] + cs[1..] == cs;
    }
  }

  /** The lines of the written text are the header lines followed by the block lines. */
  lemma MetadataLines(podcastTitle: string, es: seq<MetaEntry>)
    requires '\n' !in podcastTitle
    ensures Lines(MetadataText(podcastTitle, es)) == HeaderLines(podcastTitle) + BodyLines(es, 0)
  {
    var h := HeaderLines(podcastTitle);
    assert forall k :: 0 <= k < |podcastTitle| ==> podcastTitle[k] != '\n';
    assert '\n' !in h[1];
    assert NoNewlines(h);
    BodyLinesNoNewline(es, 0);
    NoNewlinesAppend(h, BodyLines(es, 0));
    LinesOfUnlines(h + BodyLines(es, 0));
  }

  lemma ParseHeaderThenBody(podcastTitle: string, b: seq<string>, cs: seq<Chapter>)
    requires Lines(Unlines(HeaderLines(podcastTitle) + b)) == HeaderLines(podcastTitle) + b
    requires ParseBody(b) == Some(cs)
    ensures ParseMetadata(Unlines(HeaderLines(podcastTitle) + b)) == Some((podcastTitle, cs))
  {
    var ls := HeaderLines(podcastTitle) + b;
    assert ls[7..] == b;
    FieldOf("title=", podcastTitle);
  }

  /** Reading the written metadata gives back the podcast title, verbatim, and
      the chapters whose end lies after their start, in input order, with
      sanitised titles. */
  lemma MetadataRoundTrip(podcastTitle: string, es: seq<MetaEntry>)
    requires '\n' !in podcastTitle
    ensures ParseMetadata(MetadataText(podcastTitle, es)) == Some((podcastTitle, Kept(es, 0)))
  {
    MetadataLines(podcastTitle, es);
    ParseBlocks(Kept(es, 0));
    ParseHeaderThenBody(podcastTitle, BodyLines(es, 0), Kept(es, 0));
  }
}

=== FILE: config.dfy ===
/** Setting lookup and the check for missing required settings. The process
    environment, the deployment flag and the local settings file are
    parameters. */
module Config {
  import opened Wrappers

  /** Where settings come from: the process environment and the values of
      the local settings file (empty when it is missing, is not valid JSON,
      or fails to decode). */
  datatype Sources = Sources(env: map<string, string>, local: map<string, string>)

  /** The job runs in the cloud deployment when the environment names an instance. */
  predicate InAzure(env: map<string, string>) {
    "WEBSITE_INSTANCE_ID" in env
  }

  /** `get_setting`: the environment value if the name is set there, even to
      the empty string; otherwise, outside the deployment, the local value or
      the default; in the deployment, the default. */
  function GetSetting(src: Sources, name: string, default: Option<string>): (r: Option<string>)
    ensures name in src.env ==> r == Some(src.env[name])
    ensures name !in src.env && InAzure(src.env) ==> r == default
    ensures name !in src.env && !InAzure(src.env) ==> r == (if name in src.local then Some(src.local[name]) else default)
  {
    if name in src.env then Some(src.env[name])
    else if !InAzure(src.env) then (if name in src.local then Some(src.local[name]) else default)
    else default
  }

  /** A value is reported only from a source that holds it or from the default. */
  lemma GetSettingOrigin(src: Sources, name: string, default: Option<string>)
    ensures var r := GetSetting(src, name, default);
            r == default
            || (name in src.env && r == Some(src.env[name]))
            || (!InAzure(src.env) && name in src.local && r == Some(src.local[name]))
  {
  }

  /** An environment value wins over everything else, even when it is empty:
      neither the local settings nor the default matter. */
  lemma EnvironmentWins(src: Sources, name: string, default: Option<string>, local: map<string, string>)
    requires name in src.env
    ensures GetSetting(src, name, default) == GetSetting(Sources(src.env, local), name, None)
  {
  }

  /** In the deployment the local settings file has no effect. */
  lemma AzureIgnoresLocal(src: Sources, name: string, default: Option<string>)
    requires InAzure(src.env)
    ensures GetSetting(src, name, default) == GetSetting(Sources(src.env, map[]), name, default)
  {
  }

  const OpenAiKey := "OPENAI_API_KEY"
  const ConnectionString := "AZURE_STORAGE_CONNECTION_STRING"
  const ContainerName := "AZURE_STORAGE_CONTAINER_NAME"
  const TargetEmail := "TARGET_EMAIL_ADDRESS"
  const DefaultContainer := "podcast-audio"

  /** The required settings, in the order they are checked. */
  const Required: seq<string> := [OpenAiKey, ConnectionString, ContainerName, TargetEmail]

  /** The default of a required setting: only the container name has one. */
  function RequiredDefault(name: string): Option<string> {
    if name == ContainerName then Some(DefaultContainer) else None
  }

  /** The names among `names` whose looked-up value is empty or unset, in order. */
  function MissingAmong(src: Sources, names: seq<string>): (r: seq<string>)
    ensures |r| <= |names|
    decreases |names|
  {
    if names == [] then []
    else
      var rest := MissingAmong(src, names[1..]);
      if Truthy(GetSetting(src, names[0], RequiredDefault(names[0]))) then rest else [names[0]] + rest
  }

  /** `missing_settings`. */
  function MissingSettings(src: Sources): seq<string> {
    MissingAmong(src, Required)
  }

  /** A name is reported exactly when it is among those checked and its value
      is empty or unset. */
  lemma {:induction false} MissingAmongIff(src: Sources, names: seq<string>, name: string)
    ensures name in MissingAmong(src, names) <==> name in names && !Truthy(GetSetting(src, name, RequiredDefault(name)))
    decreases |names|
  {
    if names != [] {
      MissingAmongIff(src, names[1..], name);
      assert name in names <==> name == names[0] || name in names[1..];
    }
  }

  /** The report keeps the order of the names checked: it is a subsequence of them. */
  lemma {:induction false} MissingAmongOrdered(src: Sources, names: seq<string>)
    ensures IsSubsequence(MissingAmong(src, names), names)
    decreases |names|
  {
    if names != [] {
      MissingAmongOrdered(src, names[1..]);
      var rest := MissingAmong(src, names[1..]);
      SubsequenceExtend(rest, names[1..], names[0]);
      if !Truthy(GetSetting(src, names[0], RequiredDefault(names[0]))) {
        SubsequenceCons(rest, names[1..], names[0]);
      }
    }
  }

  /** `a` is `b` with some elements left out. */
  predicate IsSubsequence<T(==)>(a: seq<T>, b: seq<T>)
    decreases |b|
  {
    a == [] || (b != [] && ((a[0] == b[0] && IsSubsequence(a[1..], b[1..])) || IsSubsequence(a, b[1..])))
  }

  lemma SubsequenceExtend<T>(a: seq<T>, b: seq<T>, x: T)
    requires IsSubsequence(a, b)
    ensures IsSubsequence(a, [x] + b)
  {
    assert ([x] + b)[1..] == b;
  }

  lemma SubsequenceCons<T>(a: seq<T>, b: seq<T>, x: T)
    requires IsSubsequence(a, b)
    ensures IsSubsequence([x] + a, [x] + b)
  {
    assert ([x] + a)[1..] == a;
    assert ([x] + b)[1..] == b;
  }

  /** The container name is reported missing only when it is explicitly set
      to the empty string, since it has a default. */
  lemma ContainerMissingIff(src: Sources)
    ensures ContainerName in MissingSettings(src) <==> GetSetting(src, ContainerName, None) == Some("")
  {
    MissingAmongIff(src, Required, ContainerName);
  }

  /** With every required name set to a non-empty value in the environment,
      nothing is missing. */
  lemma NothingMissing(src: Sources)
    requires forall n :: n in Required ==> n in src.env && src.env[n] != []
    ensures MissingSettings(src) == []
  {
    if MissingSettings(src) != [] {
      var n := MissingSettings(src)[0];
      MissingAmongIff(src, Required, n);
    }
  }
}

=== FILE: content_parser.dfy ===
/** The text normalisation of the content parser (`_clean_text`) and the
    HTML-first, plain-text-fallback selection of `parse_content`. The HTML
    extractor itself is a parameter: `extract(html)` is its result, or `None`
    when it raised. */
module ContentParser {
  import opened Wrappers
  import opened Strings

  /** `re.sub(r'\s+', ' ', s)`: every maximal whitespace run becomes one space. */
  function CollapseSpaces(s: string): string
    decreases |s|
  {
    if s == [] then []
    else if IsSpace(s[0]) then
      assert TrimStart(s) != s;
      " " + CollapseSpaces(TrimStart(s))
    else [s[0]] + CollapseSpaces(s[1..])
  }

  /** The leading run of non-whitespace characters of `s`. */
  function TakeWord(s: string): (w: string)
    ensures |w| <= |s| && w == s[..|w|] && NoSpace(w)
    ensures |w| == |s| || IsSpace(s[|w|])
  {
    if s == [] || IsSpace(s[0]) then [] else [s[0]] + TakeWord(s[1..])
  }

  /** Python's `str.split()` with no argument: the maximal runs of
      non-whitespace characters of `s`, in order. */
  function Words(s: string): (ws: seq<string>)
    ensures ValidWords(ws)
    decreases |s|
  {
    var t := TrimStart(s);
    if t == [] then []
    else
      var w := TakeWord(t);
      assert w != [] by { assert !IsSpace(t[0]); }
      var rest := Words(t[|w|..]);
      ConsValidWords(w, rest);
      [w] + rest
  }

  lemma ConsValidWords(w: string, ws: seq<string>)
    requires w != [] && NoSpace(w) && ValidWords(ws)
    ensures ValidWords([w] + ws)
  {
  }

  /** One step of `Words` on a string that starts with a non-whitespace character. */
  lemma WordsUnfold(s: string)
    requires s != [] && !IsSpace(s[0])
    ensures TakeWord(s) != []
    ensures Words(s) == [TakeWord(s)] + Words(s[|TakeWord(s)|..])
  {
    assert TakeWord(s) == [s[0]] + TakeWord(s[1..]);
  }

  /** A string is its leading word followed by whitespace-led rest. */
  lemma WordSplit(s: string)
    ensures s == TakeWord(s) + s[|TakeWord(s)|..]
    ensures s[|TakeWord(s)|..] == [] || IsSpace(s[|TakeWord(s)|])
  {
    var w := TakeWord(s);
    assert s == s[..|w|] + s[|w|..];
  }

  /** Python's `len(s.split())`. */
  function WordCount(s: string): nat {
    |Words(s)|
  }

  /** `_clean_text`: collapse whitespace runs to one space, then strip. */
  function CleanText(s: string): (r: string)
    ensures r == Join(" ", Words(s))
  {
    CleanTextIsJoinedWords(s);
    if s == [] then [] else Strip(CollapseSpaces(s))
  }

  /** Every whitespace character of `s` is a single `' '` between two
      non-whitespace characters; in particular `s` has no whitespace at either
      end and no whitespace run longer than one. */
  predicate IsNormalized(s: string) {
    forall i :: 0 <= i < |s| && IsSpace(s[i]) ==>
      s[i] == ' ' && 0 < i < |s| - 1 && !IsSpace(s[i - 1]) && !IsSpace(s[i + 1])
  }

  /** The non-whitespace characters of `s`, in order. */
  function NonSpaces(s: string): (r: string)
    ensures NoSpace(r)
  {
    if s == [] then []
    else if IsSpace(s[0]) then NonSpaces(s[1..])
    else [s[0]] + NonSpaces(s[1..])
  }

  predicate AllSpace(s: string) {
    forall i :: 0 <= i < |s| ==> IsSpace(s[i])
  }

  predicate ValidWords(ws: seq<string>) {
    forall i :: 0 <= i < |ws| ==> ws[i] != [] && NoSpace(ws[i])
  }

  function Concat(ws: seq<string>): string {
    if ws == [] then [] else ws[0] + Concat(ws[1..])
  }

  /** `" "` when `s` ends in whitespace, otherwise empty. */
  function Trail(s: string): string {
    if s != [] && IsSpace(s[|s| - 1]) then " " else ""
  }

  // ---------------------------------------------------------------------------
  // Proof that `CleanText` is the space-joined word list.

  lemma {:induction false} CollapseWordPrefix(w: string, x: string)
    requires NoSpace(w)
    ensures CollapseSpaces(w + x) == w + CollapseSpaces(x)
    decreases |w|
  {
    if w == [] {
      assert w + x == x;
    } else {
      assert (w + x)[1..] == w[1..] + x;
      CollapseWordPrefix(w[1..], x);
    }
  }

  /** Words skip leading whitespace. */
  lemma WordsTrimStart(s: string)
    ensures Words(s) == Words(TrimStart(s))
  {
  }

  lemma SeqCons(ws: seq<string>)
    requires ws != []
    ensures [ws[0]] + ws[1..] == ws
  {
  }

  lemma ConcatAssoc3(a: string, b: string, c: string)
    ensures a + (b + c) == a + b + c
  {
  }

  lemma ConcatAssoc(a: string, b: string, c: string, d: string)
    ensures a + (b + (c + d)) == a + b + c + d
  {
  }

  lemma TrailOfSuffix(s: string, t: string)
    requires t != [] && |t| <= |s| && t == s[|s| - |t|..]
    ensures Trail(t) == Trail(s)
  {
    assert t[|t| - 1] == s[|s| - 1];
  }

  /** Collapsing passes a leading word through unchanged. */
  lemma {:induction false} CollapseTakeWord(s: string)
    ensures CollapseSpaces(s) == TakeWord(s) + CollapseSpaces(s[|TakeWord(s)|..])
    decreases |s|
  {
    if s == [] || IsSpace(s[0]) {
      assert TakeWord(s) == [];
      assert s[|TakeWord(s)|..] == s;
    } else {
      var tw, rest := TakeWord(s[1..]), s[|TakeWord(s)|..];
      CollapseTakeWord(s[1..]);
      assert TakeWord(s) == [s[0]] + tw;
      assert s[1..][|tw|..] == rest;
      assert CollapseSpaces(s) == [s[0]] + (tw + CollapseSpaces(rest));
      ConcatAssoc3([s[0]], tw, CollapseSpaces(rest));
    }
  }

  /** On a string with no leading whitespace, collapsing gives the joined words
      plus one space when the string ends in whitespace. */
  lemma {:induction false} CollapseNoLead(s: string)
    requires s == [] || !IsSpace(s[0])
    ensures CollapseSpaces(s) == Join(" ", Words(s)) + Trail(s)
    decreases |s|
  {
    if s == [] {
      assert Words(s) == [];
    } else {
      var w := TakeWord(s);
      var rest := s[|w|..];
      WordsUnfold(s);
      CollapseTakeWord(s);
      if rest == [] {
        assert s[|s| - 1] == w[|w| - 1];
        assert Words(rest) == [] && CollapseSpaces(rest) == [];
        JoinOne(" ", w);
        ConcatEmpty(w);
      } else {
        var t := TrimStart(rest);
        WordsTrimStart(rest);
        CollapseNoLead(t);
        if t == [] {
          assert AllSpace(rest);
          assert s[|s| - 1] == rest[|rest| - 1];
          assert Words(t) == [] && CollapseSpaces(t) == [];
          JoinOne(" ", w);
          ConcatEmpty(" ");
        } else {
          WordsUnfold(t);
          JoinCons(" ", w, Words(t));
          TrailOfSuffix(s, t);
          ConcatAssoc(w, " ", Join(" ", Words(t)), Trail(t));
        }
      }
    }
  }

  lemma TrimStartSpaceCons(x: string)
    ensures TrimStart(" " + x) == TrimStart(x)
  {
    assert IsSpace(' ');
    assert (" " + x)[1..] == x;
  }

  lemma {:induction false} TrimStartAfterSpaces(a: string, x: string)
    requires AllSpace(a)
    ensures TrimStart(a + x) == TrimStart(x)
    decreases |a|
  {
    if a != [] {
      assert (a + x)[1..] == a[1..] + x;
      TrimStartAfterSpaces(a[1..], x);
    } else {
      assert a + x == x;
    }
  }

  lemma {:induction false} TrimEndBeforeSpaces(x: string, b: string)
    requires AllSpace(b)
    ensures TrimEnd(x + b) == TrimEnd(x)
    decreases |b|
  {
    if b != [] {
      assert (x + b)[..|x + b| - 1] == x + b[..|b| - 1];
      TrimEndBeforeSpaces(x, b[..|b| - 1]);
    } else {
      assert x + b == x;
    }
  }

  /** Stripping whitespace padding off a string with no edge whitespace gives it back. */
  lemma StripPadded(a: string, j: string, b: string)
    requires AllSpace(a) && AllSpace(b) && NoEdgeSpace(j)
    ensures Strip(a + j + b) == j
  {
    ConcatAssoc3(a, j, b);
    TrimStartAfterSpaces(a, j + b);
    TrimPaddedEnd(j, b);
    StripUnfold(a + j + b);
  }

  lemma StripUnfold(s: string)
    ensures Strip(s) == TrimEnd(TrimStart(s))
  {
  }

  lemma TrimPaddedEnd(j: string, b: string)
    requires AllSpace(b) && NoEdgeSpace(j)
    ensures TrimEnd(TrimStart(j + b)) == j
  {
    if j == [] {
      assert j + b == b;
      TrimStartAfterSpaces(b, []);
      assert b + [] == b;
    } else {
      assert (j + b)[0] == j[0];
      TrimEndBeforeSpaces(j, b);
    }
  }

  lemma {:induction false} JoinEdges(ws: seq<string>)
    requires ValidWords(ws)
    ensures ws != [] ==> Join(" ", ws) != [] && Join(" ", ws)[0] == ws[0][0]
    ensures ws != [] ==> Join(" ", ws)[|Join(" ", ws)| - 1] == ws[|ws| - 1][|ws[|ws| - 1]| - 1]
    ensures NoEdgeSpace(Join(" ", ws))
    decreases |ws|
  {
    if |ws| > 1 {
      JoinEdges(ws[1..]);
    }
  }

  lemma CleanTextIsJoinedWords(s: string)
    ensures s != [] ==> Strip(CollapseSpaces(s)) == Join(" ", Words(s))
  {
    if s != [] {
      if IsSpace(s[0]) {
        CleanLeadingSpace(s);
      } else {
        CleanNoLead(s);
      }
    }
  }

  lemma CleanLeadingSpace(s: string)
    requires s != [] && IsSpace(s[0])
    ensures Strip(CollapseSpaces(s)) == Join(" ", Words(s))
  {
    var t := TrimStart(s);
    assert CollapseSpaces(s) == " " + CollapseSpaces(t);
    StripSpaceCons(CollapseSpaces(t));
    WordsTrimStart(s);
    if t == [] {
      assert Words(t) == [];
      StripUnfold([]);
    } else {
      CleanNoLead(t);
    }
  }

  lemma StripSpaceCons(x: string)
    ensures Strip(" " + x) == Strip(x)
  {
    TrimStartSpaceCons(x);
    StripUnfold(" " + x);
    StripUnfold(x);
  }

  lemma CleanNoLead(s: string)
    requires s != [] && !IsSpace(s[0])
    ensures Strip(CollapseSpaces(s)) == Join(" ", Words(s))
  {
    var c := CollapseSpaces(s);
    var j := Join(" ", Words(s));
    var tr := Trail(s);
    assert c == [] + j + tr by {
      CollapseNoLead(s);
      ConcatEmpty(j);
    }
    assert NoEdgeSpace(j) by { JoinEdges(Words(s)); }
    TrailIsSpace(s);
    StripOf(c, [], j, tr);
  }

  lemma TrailIsSpace(s: string)
    ensures AllSpace(Trail(s))
  {
    assert IsSpace(' ');
  }

  lemma StripOf(x: string, a: string, j: string, b: string)
    requires x == a + j + b && AllSpace(a) && AllSpace(b) && NoEdgeSpace(j)
    ensures Strip(x) == j
  {
    StripPadded(a, j, b);
  }

  // ---------------------------------------------------------------------------
  // What `CleanText` promises.

  lemma {:induction false} JoinIsNormalized(ws: seq<string>)
    requires ValidWords(ws)
    ensures IsNormalized(Join(" ", ws))
    decreases |ws|
  {
    if |ws| > 1 {
      JoinIsNormalized(ws[1..]);
      JoinEdges(ws[1..]);
      var w := ws[0];
      var rest := Join(" ", ws[1..]);
      var j := w + " " + rest;
      assert Join(" ", ws) == j;
      forall i | 0 <= i < |j| && IsSpace(j[i])
        ensures j[i] == ' ' && 0 < i < |j| - 1 && !IsSpace(j[i - 1]) && !IsSpace(j[i + 1])
      {
        if i < |w| {
          assert false;
        } else if i == |w| {
          assert j[i + 1] == rest[0];
        } else {
          assert j[i] == rest[i - |w| - 1];
          if i == |w| + 1 {
            assert false;
          }
          assert j[i - 1] == rest[i - |w| - 2];
        }
      }
    }
  }

  lemma {:induction false} NonSpacesConcat(a: string, b: string)
    ensures NonSpaces(a + b) == NonSpaces(a) + NonSpaces(b)
    decreases |a|
  {
    if a == [] {
      assert a + b == b;
    } else {
      assert (a + b)[1..] == a[1..] + b;
      NonSpacesConcat(a[1..], b);
    }
  }

  lemma {:induction false} NonSpacesOfWord(w: string)
    requires NoSpace(w)
    ensures NonSpaces(w) == w
    decreases |w|
  {
    if w != [] {
      NonSpacesOfWord(w[1..]);
    }
  }

  lemma {:induction false} NonSpacesOfSpaces(a: string)
    requires AllSpace(a)
    ensures NonSpaces(a) == []
    decreases |a|
  {
    if a != [] {
      NonSpacesOfSpaces(a[1..]);
    }
  }

  lemma {:induction false} NonSpacesOfJoin(ws: seq<string>)
    requires ValidWords(ws)
    ensures NonSpaces(Join(" ", ws)) == Concat(ws)
    decreases |ws|
  {
    if |ws| == 1 {
      NonSpacesOfWord(ws[0]);
      assert Concat(ws) == ws[0] + Concat([]);
    } else if |ws| > 1 {
      NonSpacesOfJoin(ws[1..]);
      NonSpacesConcat(ws[0] + " ", Join(" ", ws[1..]));
      NonSpacesConcat(ws[0], " ");
      NonSpacesOfWord(ws[0]);
    }
  }

  lemma {:induction false} ConcatOfWords(s: string)
    ensures Concat(Words(s)) == NonSpaces(s)
    decreases |s|
  {
    var t := TrimStart(s);
    assert NonSpaces(s) == NonSpaces(t) by {
      var a := s[..|s| - |t|];
      assert s == a + t;
      assert AllSpace(a);
      NonSpacesConcat(a, t);
      NonSpacesOfSpaces(a);
    }
    assert Words(s) == Words(t) by { WordsTrimStart(s); }
    if t != [] {
      var w := TakeWord(t);
      var rest := t[|w|..];
      WordsUnfold(t);
      assert NonSpaces(t) == w + NonSpaces(rest) by {
        WordSplit(t);
        NonSpacesConcat(w, rest);
        NonSpacesOfWord(w);
      }
      ConcatOfWords(rest);
      assert ([w] + Words(rest))[1..] == Words(rest);
    }
  }

  /** Cleaning keeps exactly the non-whitespace characters, in their order. */
  lemma CleanTextKeepsNonSpaces(s: string)
    ensures NonSpaces(CleanText(s)) == NonSpaces(s)
  {
    NonSpacesOfJoin(Words(s));
    ConcatOfWords(s);
  }

  /** Cleaning leaves no leading, trailing or repeated whitespace. */
  lemma CleanTextIsNormalized(s: string)
    ensures IsNormalized(CleanText(s))
  {
    JoinIsNormalized(Words(s));
  }

  lemma {:induction false} TakeWordPrefix(w: string, x: string)
    requires NoSpace(w)
    requires x == [] || IsSpace(x[0])
    ensures TakeWord(w + x) == w
    decreases |w|
  {
    if w == [] {
      assert w + x == x;
    } else {
      assert (w + x)[1..] == w[1..] + x;
      TakeWordPrefix(w[1..], x);
    }
  }

  lemma WordsOfWordThenRest(w: string, x: string)
    requires w != [] && NoSpace(w)
    requires x == [] || IsSpace(x[0])
    ensures Words(w + x) == [w] + Words(x)
  {
    WordsUnfold(w + x);
    TakeWordPrefix(w, x);
    assert (w + x)[|w|..] == x;
  }

  /** Splitting a space-joined word list gives the words back. */
  lemma {:induction false} WordsOfJoin(ws: seq<string>)
    requires ValidWords(ws)
    ensures Words(Join(" ", ws)) == ws
    decreases |ws|
  {
    if |ws| == 1 {
      WordsOfWordThenRest(ws[0], []);
      assert ws[0] + [] == ws[0];
    } else if |ws| > 1 {
      var x := Join(" ", ws[1..]);
      JoinEdges(ws[1..]);
      ConcatAssoc3(ws[0], " ", x);
      WordsOfWordThenRest(ws[0], " " + x);
      WordsTrimStart(" " + x);
      TrimStartSpaceCons(x);
      WordsOfJoin(ws[1..]);
      SeqCons(ws);
    }
  }

  /** `_clean_text` is idempotent. */
  lemma CleanTextIdempotent(s: string)
    ensures CleanText(CleanText(s)) == CleanText(s)
  {
    WordsOfJoin(Words(s));
  }

  /** Cleaning yields the empty string exactly for all-whitespace input. */
  lemma CleanTextEmptyIff(s: string)
    ensures CleanText(s) == [] <==> AllSpace(s)
  {
    JoinEdges(Words(s));
    if AllSpace(s) {
      TrimStartAfterSpaces(s, []);
      assert s + [] == s;
    }
  }

  // ---------------------------------------------------------------------------
  // `parse_content`.

  /** `parse_content`: the HTML extraction when it gives text, else the cleaned
      plain body when there is one, else the empty string. */
  function ParseContent(plain: Option<string>, html: Option<string>,
                        extract: string -> Option<string>): (r: string)
    ensures Truthy(html) && Truthy(extract(html.value)) ==> r == extract(html.value).value
    ensures !(Truthy(html) && Truthy(extract(html.value))) && Truthy(plain) ==>
              r == CleanText(plain.value)
    ensures r == [] <==>
              !(Truthy(html) && Truthy(extract(html.value)))
              && (!Truthy(plain) || AllSpace(plain.value))
  {
    var content :=
      if Truthy(html) then
        match extract(html.value)
        case Some(text) => text
        case None => ""
      else "";
    if content == [] && Truthy(plain) then
      CleanTextEmptyIff(plain.value);
      CleanText(plain.value)
    else content
  }
}

=== FILE: decimal.dfy ===
/** Decimal rendering of integers as Python's `str(n)` and the `0Nd` format
    specification produce it, together with the inverse reading used to state
    that the rendering loses nothing. */
module Decimal {
  import opened Wrappers

  predicate IsDigit(c: char) {
    '0' <= c <= '9'
  }

  predicate AllDigits(s: string) {
    forall i :: 0 <= i < |s| ==> IsDigit(s[i])
  }

  function DigitChar(d: nat): (c: char)
    requires d < 10
    ensures IsDigit(c)
  {
    ('0' as int + d) as char
  }

  function DigitValue(c: char): (d: nat)
    requires IsDigit(c)
    ensures d < 10
  {
    c as int - '0' as int
  }

  /** Python's `str(n)` for a non-negative `n`: the shortest decimal numeral. */
  function NatToString(n: nat): (r: string)
    ensures |r| >= 1 && AllDigits(r)
    ensures r[0] == '0' ==> n == 0
  {
    if n < 10 then [DigitChar(n)] else NatToString(n / 10) + [DigitChar(n % 10)]
  }

  /** The value of a (possibly empty) run of decimal digits, most significant first. */
  function DigitsValue(s: string): nat
    requires AllDigits(s)
  {
    if s == [] then 0 else DigitsValue(s[..|s| - 1]) * 10 + DigitValue(s[|s| - 1])
  }

  lemma {:induction false} DigitsValueOfNatToString(n: nat)
    ensures DigitsValue(NatToString(n)) == n
  {
    if n >= 10 {
      var s := NatToString(n);
      assert s[..|s| - 1] == NatToString(n / 10);
      DigitsValueOfNatToString(n / 10);
    }
  }

  /** Python's `str(n)` for any integer: a minus sign before the numeral of `-n`. */
  function IntToString(n: int): (r: string)
    ensures r != []
    ensures forall i :: 0 <= i < |r| ==> IsDigit(r[i]) || r[i] == '-'
  {
    if n < 0 then "-" + NatToString(-n) else NatToString(n)
  }

  /** Reads back an optionally negative decimal numeral; `None` for anything else. */
  function ParseInt(s: string): Option<int> {
    if s == [] then None
    else if s[0] == '-' then
      if |s| > 1 && AllDigits(s[1..]) then Some(-(DigitsValue(s[1..]) as int)) else None
    else if AllDigits(s) then Some(DigitsValue(s))
    else None
  }

  /** Rendering an integer and reading it back gives the integer. */
  lemma ParseIntOfIntToString(n: int)
    ensures ParseInt(IntToString(n)) == Some(n)
  {
    if n < 0 {
      DigitsValueOfNatToString(-n);
      assert IntToString(n)[1..] == NatToString(-n);
    } else {
      DigitsValueOfNatToString(n);
    }
  }

  function Zeros(k: nat): (r: string)
    ensures |r| == k
    ensures forall i :: 0 <= i < k ==> r[i] == '0'
  {
    seq(k, _ => '0')
  }

  /** Python's `f"{n:0{width}d}"` for a non-negative `n`: the numeral of `n`
      left-padded with zeros to at least `width` characters. */
  function ZeroPad(n: nat, width: nat): (r: string)
    ensures |r| == if |NatToString(n)| < width then width else |NatToString(n)|
    ensures AllDigits(r)
    ensures r[|r| - |NatToString(n)|..] == NatToString(n)
  {
    var digits := NatToString(n);
    var pad := if |digits| < width then width - |digits| else 0;
    Zeros(pad) + digits
  }

  /** Leading zeros do not change the value of a numeral. */
  lemma {:induction false} LeadingZerosValue(k: nat, s: string)
    requires AllDigits(s)
    ensures AllDigits(Zeros(k) + s)
    ensures DigitsValue(Zeros(k) + s) == DigitsValue(s)
    decreases |s| + k
  {
    var z := Zeros(k) + s;
    if s == [] {
      assert z == Zeros(k);
      if k > 0 {
        assert z[..|z| - 1] == Zeros(k - 1);
        LeadingZerosValue(k - 1, []);
        assert Zeros(k - 1) + [] == Zeros(k - 1);
      }
    } else {
      assert z[..|z| - 1] == Zeros(k) + s[..|s| - 1];
      LeadingZerosValue(k, s[..|s| - 1]);
    }
  }

  /** A zero-padded numeral reads back as the number it renders. */
  lemma ZeroPadValue(n: nat, width: nat)
    ensures DigitsValue(ZeroPad(n, width)) == n
  {
    var digits := NatToString(n);
    var pad := if |digits| < width then width - |digits| else 0;
    LeadingZerosValue(pad, digits);
    DigitsValueOfNatToString(n);
  }
}

=== FILE: email_client.dfy ===
/** The text handling of the mail client: the search query built from the
    sender list, the sender address taken from the `From` header, and the
    choice of plain-text and HTML bodies among the MIME parts of a message.
    Base64url and UTF-8 decoding together are the parameter `decode`. */
module EmailClient {
  import opened Wrappers
  import opened Strings
  import opened ContentParser

  // ---------------------------------------------------------------------
  // The search query.

  function FromTerms(sources: seq<string>): (ts: seq<string>)
    ensures |ts| == |sources|
    ensures forall k :: 0 <= k < |sources| ==> ts[k] == "from:" + sources[k]
  {
    seq(|sources|, k requires 0 <= k < |sources| => "from:" + sources[k])
  }

  /** The query: the senders as `from:` terms joined by `OR`, grouped, then the date bound. */
  function Query(sources: seq<string>, cutoff: string): string {
    "(" + Join(" OR ", FromTerms(sources)) + ") after:" + cutoff
  }

  /** One more sender adds one more `OR from:` term at the end of the group. */
  lemma QueryAppend(sources: seq<string>, s: string, cutoff: string)
    requires sources != []
    ensures Query(sources + [s], cutoff)
         == "(" + Join(" OR ", FromTerms(sources)) + " OR from:" + s + ") after:" + cutoff
  {
    JoinSnoc(" OR ", FromTerms(sources), "from:" + s);
    assert FromTerms(sources + [s]) == FromTerms(sources) + ["from:" + s];
  }

  lemma {:induction false} JoinSnoc(sep: string, xs: seq<string>, x: string)
    requires xs != []
    ensures Join(sep, xs + [x]) == Join(sep, xs) + sep + x
    decreases |xs|
  {
    if |xs| == 1 {
      assert xs + [x] == [xs[0], x];
      assert [xs[0], x][1..] == [x];
    } else {
      assert (xs + [x])[1..] == xs[1..] + [x];
      JoinSnoc(sep, xs[1..], x);
    }
  }

  /** With no senders the group is empty. */
  lemma QueryNoSources(cutoff: string)
    ensures Query([], cutoff) == "() after:" + cutoff
  {
  }

  /** With one sender the group holds exactly its term. */
  lemma QueryOneSource(s: string, cutoff: string)
    ensures Query([s], cutoff) == "(from:" + s + ") after:" + cutoff
  {
    assert FromTerms([s]) == ["from:" + s];
  }

  // ---------------------------------------------------------------------
  // The `From` header.

  /** A header; an absent name or value is the empty string. */
  datatype Header = Header(name: string, value: string)

  /** `<(.+?)>` matches at `i` capturing the `k` characters after the `<`:
      at least one, none a newline, followed by `>`. */
  predicate IsMatch(s: string, i: int, k: int) {
    0 <= i && 1 <= k && i + k + 1 < |s| && s[i] == '<' && s[i + k + 1] == '>'
    && forall j :: i < j <= i + k ==> s[j] != '\n'
  }

  /** The shortest capture for a `<` at `i`, trying lengths from `k` up; all
      characters before the `k`-th captured one are known not to be newlines. */
  function LazyClose(s: string, i: nat, k: nat): (r: Option<nat>)
    requires i < |s| && s[i] == '<' && 1 <= k
    requires forall j :: i < j < i + k && j < |s| ==> s[j] != '\n'
    ensures r.Some? ==> k <= r.value && IsMatch(s, i, r.value)
                        && forall k2 :: k <= k2 < r.value ==> !IsMatch(s, i, k2)
    ensures r.None? ==> forall k2 :: k <= k2 ==> !IsMatch(s, i, k2)
    decreases |s| - (i + k)
  {
    if i + k + 1 >= |s| then None
    else if s[i + k] == '\n' then None
    else if s[i + k + 1] == '>' then Some(k)
    else LazyClose(s, i, k + 1)
  }

  /** `re.search(r'<(.+?)>', s)` from position `i`: the leftmost start, then the
      shortest capture, as `(start, length)`. */
  function SearchFrom(s: string, i: nat): (r: Option<(nat, nat)>)
    ensures r.Some? ==> i <= r.value.0 && IsMatch(s, r.value.0, r.value.1)
                        && forall i2, k2 :: i <= i2 && IsMatch(s, i2, k2) ==>
                             r.value.0 < i2 || (r.value.0 == i2 && r.value.1 <= k2)
    ensures r.None? ==> forall i2, k2 :: i <= i2 ==> !IsMatch(s, i2, k2)
    decreases |s| - i
  {
    if i >= |s| then None
    else if s[i] == '<' && LazyClose(s, i, 1).Some? then Some((i, LazyClose(s, i, 1).value))
    else SearchFrom(s, i + 1)
  }

  /** The first group of `<(.+?)>` in `s`, if the pattern occurs. */
  function BracketAddress(s: string): (r: Option<string>)
    ensures r.Some? ==> |r.value| >= 1 && '\n' !in r.value
    ensures r.Some? ==> exists i :: OccursAt(s, "<" + r.value + ">", i)
  {
    match SearchFrom(s, 0)
    case None => None
    case Some((i, k)) =>
      var g := s[i + 1..i + 1 + k];
      assert forall j :: 0 <= j < |g| ==> g[j] == s[i + 1 + j];
      assert s[i..i + k + 2] == "<" + g + ">";
      assert OccursAt(s, "<" + g + ">", i);
      Some(g)
  }

  /** The header name is `from` in any letter case. */
  predicate IsFrom(h: Header) {
    LowerAscii(h.name) == "from"
  }

  /** A `From` header that yields an address: bracketed, or holding an `@`. */
  predicate Qualifies(h: Header) {
    IsFrom(h) && (BracketAddress(h.value).Some? || '@' in h.value)
  }

  /** The address a qualifying header yields. */
  function AddressOf(h: Header): (a: string)
    requires Qualifies(h)
    ensures a != []
  {
    match BracketAddress(h.value)
    case Some(g) => g
    case None =>
      var r := Strip(h.value);
      StripKeepsNonSpace(h.value, '@');
      r
  }

  /** Stripping keeps every character that is not whitespace. */
  lemma StripKeepsNonSpace(s: string, c: char)
    requires c in s && !IsSpace(c)
    ensures c in Strip(s)
  {
    var i :| 0 <= i < |s| && s[i] == c;
    StripKeepsNonSpaceAt(s, i);
  }

  lemma StripKeepsNonSpaceAt(s: string, i: nat)
    requires i < |s| && !IsSpace(s[i])
    ensures s[i] in Strip(s)
  {
    var t := TrimStart(s);
    var off := |s| - |t|;
    assert i >= off;
    assert t[i - off] == s[i];
    var r := TrimEnd(t);
    assert i - off < |r|;
    assert r[i - off] == s[i];
  }

  /** `get_sender`: the address of the first qualifying `From` header. */
  function GetSender(hs: seq<Header>): (r: Option<string>)
    ensures r.Some? ==> r.value != []
    decreases |hs|
  {
    if hs == [] then None
    else if Qualifies(hs[0]) then Some(AddressOf(hs[0]))
    else GetSender(hs[1..])
  }

  /** No address exactly when no header qualifies; otherwise the address of
      the first header that does. */
  lemma {:induction false} GetSenderFirst(hs: seq<Header>)
    ensures GetSender(hs).None? <==> forall k :: 0 <= k < |hs| ==> !Qualifies(hs[k])
    ensures GetSender(hs).Some? ==>
              exists k :: 0 <= k < |hs| && Qualifies(hs[k]) && GetSender(hs).value == AddressOf(hs[k])
                          && forall j :: 0 <= j < k ==> !Qualifies(hs[j])
    decreases |hs|
  {
    if hs != [] && !Qualifies(hs[0]) {
      GetSenderFirst(hs[1..]);
      assert forall k :: 0 < k < |hs| ==> hs[k] == hs[1..][k - 1];
      if GetSender(hs).Some? {
        var k :| 0 <= k < |hs| - 1 && Qualifies(hs[1..][k]) && GetSender(hs).value == AddressOf(hs[1..][k])
                  && forall j :: 0 <= j < k ==> !Qualifies(hs[1..][j]);
        assert Qualifies(hs[k + 1]) && GetSender(hs).value == AddressOf(hs[k + 1]);
        assert forall j :: 0 <= j < k + 1 ==> !Qualifies(hs[j]) by {
          forall j | 0 <= j < k + 1
            ensures !Qualifies(hs[j])
          {
            if j > 0 {
              assert hs[j] == hs[1..][j - 1];
            }
          }
        }
      }
    }
  }

  /** The name comparison ignores letter case. */
  lemma FromAnyCase(value: string)
    ensures IsFrom(Header("From", value)) && IsFrom(Header("FROM", value)) && IsFrom(Header("fRoM", value))
  {
  }

  /** A display name with a bracketed address gives the address. */
  lemma BracketedSender()
    ensures GetSender([Header("To", "<x>"), Header("From", "N <a@b>")]) == Some("a@b")
  {
    var s := "N <a@b>";
    var hs := [Header("To", "<x>"), Header("From", s)];
    assert IsMatch(s, 2, 3);
    assert SearchFrom(s, 0) == Some((2, 3));
    assert s[3..6] == "a@b";
    assert BracketAddress(s) == Some("a@b");
    assert LowerAscii("To") == "to";
    assert LowerAscii("From") == "from";
    assert hs[1..] == [hs[1]];
    assert GetSender(hs[1..]) == Some("a@b");
  }

  // ---------------------------------------------------------------------
  // Body extraction.

  /** A MIME part; `data` is the encoded body, the empty string when absent. */
  datatype Part = Part(mimeType: string, data: string, parts: seq<Part>)

  type Bodies = (Option<string>, Option<string>)

  /** The bodies after taking the decoded `data` of a part of type `mimeType`. */
  function Take1(mimeType: string, decoded: string, b: Bodies): (r: Bodies)
    ensures Contains(mimeType, "text/plain") ==> r == (Some(decoded), b.1)
    ensures !Contains(mimeType, "text/plain") && Contains(mimeType, "text/html") ==> r == (b.0, Some(decoded))
    ensures !Contains(mimeType, "text/plain") && !Contains(mimeType, "text/html") ==> r == b
  {
    if Contains(mimeType, "text/plain") then (Some(decoded), b.1)
    else if Contains(mimeType, "text/html") then (b.0, Some(decoded))
    else b
  }

  predicate Both(b: Bodies) {
    Truthy(b.0) && Truthy(b.1)
  }

  /** The inner loop over the parts of a part without data; it stops once both
      bodies are set, but only itself. */
  function ScanNested(nps: seq<Part>, b: Bodies, decode: string -> string): Bodies
    decreases |nps|
  {
    if nps == [] then b
    else
      var b2 := if nps[0].data != [] then Take1(nps[0].mimeType, decode(nps[0].data), b) else b;
      if Both(b2) then b2 else ScanNested(nps[1..], b2, decode)
  }

  /** The outer loop over the parts of a multipart message. */
  function ScanParts(ps: seq<Part>, b: Bodies, decode: string -> string): Bodies
    decreases |ps|
  {
    if ps == [] then b
    else if ps[0].data == [] then ScanParts(ps[1..], ScanNested(ps[0].parts, b, decode), decode)
    else
      var b2 := Take1(ps[0].mimeType, decode(ps[0].data), b);
      if Both(b2) then b2 else ScanParts(ps[1..], b2, decode)
  }

  /** The bodies before the final fallback. */
  function Primary(p: Part, decode: string -> string): Bodies {
    if Contains(p.mimeType, "text/plain") && p.data != [] then (Some(decode(p.data)), None)
    else if Contains(p.mimeType, "text/html") && p.data != [] then (None, Some(decode(p.data)))
    else if Contains(p.mimeType, "multipart") then ScanParts(p.parts, (None, None), decode)
    else (None, None)
  }

  /** `extract_email_body` for the payload `p`: `(plain, html)`. */
  function ExtractBody(p: Part, decode: string -> string): Bodies {
    var b := Primary(p, decode);
    if !Truthy(b.0) && !Truthy(b.1) && p.data != [] && Contains(p.mimeType, "text/") then
      var d := decode(p.data);
      (if Contains(p.mimeType, "text/plain") then Some(d) else b.0,
       if Contains(p.mimeType, "text/html") then Some(d) else b.1)
    else b
  }

  lemma ContainsOfContains(s: string, mid: string, sub: string)
    requires Contains(s, mid) && Contains(mid, sub)
    ensures Contains(s, sub)
  {
    ContainsIff(s, mid);
    ContainsIff(mid, sub);
    var i :| OccursAt(s, mid, i);
    var j :| OccursAt(mid, sub, j);
    SliceOfSlice(s, i, i + |mid|, j, j + |sub|);
    assert OccursAt(s, sub, i + j);
    ContainsIff(s, sub);
  }

  lemma SliceOfSlice(s: string, a: int, b: int, c: int, d: int)
    requires 0 <= a <= b <= |s| && 0 <= c <= d <= b - a
    ensures s[a..b][c..d] == s[a + c..a + d]
  {
    assert forall t :: 0 <= t < d - c ==> s[a..b][c..d][t] == s[a + c + t];
  }

  lemma TextPlainHasText(s: string)
    requires Contains(s, "text/plain") || Contains(s, "text/html")
    ensures Contains(s, "text/")
  {
    if Contains(s, "text/plain") {
      assert OccursAt("text/plain", "text/", 0);
      ContainsIff("text/plain", "text/");
      ContainsOfContains(s, "text/plain", "text/");
    } else {
      assert OccursAt("text/html", "text/", 0);
      ContainsIff("text/html", "text/");
      ContainsOfContains(s, "text/html", "text/");
    }
  }

  /** A single-part plain-text message gives its decoded data as the plain body
      and no HTML body (unless the type also names `text/html` and the data
      decodes to nothing). */
  lemma PlainMessage(p: Part, decode: string -> string)
    requires Contains(p.mimeType, "text/plain") && p.data != []
    requires decode(p.data) != [] || !Contains(p.mimeType, "text/html")
    ensures ExtractBody(p, decode) == (Some(decode(p.data)), None)
  {
  }

  /** A single-part HTML message gives its decoded data as the HTML body. */
  lemma HtmlMessage(p: Part, decode: string -> string)
    requires !Contains(p.mimeType, "text/plain") && Contains(p.mimeType, "text/html") && p.data != []
    ensures ExtractBody(p, decode) == (None, Some(decode(p.data)))
  {
  }

  /** A message whose type names neither text type nor `multipart` has no body. */
  lemma OtherMessage(p: Part, decode: string -> string)
    requires !Contains(p.mimeType, "text/plain") && !Contains(p.mimeType, "text/html")
    requires !Contains(p.mimeType, "multipart")
    ensures ExtractBody(p, decode) == (None, None)
  {
  }

  /** A part with its children's children removed. */
  function Shallow(p: Part): Part {
    Part(p.mimeType, p.data, seq(|p.parts|, k requires 0 <= k < |p.parts| => Part(p.parts[k].mimeType, p.parts[k].data, [])))
  }

  function ShallowAll(ps: seq<Part>): (r: seq<Part>)
    ensures |r| == |ps|
    ensures forall k :: 0 <= k < |ps| ==> r[k] == Shallow(ps[k])
  {
    seq(|ps|, k requires 0 <= k < |ps| => Shallow(ps[k]))
  }

  lemma {:induction false} NestedIgnoresChildren(nps: seq<Part>, b: Bodies, decode: string -> string)
    ensures ScanNested(Shallow(Part("", "", nps)).parts, b, decode) == ScanNested(nps, b, decode)
    decreases |nps|
  {
    var sh := Shallow(Part("", "", nps)).parts;
    if nps != [] {
      assert sh[1..] == Shallow(Part("", "", nps[1..])).parts;
      NestedIgnoresChildren(nps[1..], Take1(nps[0].mimeType, decode(nps[0].data), b), decode);
      NestedIgnoresChildren(nps[1..], b, decode);
    }
  }

  lemma {:induction false} ScanIgnoresDepthTwo(ps: seq<Part>, b: Bodies, decode: string -> string)
    ensures ScanParts(ShallowAll(ps), b, decode) == ScanParts(ps, b, decode)
    decreases |ps|
  {
    if ps != [] {
      var sh := ShallowAll(ps);
      assert sh[1..] == ShallowAll(ps[1..]);
      assert Shallow(ps[0]).parts == Shallow(Part("", "", ps[0].parts)).parts;
      NestedIgnoresChildren(ps[0].parts, b, decode);
      ScanIgnoresDepthTwo(ps[1..], ScanNested(ps[0].parts, b, decode), decode);
      ScanIgnoresDepthTwo(ps[1..], Take1(ps[0].mimeType, decode(ps[0].data), b), decode);
    }
  }

  /** Parts nested more than one level below the message are never examined. */
  lemma DepthTwoIgnored(p: Part, decode: string -> string)
    ensures ExtractBody(Part(p.mimeType, p.data, ShallowAll(p.parts)), decode) == ExtractBody(p, decode)
  {
    ScanIgnoresDepthTwo(p.parts, (None, None), decode);
  }

  function Id(s: string): string { s }

  /** The type tests the two examples below rely on. */
  lemma TypeFacts()
    ensures Contains("text/plain", "text/plain") && Contains("text/html", "text/html")
    ensures !Contains("text/html", "text/plain")
    ensures Contains("multipart/mixed", "multipart") && Contains("multipart/alternative", "multipart")
  {
    PrefixContained("text/plain", "text/plain");
    PrefixContained("text/html", "text/html");
    PrefixContained("multipart/mixed", "multipart");
    PrefixContained("multipart/alternative", "multipart");
    ShorterNotContained("text/html", "text/plain");
  }

  lemma PrefixContained(s: string, sub: string)
    requires sub <= s
    ensures Contains(s, sub)
  {
  }

  /** A string never contains a longer one. */
  lemma {:induction false} ShorterNotContained(s: string, sub: string)
    requires |s| < |sub|
    ensures !Contains(s, sub)
    decreases |s|
  {
    if s != [] {
      ShorterNotContained(s[1..], sub);
    }
  }

  /** Later parts of the same type replace earlier ones: the loop stops only
      once both bodies are set. */
  lemma LaterPartWins()
    ensures ExtractBody(Part("multipart/alternative", "", [Part("text/plain", "a", []), Part("text/plain", "b", []),
                                                           Part("text/html", "c", []), Part("text/plain", "d", [])]), Id)
         == (Some("b"), Some("c"))
  {
    TypeFacts();
    LaterPartsScan();
  }

  lemma LaterPartsScan()
    ensures ScanParts([Part("text/plain", "a", []), Part("text/plain", "b", []),
                       Part("text/html", "c", []), Part("text/plain", "d", [])], (None, None), Id)
         == (Some("b"), Some("c"))
  {
    TypeFacts();
    var ps := [Part("text/plain", "a", []), Part("text/plain", "b", []), Part("text/html", "c", []), Part("text/plain", "d", [])];
    var tail := [ps[2], ps[3]];
    assert ScanParts(tail, (Some("b"), None), Id) == (Some("b"), Some("c"));
    assert ps[1..] == [ps[1]] + tail && ([ps[1]] + tail)[1..] == tail;
    assert ScanParts(ps[1..], (Some("a"), None), Id) == (Some("b"), Some("c"));
  }

  /** Both bodies found inside a nested part end only the inner loop: a later
      plain part still replaces the plain body. */
  lemma NestedBreakIsLocal()
    ensures ExtractBody(Part("multipart/mixed", "", [Part("multipart/alternative", "", [Part("text/plain", "a", []), Part("text/html", "b", [])]),
                                                     Part("text/plain", "c", [])]), Id)
         == (Some("c"), Some("b"))
  {
    TypeFacts();
    NestedScan();
  }

  lemma NestedScan()
    ensures ScanParts([Part("multipart/alternative", "", [Part("text/plain", "a", []), Part("text/html", "b", [])]),
                       Part("text/plain", "c", [])], (None, None), Id)
         == (Some("c"), Some("b"))
  {
    TypeFacts();
    var nps := [Part("text/plain", "a", []), Part("text/html", "b", [])];
    var ps := [Part("multipart/alternative", "", nps), Part("text/plain", "c", [])];
    assert nps[1..] == [nps[1]];
    assert ScanNested(nps, (None, None), Id) == (Some("a"), Some("b"));
    assert ps[1..] == [ps[1]];
    assert ScanParts(ps[1..], (Some("a"), Some("b")), Id) == (Some("c"), Some("b"));
  }
}

=== FILE: job_report.dfy ===
/** The small pure pieces of the daily job: the label for an unknown sender,
    the placeholder chapter timing, the total-duration split, the article
    count and the chapter lines of the notification mail. */
module JobReport {
  import opened Wrappers
  import opened Strings
  import opened Decimal
  import opened SummaryBudget
  import opened TtsSegments

  // ---------------------------------------------------------------------
  // Sender label.

  /** The sender shown for a message: the extracted sender when there is
      one, else a label built from the first ten characters of the message id. */
  function SenderLabel(sender: Option<string>, messageId: string): (r: string)
    ensures r != []
    ensures Truthy(sender) ==> r == sender.value
    ensures !Truthy(sender) ==> r == UnknownSender(messageId)
  {
    if Truthy(sender) then sender.value else UnknownSender(messageId)
  }

  function UnknownSender(messageId: string): string {
    "Unknown Source <" + Take(messageId, 10) + "...>"
  }

  /** The unknown-sender label holds the id's first ten characters between a
      fixed opening and a fixed closing. */
  lemma UnknownSenderShape(messageId: string)
    ensures var r := UnknownSender(messageId);
            var id := Take(messageId, 10);
            |r| == |id| + 20 && r[16..16 + |id|] == id && r[..16] == "Unknown Source <" && r[|r| - 4..] == "...>"
  {
  }

  // ---------------------------------------------------------------------
  // Placeholder chapters.

  /** A synthesised segment as the job sees it: the duration is `None` when it
      is missing or not an integer. */
  datatype SegmentRecord = SegmentRecord(source: Option<string>, durationMs: Option<int>)

  /** A chapter of the placeholder timing: a title and a start time. */
  datatype Mark = Mark(title: string, startMs: nat)

  predicate ValidDuration(d: Option<int>) {
    d.Some? && d.value >= 0
  }

  function RecordTitle(s: SegmentRecord, i: nat): string {
    if s.source.Some? then s.source.value else "Segment " + NatToString(i)
  }

  /** The placeholder loop over the records numbered from `i`, with the
      running time at `cursor`: the marks and the final running time. */
  function PlaceholderFrom(segs: seq<SegmentRecord>, i: nat, cursor: nat): (r: (seq<Mark>, nat))
    ensures |r.0| <= |segs|
    ensures r.1 >= cursor
    decreases |segs|
  {
    if segs == [] then ([], cursor)
    else
      var d := segs[0].durationMs;
      if ValidDuration(d) then
        var rest := PlaceholderFrom(segs[1..], i + 1, cursor + d.value);
        ([Mark(RecordTitle(segs[0], i), cursor)] + rest.0, rest.1)
      else PlaceholderFrom(segs[1..], i + 1, cursor)
  }

  function PlaceholderChapters(segs: seq<SegmentRecord>): (seq<Mark>, nat) {
    PlaceholderFrom(segs, 0, 0)
  }

  /** The records that count, in order, as (title, duration) pairs. */
  function ValidEntries(segs: seq<SegmentRecord>, i: nat): (r: seq<(string, nat)>)
    ensures |r| <= |segs|
    decreases |segs|
  {
    if segs == [] then []
    else
      var d := segs[0].durationMs;
      if ValidDuration(d) then [(RecordTitle(segs[0], i), d.value as nat)] + ValidEntries(segs[1..], i + 1)
      else ValidEntries(segs[1..], i + 1)
  }

  function TotalOf(es: seq<(string, nat)>): nat {
    if es == [] then 0 else es[0].1 + TotalOf(es[1..])
  }

  lemma TotalOfPrefixStep(es: seq<(string, nat)>, k: nat)
    requires 0 < k <= |es|
    ensures TotalOf(es[..k]) == es[0].1 + TotalOf(es[1..][..k - 1])
  {
    assert es[..k][1..] == es[1..][..k - 1];
  }

  /** The placeholder loop gives one mark per valid record, in order, with that
      record's title, starting at the running time plus the valid durations
      before it; the running time ends at the sum of all valid durations. */
  lemma {:induction false} PlaceholderIsRunningSum(segs: seq<SegmentRecord>, i: nat, cursor: nat)
    ensures var r := PlaceholderFrom(segs, i, cursor);
            var es := ValidEntries(segs, i);
            |r.0| == |es| && r.1 == cursor + TotalOf(es)
            && forall k :: 0 <= k < |es| ==> r.0[k] == Mark(es[k].0, cursor + TotalOf(es[..k]))
    decreases |segs|
  {
    if segs != [] {
      var d := segs[0].durationMs;
      if ValidDuration(d) {
        var c := cursor + d.value;
        var rest := PlaceholderFrom(segs[1..], i + 1, c);
        var tail := ValidEntries(segs[1..], i + 1);
        PlaceholderIsRunningSum(segs[1..], i + 1, c);
        var r := PlaceholderFrom(segs, i, cursor);
        var es := ValidEntries(segs, i);
        assert r.0 == [Mark(RecordTitle(segs[0], i), cursor)] + rest.0 && r.1 == rest.1;
        assert es == [(RecordTitle(segs[0], i), d.value as nat)] + tail;
        forall k | 0 <= k < |es|
          ensures r.0[k] == Mark(es[k].0, cursor + TotalOf(es[..k]))
        {
          if k > 0 {
            assert r.0[k] == rest.0[k - 1] && es[k] == tail[k - 1];
            assert TotalOf(es[..k]) == d.value + TotalOf(tail[..k - 1]) by {
              TotalOfPrefixStep(es, k);
              assert es[1..] == tail;
            }
          }
        }
      } else {
        PlaceholderIsRunningSum(segs[1..], i + 1, cursor);
      }
    }
  }

  /** Marks start in order: a later mark never starts before an earlier one. */
  lemma PlaceholderOrdered(segs: seq<SegmentRecord>)
    ensures var ms := PlaceholderChapters(segs).0;
            forall j, k :: 0 <= j < k < |ms| ==> ms[j].startMs <= ms[k].startMs
  {
    var es := ValidEntries(segs, 0);
    PlaceholderIsRunningSum(segs, 0, 0);
    forall j, k | 0 <= j < k < |es|
      ensures TotalOf(es[..j]) <= TotalOf(es[..k])
    {
      TotalOfPrefixMonotone(es, j, k);
    }
  }

  lemma {:induction false} TotalOfPrefixMonotone(es: seq<(string, nat)>, j: nat, k: nat)
    requires j <= k <= |es|
    ensures TotalOf(es[..j]) <= TotalOf(es[..k])
    decreases j
  {
    if j > 0 {
      TotalOfPrefixStep(es, j);
      TotalOfPrefixStep(es, k);
      TotalOfPrefixMonotone(es[1..], j - 1, k - 1);
    }
  }

  /** A record with a negative duration is passed over: it gets no mark and
      adds no time, exactly as if it were absent apart from the numbering. */
  lemma NegativeDurationSkipped(s: SegmentRecord, rest: seq<SegmentRecord>, i: nat, cursor: nat)
    requires s.durationMs.Some? && s.durationMs.value < 0
    ensures PlaceholderFrom([s] + rest, i, cursor) == PlaceholderFrom(rest, i + 1, cursor)
  {
    assert ([s] + rest)[1..] == rest;
  }

  // ---------------------------------------------------------------------
  // Minutes and seconds.

  /** Whole seconds of a millisecond time split into minutes and seconds. */
  function MinutesSeconds(ms: nat): (r: (nat, nat))
    ensures r.1 < 60
    ensures r.0 * 60 + r.1 == ms / 1000
  {
    var secs := ms / 1000;
    (secs / 60, secs % 60)
  }

  /** Splitting is the inverse of counting up: m minutes and s < 60 seconds,
      plus any milliseconds short of a second, come back as (m, s). */
  lemma MinutesSecondsInverse(m: nat, s: nat, extra: nat)
    requires s < 60 && extra < 1000
    ensures MinutesSeconds((m * 60 + s) * 1000 + extra) == (m, s)
  {
    var ms := (m * 60 + s) * 1000 + extra;
    assert ms / 1000 == m * 60 + s;
  }

  /** The number of articles in a run of n segments, intro and outro not counted. */
  function ArticleCount(n: nat): (r: nat)
    ensures r <= n
  {
    if n >= 2 then n - 2 else 0
  }

  /** When every speech call answers, the article count is the number of summaries. */
  lemma ArticleCountOfFullRun(dir: string, ss: seq<Summary>, otherAlnum: char -> bool,
                              speak: (nat, string, string) -> Option<nat>)
    requires forall n, t, f :: speak(n, t, f).Some?
    ensures ArticleCount(|GenerateSpeechSegments(true, Some(dir), ss, otherAlnum, speak).1|) == |ss|
  {
    EveryCallAnswered(dir, ss, otherAlnum, speak);
  }

  // ---------------------------------------------------------------------
  // Chapter lines of the mail.

  /** `- title (MM:SS)` with both fields zero-padded to two digits. */
  function ChapterLine(m: Mark): (r: string)
    ensures |r| >= 4 + |m.title|
    ensures r[..2] == "- " && r[2..2 + |m.title|] == m.title
    ensures r[|r| - 2..] == ")\n"
  {
    var t := MinutesSeconds(m.startMs);
    "- " + m.title + " (" + ZeroPad(t.0, 2) + ":" + ZeroPad(t.1, 2) + ")\n"
  }

  function ChapterLines(ms: seq<Mark>): string {
    if ms == [] then "" else ChapterLine(ms[0]) + ChapterLines(ms[1..])
  }

  lemma ShortNumber(n: nat)
    requires n < 100
    ensures |NatToString(n)| <= 2
  {
    if n >= 10 {
      assert |NatToString(n / 10)| == 1;
    }
  }

  /** The two fields of a chapter line read back as the mark's minutes and
      seconds: the seconds field is exactly two digits. */
  lemma ChapterLineFields(m: Mark)
    ensures var t := MinutesSeconds(m.startMs);
            var mm := ZeroPad(t.0, 2);
            var ss := ZeroPad(t.1, 2);
            ChapterLine(m) == "- " + m.title + " (" + mm + ":" + ss + ")\n"
            && |mm| >= 2 && |ss| == 2
            && DigitsValue(mm) * 60 + DigitsValue(ss) == m.startMs / 1000
  {
    var t := MinutesSeconds(m.startMs);
    ShortNumber(t.1);
    ZeroPadValue(t.0, 2);
    ZeroPadValue(t.1, 2);
  }

  /** Every mark's line appears in the chapter list. */
  lemma {:induction false} ChapterLinesListEach(ms: seq<Mark>, k: nat)
    requires k < |ms|
    ensures Contains(ChapterLines(ms), ChapterLine(ms[k]))
    decreases k
  {
    var head := ChapterLine(ms[0]);
    var rest := ChapterLines(ms[1..]);
    var line := ChapterLine(ms[k]);
    assert ChapterLines(ms) == head + rest;
    if k == 0 {
      ContainsPrefix(head, rest);
    } else {
      assert Contains(rest, line) by {
        ChapterLinesListEach(ms[1..], k - 1);
        assert ms[1..][k - 1] == ms[k];
      }
      ContainsAfter(head, rest, line);
    }
  }

  lemma ContainsPrefix(a: string, b: string)
    ensures Contains(a + b, a)
  {
    assert OccursAt(a + b, a, 0) by { assert (a + b)[..|a|] == a; }
    ContainsIff(a + b, a);
  }

  lemma ContainsAfter(a: string, b: string, sub: string)
    requires Contains(b, sub)
    ensures Contains(a + b, sub)
  {
    ContainsIff(b, sub);
    var j :| OccursAt(b, sub, j);
    assert OccursAt(a + b, sub, |a| + j) by {
      assert (a + b)[|a| + j..|a| + j + |sub|] == b[j..j + |sub|];
    }
    ContainsIff(a + b, sub);
  }
}

=== FILE: paths.dfy ===
/** File locations as a directory and a file name, without path normalisation. */
module Paths {
  datatype FilePath = FilePath(dir: string, name: string)
}

=== FILE: podcast_assembly.dfy ===
/** Podcast assembly: the ordered segment list is merged into one timeline with
    silence between segments, one chapter per decoded segment, then handed to
    ffmpeg together with the chapter metadata.  Audio is modelled by its length
    in milliseconds; decoding, exporting, the temporary files and the ffmpeg
    process are outcomes supplied by the caller. */
module PodcastAssembly {
  import opened Wrappers
  import opened Decimal
  import opened ChapterMetadata
  import opened Paths

  const DefaultSilenceMs: int := 750

  /** One input segment; `None` stands for a key that is absent (or, for the
      declared duration, a value that is not an integer). */
  datatype Segment = Segment(source: Option<string>, audioPath: Option<string>, declaredMs: Option<int>)

  /** What loading the file at a path gives: its decoded length, no file at
      all, or a file that exists but does not decode. */
  datatype LoadOutcome = Loaded(lengthMs: nat) | Missing | Undecodable

  type Loader = string -> LoadOutcome

  /** The merged audio (as its length), the millisecond cursor and the chapters so far. */
  datatype Timeline = Timeline(audioMs: nat, cursorMs: int, chapters: seq<Chapter>)

  /** Whether a segment passes the path and duration checks that come before
      anything is added to the timeline: the path is given, non-empty and
      exists, and either the declared duration is positive or a fallback load
      yields a positive length. */
  predicate Admitted(seg: Segment, load: Loader) {
    seg.audioPath.Some? && seg.audioPath.value != [] && load(seg.audioPath.value) != Missing
    && ((seg.declaredMs.Some? && seg.declaredMs.value > 0)
        || (load(seg.audioPath.value).Loaded? && load(seg.audioPath.value).lengthMs > 0))
  }

  /** An admitted segment whose audio decodes, and so gets a chapter. */
  predicate Placed(seg: Segment, load: Loader) {
    Admitted(seg, load) && load(seg.audioPath.value).Loaded?
  }

  function DecodedMs(seg: Segment, load: Loader): nat
    requires Placed(seg, load)
  {
    load(seg.audioPath.value).lengthMs
  }

  /** The chapter title of the segment at input index `i`. */
  function Title(i: nat, seg: Segment): (t: string)
    ensures seg.source.Some? ==> t == seg.source.value
    ensures seg.source.None? ==> t == "Segment " + NatToString(i + 1)
  {
    seg.source.GetOr("Segment " + NatToString(i + 1))
  }

  /** The length of the silence clip: an empty clip unless the requested duration is positive. */
  function SilenceClipMs(silenceMs: int): (r: nat)
    ensures silenceMs >= 0 ==> r == silenceMs
    ensures silenceMs < 0 ==> r == 0
  {
    if silenceMs > 0 then silenceMs else 0
  }

  /** One iteration of the merge loop for the segment at input index `i`. */
  function Step(t: Timeline, i: nat, seg: Segment, silenceMs: int, load: Loader): Timeline {
    if !Admitted(seg, load) then t
    else
      var audio: nat := if i > 0 then t.audioMs + SilenceClipMs(silenceMs) else t.audioMs;
      var start := if i > 0 then t.cursorMs + silenceMs else t.cursorMs;
      match load(seg.audioPath.value)
      case Loaded(len) => Timeline(audio + len, start + len, t.chapters + [Chapter(Title(i, seg), start, start + len)])
      case _ => Timeline(audio, start, t.chapters)
  }

  /** The timeline after the merge loop has run over all of `segs`. */
  function Merge(segs: seq<Segment>, silenceMs: int, load: Loader): (t: Timeline)
    ensures |t.chapters| <= |segs|
    decreases |segs|
  {
    if segs == [] then Timeline(0, 0, [])
    else Step(Merge(segs[..|segs| - 1], silenceMs, load), |segs| - 1, segs[|segs| - 1], silenceMs, load)
  }

  // ---------------------------------------------------------------------
  // Cursor and merged length.

  /** How many segments after the first input position passed the checks:
      each of them put one silence into the timeline. */
  function Gaps(segs: seq<Segment>, load: Loader): (n: nat)
    ensures n <= |segs|
    decreases |segs|
  {
    if segs == [] then 0
    else Gaps(segs[..|segs| - 1], load) + (if |segs| > 1 && Admitted(segs[|segs| - 1], load) then 1 else 0)
  }

  lemma StepDrift(t: Timeline, i: nat, seg: Segment, silenceMs: int, load: Loader)
    ensures Step(t, i, seg, silenceMs, load).audioMs - Step(t, i, seg, silenceMs, load).cursorMs
         == t.audioMs - t.cursorMs + (if i > 0 && Admitted(seg, load) then SilenceClipMs(silenceMs) - silenceMs else 0)
  {
  }

  /** The cursor falls behind the merged audio by the part of every committed
      silence that produced no audio. */
  lemma {:induction false} CursorDrift(segs: seq<Segment>, silenceMs: int, load: Loader)
    ensures Merge(segs, silenceMs, load).cursorMs
         == Merge(segs, silenceMs, load).audioMs - Gaps(segs, load) * (SilenceClipMs(silenceMs) - silenceMs)
    decreases |segs|
  {
    if segs != [] {
      var n := |segs| - 1;
      var pre := segs[..n];
      CursorDrift(pre, silenceMs, load);
      StepDrift(Merge(pre, silenceMs, load), n, segs[n], silenceMs, load);
      var gap := n > 0 && Admitted(segs[n], load);
      assert Gaps(segs, load) == Gaps(pre, load) + (if gap then 1 else 0);
      MulStep(Gaps(pre, load), SilenceClipMs(silenceMs) - silenceMs, gap);
    }
  }

  lemma MulStep(g: int, d: int, b: bool)
    ensures (g + (if b then 1 else 0)) * d == g * d + (if b then d else 0)
  {
  }

  /** The total decoded length of the segments that pass the checks. */
  function DecodedTotal(segs: seq<Segment>, load: Loader): nat
    decreases |segs|
  {
    if segs == [] then 0
    else DecodedTotal(segs[..|segs| - 1], load) + (if Placed(segs[|segs| - 1], load) then DecodedMs(segs[|segs| - 1], load) else 0)
  }

  /** The merged audio is exactly the decoded segments plus one silence clip
      per gap: nothing is lost and nothing else is added. */
  lemma {:induction false} MergedAudioLength(segs: seq<Segment>, silenceMs: int, load: Loader)
    ensures Merge(segs, silenceMs, load).audioMs
         == DecodedTotal(segs, load) + Gaps(segs, load) * SilenceClipMs(silenceMs)
    decreases |segs|
  {
    if segs != [] {
      var n := |segs| - 1;
      var pre := segs[..n];
      MergedAudioLength(pre, silenceMs, load);
      var gap := n > 0 && Admitted(segs[n], load);
      assert Gaps(segs, load) == Gaps(pre, load) + (if gap then 1 else 0);
      MulStep(Gaps(pre, load), SilenceClipMs(silenceMs), gap);
    }
  }

  /** With a non-negative silence the cursor is always the merged length. */
  lemma CursorIsAudioLength(segs: seq<Segment>, silenceMs: int, load: Loader)
    requires silenceMs >= 0
    ensures Merge(segs, silenceMs, load).cursorMs == Merge(segs, silenceMs, load).audioMs
  {
    CursorDrift(segs, silenceMs, load);
  }

  /** With a negative silence the cursor moves back by the silence at every
      gap while the audio gains nothing. */
  lemma CursorBehindAudio(segs: seq<Segment>, silenceMs: int, load: Loader)
    requires silenceMs < 0
    ensures Merge(segs, silenceMs, load).cursorMs
         == Merge(segs, silenceMs, load).audioMs + Gaps(segs, load) * silenceMs
    ensures Merge(segs, silenceMs, load).cursorMs <= Merge(segs, silenceMs, load).audioMs
  {
    CursorDrift(segs, silenceMs, load);
    var g := Gaps(segs, load);
    assert g * (0 - silenceMs) == -(g * silenceMs);
    assert g * silenceMs <= 0;
  }

  // ---------------------------------------------------------------------
  // Chapters.

  predicate Ordered(cs: seq<Chapter>) {
    forall k :: 0 <= k < |cs| - 1 ==> cs[k].endMs <= cs[k + 1].startMs
  }

  predicate Widths(cs: seq<Chapter>) {
    forall k :: 0 <= k < |cs| ==> 0 <= cs[k].startMs <= cs[k].endMs
  }

  /** With a non-negative silence chapters never overlap, run forward in input
      order, and all lie inside the timeline. */
  lemma {:induction false} ChaptersOrdered(segs: seq<Segment>, silenceMs: int, load: Loader)
    requires silenceMs >= 0
    ensures Ordered(Merge(segs, silenceMs, load).chapters)
    ensures Widths(Merge(segs, silenceMs, load).chapters)
    ensures Merge(segs, silenceMs, load).cursorMs >= 0
    ensures forall k :: 0 <= k < |Merge(segs, silenceMs, load).chapters| ==>
              Merge(segs, silenceMs, load).chapters[k].endMs <= Merge(segs, silenceMs, load).cursorMs
    decreases |segs|
  {
    if segs != [] {
      ChaptersOrdered(segs[..|segs| - 1], silenceMs, load);
    }
  }

  /** The input indexes of the segments that get a chapter, in input order. */
  function PlacedIndexes(segs: seq<Segment>, load: Loader): (ix: seq<nat>)
    ensures forall k :: 0 <= k < |ix| ==> ix[k] < |segs| && Placed(segs[ix[k]], load)
    ensures forall k, l :: 0 <= k < l < |ix| ==> ix[k] < ix[l]
    ensures forall i :: 0 <= i < |segs| && Placed(segs[i], load) ==> i in ix
    decreases |segs|
  {
    if segs == [] then []
    else
      var pre := PlacedIndexes(segs[..|segs| - 1], load);
      if Placed(segs[|segs| - 1], load) then pre + [|segs| - 1] else pre
  }

  /** Where the segment at index `i` starts: the cursor after the segments
      before it, plus the silence when it is not at input position 0. */
  function StartOf(segs: seq<Segment>, i: nat, silenceMs: int, load: Loader): int
    requires i < |segs|
  {
    Merge(segs[..i], silenceMs, load).cursorMs + (if i > 0 then silenceMs else 0)
  }

  /** The chapter the segment at index `i` gets. */
  function ChapterAt(segs: seq<Segment>, i: nat, silenceMs: int, load: Loader): (c: Chapter)
    requires i < |segs| && Placed(segs[i], load)
    ensures c.title == Title(i, segs[i])
    ensures c.startMs == StartOf(segs, i, silenceMs, load)
    ensures c.endMs - c.startMs == DecodedMs(segs[i], load)
  {
    var s := StartOf(segs, i, silenceMs, load);
    Chapter(Title(i, segs[i]), s, s + DecodedMs(segs[i], load))
  }

  lemma ChapterAtPrefix(segs: seq<Segment>, n: nat, i: nat, silenceMs: int, load: Loader)
    requires i < n <= |segs| && Placed(segs[i], load)
    ensures ChapterAt(segs[..n], i, silenceMs, load) == ChapterAt(segs, i, silenceMs, load)
  {
    assert segs[..n][..i] == segs[..i];
    assert segs[..n][i] == segs[i];
  }

  /** Exactly one chapter per segment that passed the checks and decoded, in
      input order; each starts where the segment starts and is as wide as the
      decoded audio, whatever duration the segment declared. */
  lemma {:induction false} ChaptersArePlaced(segs: seq<Segment>, silenceMs: int, load: Loader)
    ensures |Merge(segs, silenceMs, load).chapters| == |PlacedIndexes(segs, load)|
    ensures forall k :: 0 <= k < |PlacedIndexes(segs, load)| ==>
              Merge(segs, silenceMs, load).chapters[k] == ChapterAt(segs, PlacedIndexes(segs, load)[k], silenceMs, load)
    decreases |segs|
  {
    if segs != [] {
      var n := |segs| - 1;
      var pre := segs[..n];
      ChaptersArePlaced(pre, silenceMs, load);
      var cs := Merge(pre, silenceMs, load).chapters;
      var ix := PlacedIndexes(pre, load);
      var placed := Placed(segs[n], load);
      StepChapters(segs, silenceMs, load);
      var all := Merge(segs, silenceMs, load).chapters;
      var jx := PlacedIndexes(segs, load);
      forall k | 0 <= k < |jx|
        ensures all[k] == ChapterAt(segs, jx[k], silenceMs, load)
      {
        if k < |ix| {
          assert all[k] == cs[k] && jx[k] == ix[k];
          ChapterAtPrefix(segs, n, ix[k], silenceMs, load);
        }
      }
    }
  }

  /** One more segment adds its chapter, if it gets one, at the end. */
  lemma StepChapters(segs: seq<Segment>, silenceMs: int, load: Loader)
    requires segs != []
    ensures var n := |segs| - 1;
            Merge(segs, silenceMs, load).chapters
            == Merge(segs[..n], silenceMs, load).chapters
             + (if Placed(segs[n], load) then [ChapterAt(segs, n, silenceMs, load)] else [])
    ensures var n := |segs| - 1;
            PlacedIndexes(segs, load) == PlacedIndexes(segs[..n], load) + (if Placed(segs[n], load) then [n] else [])
  {
    var n := |segs| - 1;
    var t := Merge(segs[..n], silenceMs, load);
    assert Merge(segs, silenceMs, load) == Step(t, n, segs[n], silenceMs, load);
    StepAddsChapter(t, n, segs[n], silenceMs, load);
    if Placed(segs[n], load) {
      assert Step(t, n, segs[n], silenceMs, load).chapters == t.chapters + [ChapterAt(segs, n, silenceMs, load)];
    } else {
      EmptyAppend(t.chapters);
      EmptyAppend(PlacedIndexes(segs[..n], load));
    }
  }

  lemma StepAddsChapter(t: Timeline, i: nat, seg: Segment, silenceMs: int, load: Loader)
    ensures var c := Step(t, i, seg, silenceMs, load).chapters;
            if Placed(seg, load)
            then c == t.chapters + [Chapter(Title(i, seg), t.cursorMs + (if i > 0 then silenceMs else 0),
                                            t.cursorMs + (if i > 0 then silenceMs else 0) + DecodedMs(seg, load))]
            else c == t.chapters
  {
  }

  lemma EmptyAppend<T>(s: seq<T>)
    ensures s + [] == s
  {
  }

  /** Every chapter is exactly as wide as the decoded audio of its segment. */
  lemma ChapterWidths(segs: seq<Segment>, silenceMs: int, load: Loader)
    ensures |Merge(segs, silenceMs, load).chapters| == |PlacedIndexes(segs, load)|
    ensures forall k :: 0 <= k < |PlacedIndexes(segs, load)| ==>
              Merge(segs, silenceMs, load).chapters[k].endMs - Merge(segs, silenceMs, load).chapters[k].startMs
              == DecodedMs(segs[PlacedIndexes(segs, load)[k]], load)
  {
    ChaptersArePlaced(segs, silenceMs, load);
  }

  // ---------------------------------------------------------------------
  // Worked timelines.

  function Durations(p: string): LoadOutcome {
    if p == "a.mp3" then Loaded(5000)
    else if p == "b.mp3" then Loaded(3000)
    else if p == "c.mp3" then Loaded(4000)
    else if p == "broken.mp3" then Undecodable
    else Missing
  }

  /** Three segments of 5000, 3000 and 4000 ms with the default silence. */
  lemma ThreeSegments()
    ensures Merge([Segment(Some("A"), Some("a.mp3"), Some(5000)),
                   Segment(Some("B"), Some("b.mp3"), Some(3000)),
                   Segment(Some("C"), Some("c.mp3"), Some(4000))], DefaultSilenceMs, Durations)
         == Timeline(13500, 13500, [Chapter("A", 0, 5000), Chapter("B", 5750, 8750), Chapter("C", 9500, 13500)])
  {
    var s := [Segment(Some("A"), Some("a.mp3"), Some(5000)),
              Segment(Some("B"), Some("b.mp3"), Some(3000)),
              Segment(Some("C"), Some("c.mp3"), Some(4000))];
    assert s[..1] == [s[0]];
    assert s[..2] == [s[0], s[1]];
    assert [s[0], s[1]][..1] == [s[0]];
    assert [s[0]][..0] == [];
    assert Merge(s[..1], DefaultSilenceMs, Durations) == Timeline(5000, 5000, [Chapter("A", 0, 5000)]);
    assert Merge(s[..2], DefaultSilenceMs, Durations) == Timeline(8750, 8750, [Chapter("A", 0, 5000), Chapter("B", 5750, 8750)]);
  }

  /** A first input that is skipped still makes the next segment pay the
      silence: the first chapter starts at the silence, not at 0. */
  lemma SkippedFirstInput()
    ensures Merge([Segment(Some("A"), Some("gone.mp3"), Some(5000)),
                   Segment(Some("B"), Some("b.mp3"), Some(3000))], DefaultSilenceMs, Durations)
         == Timeline(3750, 3750, [Chapter("B", 750, 3750)])
  {
    var s := [Segment(Some("A"), Some("gone.mp3"), Some(5000)),
              Segment(Some("B"), Some("b.mp3"), Some(3000))];
    assert s[..1] == [s[0]];
    assert [s[0]][..0] == [];
  }

  /** A segment that passes the checks on its declared duration but does not
      decode leaves its silence in the timeline and gets no chapter. */
  lemma UndecodableKeepsSilence()
    ensures Merge([Segment(Some("A"), Some("a.mp3"), Some(5000)),
                   Segment(Some("X"), Some("broken.mp3"), Some(2000)),
                   Segment(Some("B"), Some("b.mp3"), Some(3000))], DefaultSilenceMs, Durations)
         == Timeline(9500, 9500, [Chapter("A", 0, 5000), Chapter("B", 6500, 9500)])
  {
    var s := [Segment(Some("A"), Some("a.mp3"), Some(5000)),
              Segment(Some("X"), Some("broken.mp3"), Some(2000)),
              Segment(Some("B"), Some("b.mp3"), Some(3000))];
    assert s[..1] == [s[0]];
    assert s[..2] == [s[0], s[1]];
    assert [s[0], s[1]][..1] == [s[0]];
    assert [s[0]][..0] == [];
    assert Merge(s[..1], DefaultSilenceMs, Durations) == Timeline(5000, 5000, [Chapter("A", 0, 5000)]);
    assert Durations("broken.mp3") == Undecodable;
    assert Merge(s[..2], DefaultSilenceMs, Durations) == Timeline(5750, 5750, [Chapter("A", 0, 5000)]);
  }

  // ---------------------------------------------------------------------
  // Export, metadata, ffmpeg and cleanup.

  /** A word of the ffmpeg command line. */
  datatype Arg = Word(word: string) | PathArg(path: FilePath)

  /** A temporary-file step: creating the file failed (nothing exists), or the
      file `name` was created and then writing it failed or succeeded. */
  datatype TempStep = MkstempFailed | WriteFailed(name: string) | Written(name: string)

  /** How running ffmpeg ended: the program is not installed, it exited with a
      status, or starting or waiting for it raised some other error. */
  datatype ToolOutcome = NotFound | Exit(code: int) | Raised

  /** What one assembly does: its result, the temporary files it created, the
      files it tried to remove (in order), the text handed to the metadata
      writer, and the ffmpeg command it ran. */
  datatype Run = Run(result: Option<(FilePath, seq<Chapter>)>, created: seq<FilePath>,
                     removed: seq<FilePath>, metadata: Option<string>, argv: seq<Arg>)

  function FinalPath(outputDir: string, base: string): FilePath {
    FilePath(outputDir, base + ".m4a")
  }

  function FfmpegArgv(audio: FilePath, metadata: FilePath, final: FilePath): (argv: seq<Arg>)
    ensures |argv| > 0 && argv[|argv| - 1] == PathArg(final)
    ensures PathArg(audio) in argv && PathArg(metadata) in argv
  {
    [Word("ffmpeg"), Word("-y"), Word("-hide_banner"), Word("-loglevel"), Word("warning"),
     Word("-i"), PathArg(audio), Word("-i"), PathArg(metadata), Word("-map_metadata"), Word("1"),
     Word("-codec:a"), Word("aac"), PathArg(final)]
  }

  /** The chapters as handed to the metadata writer. */
  function Entries(cs: seq<Chapter>): (es: seq<MetaEntry>)
    ensures |es| == |cs|
    ensures forall k :: 0 <= k < |cs| ==> es[k] == MetaEntry(Some(cs[k].title), Some(cs[k].startMs), Some(cs[k].endMs))
  {
    seq(|cs|, k requires 0 <= k < |cs| => MetaEntry(Some(cs[k].title), Some(cs[k].startMs), Some(cs[k].endMs)))
  }

  /** The text written to the metadata temporary file. */
  function MetadataFor(cs: seq<Chapter>): string {
    MetadataText(DefaultPodcastTitle, Entries(cs))
  }

  /** Whether an assembly gets as far as running ffmpeg. */
  predicate ReachesTool(segs: seq<Segment>, silenceMs: int, load: Loader, exportStep: TempStep, metaStep: TempStep) {
    segs != [] && Merge(segs, silenceMs, load).audioMs > 0 && exportStep.Written? && metaStep.Written?
  }

  predicate ToolFailed(tool: ToolOutcome) {
    tool.Raised? || (tool.Exit? && tool.code != 0)
  }

  /** The whole assembly. */
  function Assemble(segs: seq<Segment>, base: string, outputDir: string, silenceMs: int, load: Loader,
                    exportStep: TempStep, metaStep: TempStep, tool: ToolOutcome): (r: Run)
    // nothing is done for an empty list
    ensures segs == [] ==> r == Run(None, [], [], None, [])
    // every temporary file created is removed again, whichever way the assembly
    // ends, and the output file too exactly when ffmpeg ran and failed
    ensures r.removed == if ReachesTool(segs, silenceMs, load, exportStep, metaStep) && ToolFailed(tool)
                         then r.created + [FinalPath(outputDir, base)] else r.created
    ensures forall p :: p in r.created ==> p.dir == outputDir
    // the exported audio file exists from its creation on, the metadata file
    // only once the export has been written
    ensures r.created == [] <==> segs == [] || Merge(segs, silenceMs, load).audioMs == 0 || exportStep.MkstempFailed?
    ensures r.created != [] ==> r.created[0] == FilePath(outputDir, exportStep.name)
    ensures |r.created| <= 2
    ensures |r.created| == 2 <==> segs != [] && Merge(segs, silenceMs, load).audioMs > 0
                                  && exportStep.Written? && !metaStep.MkstempFailed?
    ensures |r.created| == 2 ==> r.created[1] == FilePath(outputDir, metaStep.name)
    // the metadata file, once it exists, is given the merged chapters
    ensures r.metadata.Some? <==> |r.created| == 2
    ensures r.metadata.Some? ==> r.metadata.value == MetadataFor(Merge(segs, silenceMs, load).chapters)
    // success exactly when every step succeeds
    ensures r.result.Some? <==> ReachesTool(segs, silenceMs, load, exportStep, metaStep) && tool == Exit(0)
    ensures r.result.Some? ==> r.result.value == (FinalPath(outputDir, base), Merge(segs, silenceMs, load).chapters)
    ensures ReachesTool(segs, silenceMs, load, exportStep, metaStep) <==> r.argv != []
    ensures r.argv != [] ==> r.argv[|r.argv| - 1] == PathArg(FinalPath(outputDir, base))
    // ffmpeg reads the two temporary files it was handed
    ensures r.argv != [] ==> |r.created| == 2 && r.argv == FfmpegArgv(r.created[0], r.created[1], FinalPath(outputDir, base))
  {
    if segs == [] then Run(None, [], [], None, [])
    else
      var t := Merge(segs, silenceMs, load);
      if t.audioMs == 0 then Run(None, [], [], None, [])
      else
        match exportStep
        case MkstempFailed => Run(None, [], [], None, [])
        case WriteFailed(a) => Run(None, [FilePath(outputDir, a)], [FilePath(outputDir, a)], None, [])
        case Written(a) =>
          var audio := FilePath(outputDir, a);
          match metaStep
          case MkstempFailed => Run(None, [audio], [audio], None, [])
          case WriteFailed(m) =>
            Run(None, [audio, FilePath(outputDir, m)], [audio, FilePath(outputDir, m)], Some(MetadataFor(t.chapters)), [])
          case Written(m) =>
            var temps := [audio, FilePath(outputDir, m)];
            var text := Some(MetadataFor(t.chapters));
            var final := FinalPath(outputDir, base);
            RunTool(temps, text, FfmpegArgv(audio, FilePath(outputDir, m), final), final, t.chapters, tool)
  }

  /** The ffmpeg step, once both temporary files are written: success only on
      exit status 0, and the output removed again when ffmpeg ran and failed. */
  function RunTool(temps: seq<FilePath>, text: Option<string>, argv: seq<Arg>, final: FilePath,
                   chapters: seq<Chapter>, tool: ToolOutcome): (r: Run)
    ensures r.created == temps && r.metadata == text && r.argv == argv
    ensures r.removed == if ToolFailed(tool) then temps + [final] else temps
    ensures r.result.Some? <==> tool == Exit(0)
    ensures r.result.Some? ==> r.result.value == (final, chapters)
  {
    match tool
    case NotFound => Run(None, temps, temps, text, argv)
    case Exit(code) =>
      if code == 0 then Run(Some((final, chapters)), temps, temps, text, argv)
      else Run(None, temps, temps + [final], text, argv)
    case Raised => Run(None, temps, temps + [final], text, argv)
  }

  /** When the merged audio is empty nothing is created and the result is `None`. */
  lemma EmptyAudioRejected(segs: seq<Segment>, base: string, outputDir: string, silenceMs: int, load: Loader,
                           exportStep: TempStep, metaStep: TempStep, tool: ToolOutcome)
    requires Merge(segs, silenceMs, load).audioMs == 0
    ensures Assemble(segs, base, outputDir, silenceMs, load, exportStep, metaStep, tool) == Run(None, [], [], None, [])
  {
  }

  /** A timeline made of silence alone, with no chapter at all, is not rejected. */
  lemma SilenceOnlyAccepted(a: string, m: string)
    ensures Assemble([Segment(Some("X"), Some("broken.mp3"), Some(2000)),
                      Segment(Some("Y"), Some("broken.mp3"), Some(2000))],
                     "digest", "out", DefaultSilenceMs, Durations, Written(a), Written(m), Exit(0)).result
         == Some((FinalPath("out", "digest"), []))
  {
    var s := [Segment(Some("X"), Some("broken.mp3"), Some(2000)),
              Segment(Some("Y"), Some("broken.mp3"), Some(2000))];
    assert s[..1] == [s[0]];
    assert [s[0]][..0] == [];
    assert Merge(s, DefaultSilenceMs, Durations) == Timeline(750, 750, []);
  }

  /** Whatever an assembly hands to the metadata writer reads back as the
      default podcast title and the merged chapters that have a positive
      width, in order, titles sanitised. */
  lemma MetadataFileReadsBack(segs: seq<Segment>, base: string, outputDir: string, silenceMs: int, load: Loader,
                              exportStep: TempStep, metaStep: TempStep, tool: ToolOutcome)
    ensures var r := Assemble(segs, base, outputDir, silenceMs, load, exportStep, metaStep, tool);
            r.metadata.Some? ==>
              ParseMetadata(r.metadata.value) == Some((DefaultPodcastTitle, Kept(Entries(Merge(segs, silenceMs, load).chapters), 0)))
  {
    MetadataOfMerge(segs, silenceMs, load);
  }

  /** The chapters written to the metadata file are those with a positive
      width, titles sanitised; reading the file back gives exactly those. */
  lemma MetadataOfMerge(segs: seq<Segment>, silenceMs: int, load: Loader)
    ensures ParseMetadata(MetadataFor(Merge(segs, silenceMs, load).chapters))
         == Some((DefaultPodcastTitle, Kept(Entries(Merge(segs, silenceMs, load).chapters), 0)))
  {
    assert forall k :: 0 <= k < |DefaultPodcastTitle| ==> DefaultPodcastTitle[k] != '\n';
    MetadataRoundTrip(DefaultPodcastTitle, Entries(Merge(segs, silenceMs, load).chapters));
  }
}

=== FILE: strings.dfy ===
/** Character classes and string helpers shared by the modules: the whitespace
    set Python uses for `str.split()`, `str.strip()` and the `\s` class of `re`,
    trimming, separator joining, substring search and ASCII lower-casing. */
module Strings {

  /** Python's `str.isspace()`, which is also what `\s` matches in a `re` pattern
      on `str`: the ASCII controls TAB..CR and FS..US, SPACE, NEL, NBSP and the
      Unicode space separators and line/paragraph separators. */
  predicate IsSpace(c: char) {
    || ('\t' <= c <= '\r')
    || ('\U{1C}' <= c <= ' ')
    || c == '\U{85}' || c == '\U{A0}' || c == '\U{1680}'
    || ('\U{2000}' <= c <= '\U{200A}')
    || c == '\U{2028}' || c == '\U{2029}' || c == '\U{202F}' || c == '\U{205F}' || c == '\U{3000}'
  }

  /** No character of `s` is whitespace. */
  predicate NoSpace(s: string) {
    forall i :: 0 <= i < |s| ==> !IsSpace(s[i])
  }

  /** `s` neither starts nor ends with whitespace. */
  predicate NoEdgeSpace(s: string) {
    s == [] || (!IsSpace(s[0]) && !IsSpace(s[|s| - 1]))
  }

  /** `s` with its leading whitespace removed (Python's `str.lstrip()`). */
  function TrimStart(s: string): (r: string)
    ensures |r| <= |s| && r == s[|s| - |r|..]
    ensures r == [] || !IsSpace(r[0])
    ensures forall i :: 0 <= i < |s| - |r| ==> IsSpace(s[i])
  {
    if s != [] && IsSpace(s[0]) then TrimStart(s[1..]) else s
  }

  /** `s` with its trailing whitespace removed (Python's `str.rstrip()`). */
  function TrimEnd(s: string): (r: string)
    ensures |r| <= |s| && r == s[..|r|]
    ensures r == [] || !IsSpace(r[|r| - 1])
    ensures forall i :: |r| <= i < |s| ==> IsSpace(s[i])
  {
    if s != [] && IsSpace(s[|s| - 1]) then TrimEnd(s[..|s| - 1]) else s
  }

  /** Python's `str.strip()` with no argument. */
  function Strip(s: string): (r: string)
    ensures |r| <= |s|
    ensures NoEdgeSpace(r)
  {
    TrimEnd(TrimStart(s))
  }

  /** Python's `sep.join(xs)`. */
  function Join(sep: string, xs: seq<string>): string
  {
    if |xs| == 0 then []
    else if |xs| == 1 then xs[0]
    else xs[0] + sep + Join(sep, xs[1..])
  }

  lemma JoinOne(sep: string, x: string)
    ensures Join(sep, [x]) == x && [x] + [] == [x]
  {
  }

  lemma JoinCons(sep: string, x: string, xs: seq<string>)
    requires xs != []
    ensures Join(sep, [x] + xs) == x + sep + Join(sep, xs)
  {
    assert ([x] + xs)[1..] == xs;
  }

  lemma ConcatEmpty(a: string)
    ensures a + [] == a && [] + a == a
  {
  }

  /** `sub` occurs in `s` starting at offset `i`. */
  predicate OccursAt(s: string, sub: string, i: int) {
    0 <= i <= |s| - |sub| && s[i..i + |sub|] == sub
  }

  /** Python's `sub in s` for strings. */
  predicate Contains(s: string, sub: string)
    decreases |s|
  {
    sub <= s || (s != [] && Contains(s[1..], sub))
  }

  /** `Contains` holds exactly when `sub` occurs at some offset of `s`. */
  lemma {:induction false} ContainsIff(s: string, sub: string)
    ensures Contains(s, sub) <==> exists i :: OccursAt(s, sub, i)
    decreases |s|
  {
    if sub <= s {
      assert OccursAt(s, sub, 0);
    } else if s == [] {
    } else {
      ContainsIff(s[1..], sub);
      if exists i :: OccursAt(s, sub, i) {
        var i :| OccursAt(s, sub, i);
        assert i != 0 by { assert !OccursAt(s, sub, 0); }
        SliceShift(s, i, |sub|);
        assert OccursAt(s[1..], sub, i - 1);
      }
      if Contains(s[1..], sub) {
        var j :| OccursAt(s[1..], sub, j);
        SliceShift(s, j + 1, |sub|);
        assert OccursAt(s, sub, j + 1);
      }
    }
  }

  lemma SliceShift(s: string, i: int, n: nat)
    requires 1 <= i && i + n <= |s|
    ensures s[1..][i - 1..i - 1 + n] == s[i..i + n]
  {
  }

  /** Lower-cases the ASCII letters A..Z and leaves every other character alone. */
  function AsciiLower(c: char): (r: char)
    ensures 'A' <= c <= 'Z' ==> r as int == c as int + 32
    ensures !('A' <= c <= 'Z') ==> r == c
  {
    if 'A' <= c <= 'Z' then (c as int + 32) as char else c
  }

  function LowerAscii(s: string): (r: string)
    ensures |r| == |s|
    ensures forall i :: 0 <= i < |s| ==> r[i] == AsciiLower(s[i])
  {
    seq(|s|, i requires 0 <= i < |s| => AsciiLower(s[i]))
  }

  /** The first `n` characters of `s` (Python's `s[:n]` for `n >= 0`). */
  function Take(s: string, n: nat): (r: string)
    ensures |r| == if |s| < n then |s| else n
    ensures r <= s
  {
    if |s| <= n then s else s[..n]
  }
}

=== FILE: summary_budget.dfy ===
/** Summary length budgeting: a podcast duration chosen from the total input
    size and clamped to the configured range, split over the inputs in
    proportion to their word counts with a floor per summary; then the ordered
    summarisation loop, whose language-model call is a parameter. */
module SummaryBudget {
  import opened Wrappers
  import opened ContentParser

  datatype Content = Content(source: string, text: string)
  datatype Target = Target(source: string, targetWords: int)
  datatype Summary = Summary(source: string, text: string)

  const MinWordsPerSummary: int := 50
  const NoWordsTarget: int := 100
  const FallbackTarget: int := 150

  function Max(a: int, b: int): int { if a < b then b else a }
  function Min(a: int, b: int): int { if a < b then a else b }

  /** The words of all inputs together, as `str.split()` counts them. */
  function TotalWords(cs: seq<Content>): nat
    decreases |cs|
  {
    if cs == [] then 0 else TotalWords(cs[..|cs| - 1]) + WordCount(cs[|cs| - 1].text)
  }

  /** The target podcast duration in minutes for `totalWords` words of input. */
  function TargetDuration(totalWords: nat, minMins: int, maxMins: int): (d: int)
    ensures minMins <= maxMins ==> minMins <= d <= maxMins
    ensures minMins > maxMins ==> d == minMins
  {
    var bucket :=
      if totalWords < 3000 then minMins
      else if totalWords < 8000 then Min(maxMins, Max(minMins, 45))
      else if totalWords < 15000 then Min(maxMins, Max(minMins, 60))
      else Min(maxMins, Max(minMins, 75));
    Max(minMins, Min(maxMins, bucket))
  }

  /** More input never shortens the podcast. */
  lemma TargetDurationMonotone(w1: nat, w2: nat, minMins: int, maxMins: int)
    requires w1 <= w2
    ensures TargetDuration(w1, minMins, maxMins) <= TargetDuration(w2, minMins, maxMins)
  {
  }

  /** The duration buckets: short input gets the minimum, longer input 45, 60
      and 75 minutes, each held inside the range. */
  lemma TargetDurationBuckets(totalWords: nat, minMins: int, maxMins: int)
    requires minMins <= 45 && 75 <= maxMins
    ensures totalWords < 3000 ==> TargetDuration(totalWords, minMins, maxMins) == minMins
    ensures 3000 <= totalWords < 8000 ==> TargetDuration(totalWords, minMins, maxMins) == 45
    ensures 8000 <= totalWords < 15000 ==> TargetDuration(totalWords, minMins, maxMins) == 60
    ensures 15000 <= totalWords ==> TargetDuration(totalWords, minMins, maxMins) == 75
  {
  }

  /** `int(x)` of the quotient `a / b`: division truncating toward zero. */
  function TruncDiv(a: int, b: int): (q: int)
    requires b > 0
    ensures a >= 0 ==> 0 <= q && q * b <= a < q * b + b
    ensures a < 0 ==> q <= 0 && a <= q * b < a + b
  {
    if a >= 0 then a / b else -((-a) / b)
  }

  /** The share of `total` target words for an input of `words` out of `allWords`. */
  function Share(words: nat, total: int, allWords: nat): int
    requires allWords > 0
  {
    TruncDiv(words * total, allWords)
  }

  function TargetOf(c: Content, total: int, allWords: nat): (t: Target)
    requires allWords > 0
    ensures t.source == c.source && t.targetWords >= MinWordsPerSummary
  {
    Target(c.source, Max(MinWordsPerSummary, Share(WordCount(c.text), total, allWords)))
  }

  /** `calculate_target_lengths`. */
  function CalculateTargets(cs: seq<Content>, minMins: int, maxMins: int, wordsPerMinute: int): (ts: seq<Target>)
    ensures |ts| == |cs|
    ensures forall k :: 0 <= k < |cs| ==> ts[k].source == cs[k].source && ts[k].targetWords >= MinWordsPerSummary
    ensures TotalWords(cs) == 0 ==> forall k :: 0 <= k < |cs| ==> ts[k].targetWords == NoWordsTarget
  {
    if cs == [] then []
    else
      var all := TotalWords(cs);
      if all == 0 then EvenTargets(cs)
      else SharedTargets(cs, TargetDuration(all, minMins, maxMins) * wordsPerMinute, all)
  }

  function EvenTargets(cs: seq<Content>): (ts: seq<Target>)
    ensures |ts| == |cs|
    ensures forall k :: 0 <= k < |cs| ==> ts[k] == Target(cs[k].source, NoWordsTarget)
  {
    seq(|cs|, k requires 0 <= k < |cs| => Target(cs[k].source, NoWordsTarget))
  }

  function SharedTargets(cs: seq<Content>, total: int, allWords: nat): (ts: seq<Target>)
    requires allWords > 0
    ensures |ts| == |cs|
    ensures forall k :: 0 <= k < |cs| ==> ts[k] == TargetOf(cs[k], total, allWords)
  {
    seq(|cs|, k requires 0 <= k < |cs| => TargetOf(cs[k], total, allWords))
  }

  /** The total number of target words the podcast aims for. */
  function TotalTarget(cs: seq<Content>, minMins: int, maxMins: int, wordsPerMinute: int): int {
    TargetDuration(TotalWords(cs), minMins, maxMins) * wordsPerMinute
  }

  /** Each target is the exact proportional share, rounded toward zero, or the
      floor of 50 words if that is larger. */
  lemma TargetIsShare(cs: seq<Content>, minMins: int, maxMins: int, wordsPerMinute: int, k: nat)
    requires k < |cs| && TotalWords(cs) > 0
    ensures CalculateTargets(cs, minMins, maxMins, wordsPerMinute)[k].targetWords
         == Max(MinWordsPerSummary, Share(WordCount(cs[k].text), TotalTarget(cs, minMins, maxMins, wordsPerMinute), TotalWords(cs)))
  {
  }

  lemma TargetOfMonotone(c1: Content, c2: Content, total: int, allWords: nat)
    requires allWords > 0 && WordCount(c1.text) <= WordCount(c2.text)
    ensures TargetOf(c1, total, allWords).targetWords <= TargetOf(c2, total, allWords).targetWords
  {
    var a := WordCount(c1.text);
    var b := WordCount(c2.text);
    if total >= 0 {
      ShareMonotone(a, b, total, allWords);
    } else {
      ShareOfNegative(a, total, allWords);
      ShareOfNegative(b, total, allWords);
    }
  }

  /** With a non-negative total, more words never get a smaller share. */
  lemma ShareMonotone(a: nat, b: nat, total: int, allWords: nat)
    requires allWords > 0 && a <= b && total >= 0
    ensures Share(a, total, allWords) <= Share(b, total, allWords)
  {
    MulLe(0, a, total);
    MulLe(a, b, total);
    DivMonotone(a * total, b * total, allWords);
  }

  /** A negative total gives no input a positive share, so the floor applies. */
  lemma ShareOfNegative(a: nat, total: int, allWords: nat)
    requires allWords > 0 && total < 0
    ensures Share(a, total, allWords) <= 0
  {
    MulNonPos(a, total);
  }

  /** An input with at least as many words gets at least as large a target. */
  lemma TargetsMonotone(cs: seq<Content>, minMins: int, maxMins: int, wordsPerMinute: int, j: nat, k: nat)
    requires j < |cs| && k < |cs|
    requires WordCount(cs[j].text) <= WordCount(cs[k].text)
    ensures CalculateTargets(cs, minMins, maxMins, wordsPerMinute)[j].targetWords
         <= CalculateTargets(cs, minMins, maxMins, wordsPerMinute)[k].targetWords
  {
    var all := TotalWords(cs);
    if all > 0 {
      TargetOfMonotone(cs[j], cs[k], TotalTarget(cs, minMins, maxMins, wordsPerMinute), all);
    }
  }

  lemma MulLe(a: int, b: int, t: int)
    requires a <= b && t >= 0
    ensures a * t <= b * t
  {
    assert b * t - a * t == (b - a) * t;
  }

  lemma MulNonPos(a: nat, t: int)
    requires t < 0
    ensures a * t <= 0
  {
  }

  lemma DivMonotone(x: int, y: int, d: int)
    requires 0 <= x <= y && d > 0
    ensures x / d <= y / d
  {
    var qx := x / d;
    var qy := y / d;
    assert x == qx * d + x % d;
    assert y == qy * d + y % d;
    if qx > qy {
      MulLe(qy + 1, qx, d);
      AddScaled(qy, 1, d);
    }
  }

  // ---------------------------------------------------------------------
  // The shares never exceed the total.

  function SumShares(cs: seq<Content>, total: int, allWords: nat): int
    requires allWords > 0
    decreases |cs|
  {
    if cs == [] then 0
    else SumShares(cs[..|cs| - 1], total, allWords) + Share(WordCount(cs[|cs| - 1].text), total, allWords)
  }

  lemma ShareTimesWords(words: nat, total: int, allWords: nat)
    requires allWords > 0 && total >= 0
    ensures Share(words, total, allWords) * allWords <= words * total
  {
  }

  lemma {:induction false} SumSharesScaled(cs: seq<Content>, total: int, allWords: nat)
    requires allWords > 0 && total >= 0
    ensures SumShares(cs, total, allWords) * allWords <= TotalWords(cs) * total
    decreases |cs|
  {
    if cs != [] {
      var pre := cs[..|cs| - 1];
      var w := WordCount(cs[|cs| - 1].text);
      var sp := SumShares(pre, total, allWords);
      var sh := Share(w, total, allWords);
      var tp := TotalWords(pre);
      assert SumShares(cs, total, allWords) * allWords == sp * allWords + sh * allWords by {
        assert SumShares(cs, total, allWords) == sp + sh;
        AddScaled(sp, sh, allWords);
      }
      assert TotalWords(cs) * total == tp * total + w * total by {
        assert TotalWords(cs) == tp + w;
        AddScaled(tp, w, total);
      }
      SumSharesScaled(pre, total, allWords);
      ShareTimesWords(w, total, allWords);
    }
  }

  lemma AddScaled(a: int, b: int, m: int)
    ensures (a + b) * m == a * m + b * m
  {
  }

  lemma ScaledBound(s: int, t: int, w: int)
    requires w > 0 && s * w <= w * t
    ensures s <= t
  {
  }

  /** Before the 50-word floor is applied, the proportional shares add up to
      at most the total target. */
  lemma SharesWithinTotal(cs: seq<Content>, total: int)
    requires TotalWords(cs) > 0 && total >= 0
    ensures SumShares(cs, total, TotalWords(cs)) <= total
  {
    SumSharesScaled(cs, total, TotalWords(cs));
    ScaledBound(SumShares(cs, total, TotalWords(cs)), total, TotalWords(cs));
  }

  // ---------------------------------------------------------------------
  // The summarisation loop.

  /** The source-to-target map: a later entry for the same source replaces an earlier one. */
  function TargetMap(ts: seq<Target>): (m: map<string, int>)
    ensures forall k :: 0 <= k < |ts| ==> ts[k].source in m
    ensures forall s :: s in m ==> exists k :: 0 <= k < |ts| && ts[k].source == s
    decreases |ts|
  {
    if ts == [] then map[]
    else TargetMap(ts[..|ts| - 1])[ts[|ts| - 1].source := ts[|ts| - 1].targetWords]
  }

  /** The entry of the last target for a source is the one the map keeps. */
  lemma {:induction false} TargetMapLastWins(ts: seq<Target>, j: nat)
    requires j < |ts|
    requires forall l :: j < l < |ts| ==> ts[l].source != ts[j].source
    ensures TargetMap(ts)[ts[j].source] == ts[j].targetWords
    decreases |ts|
  {
    if j < |ts| - 1 {
      var pre := ts[..|ts| - 1];
      assert pre[j] == ts[j];
      TargetMapLastWins(pre, j);
    }
  }

  /** Every value in the map is some target's value. */
  lemma {:induction false} TargetMapValues(ts: seq<Target>, bound: int)
    requires forall k :: 0 <= k < |ts| ==> ts[k].targetWords >= bound
    ensures forall s :: s in TargetMap(ts) ==> TargetMap(ts)[s] >= bound
    decreases |ts|
  {
    if ts != [] {
      TargetMapValues(ts[..|ts| - 1], bound);
    }
  }

  /** The target used for a source: the map's, unless missing or zero. */
  function TargetFor(m: map<string, int>, source: string): (t: int)
    ensures source in m && m[source] != 0 ==> t == m[source]
    ensures !(source in m && m[source] != 0) ==> t == FallbackTarget
  {
    if source in m && m[source] != 0 then m[source] else FallbackTarget
  }

  /** The loop over the inputs: `summarize(text, source, target)` is the
      language-model call, `None` when it failed. */
  function SummarizeLoop(cs: seq<Content>, m: map<string, int>,
                         summarize: (string, string, int) -> Option<string>): (r: seq<Summary>)
    ensures |r| <= |cs|
    ensures forall k :: 0 <= k < |r| ==> r[k].text != []
    decreases |cs|
  {
    if cs == [] then []
    else
      var o := summarize(cs[0].text, cs[0].source, TargetFor(m, cs[0].source));
      (if Truthy(o) then [Summary(cs[0].source, o.value)] else []) + SummarizeLoop(cs[1..], m, summarize)
  }

  /** The loop is a filter: over two consecutive stretches of input it gives
      the summaries of the first followed by those of the second. */
  lemma {:induction false} SummarizeLoopAppend(a: seq<Content>, b: seq<Content>, m: map<string, int>,
                                               summarize: (string, string, int) -> Option<string>)
    ensures SummarizeLoop(a + b, m, summarize) == SummarizeLoop(a, m, summarize) + SummarizeLoop(b, m, summarize)
    decreases |a|
  {
    if a == [] {
      assert a + b == b;
    } else {
      assert (a + b)[0] == a[0];
      assert (a + b)[1..] == a[1..] + b;
      SummarizeLoopAppend(a[1..], b, m, summarize);
      var o := summarize(a[0].text, a[0].source, TargetFor(m, a[0].source));
      var h: seq<Summary> := if Truthy(o) then [Summary(a[0].source, o.value)] else [];
      assert SummarizeLoop(a + b, m, summarize) == h + (SummarizeLoop(a[1..], m, summarize) + SummarizeLoop(b, m, summarize));
      assert h + (SummarizeLoop(a[1..], m, summarize) + SummarizeLoop(b, m, summarize))
          == (h + SummarizeLoop(a[1..], m, summarize)) + SummarizeLoop(b, m, summarize);
    }
  }

  /** A single input gives its summary when the call succeeded and nothing otherwise. */
  lemma SummarizeOne(c: Content, m: map<string, int>, summarize: (string, string, int) -> Option<string>)
    ensures SummarizeLoop([c], m, summarize)
         == if Truthy(summarize(c.text, c.source, TargetFor(m, c.source)))
            then [Summary(c.source, summarize(c.text, c.source, TargetFor(m, c.source)).value)] else []
  {
    assert [c][1..] == [];
  }

  /** `summarize_all`: `clientReady` says whether the language-model client exists. */
  function SummarizeAll(cs: seq<Content>, minMins: int, maxMins: int, wordsPerMinute: int, clientReady: bool,
                        summarize: (string, string, int) -> Option<string>): (r: seq<Summary>)
    ensures cs == [] || !clientReady ==> r == []
    ensures |r| <= |cs|
    ensures forall k :: 0 <= k < |r| ==> r[k].text != []
  {
    if cs == [] || !clientReady then []
    else SummarizeLoop(cs, TargetMap(CalculateTargets(cs, minMins, maxMins, wordsPerMinute)), summarize)
  }

  /** Every input source finds a target of at least 50 words in the map, so the
      fallback of 150 words never applies. */
  lemma FallbackNeverUsed(cs: seq<Content>, minMins: int, maxMins: int, wordsPerMinute: int, k: nat)
    requires k < |cs|
    ensures cs[k].source in TargetMap(CalculateTargets(cs, minMins, maxMins, wordsPerMinute))
    ensures TargetFor(TargetMap(CalculateTargets(cs, minMins, maxMins, wordsPerMinute)), cs[k].source)
         == TargetMap(CalculateTargets(cs, minMins, maxMins, wordsPerMinute))[cs[k].source] >= MinWordsPerSummary
  {
    var ts := CalculateTargets(cs, minMins, maxMins, wordsPerMinute);
    assert ts[k].source == cs[k].source;
    TargetMapValues(ts, MinWordsPerSummary);
  }

  /** Two inputs with the same source are both summarised with the target of
      the later one. */
  lemma DuplicateSourceUsesLast(cs: seq<Content>, minMins: int, maxMins: int, wordsPerMinute: int, j: nat)
    requires j < |cs|
    requires forall l :: j < l < |cs| ==> cs[l].source != cs[j].source
    ensures TargetFor(TargetMap(CalculateTargets(cs, minMins, maxMins, wordsPerMinute)), cs[j].source)
         == CalculateTargets(cs, minMins, maxMins, wordsPerMinute)[j].targetWords
  {
    var ts := CalculateTargets(cs, minMins, maxMins, wordsPerMinute);
    TargetMapLastWins(ts, j);
  }
}

=== FILE: tts_segments.dfy ===
/** The speech segment list: an intro, one segment per summary and an outro,
    each synthesised into a numbered file; failed segments are left out and
    the numbering closes up behind them.  The speech service, together with
    the duration probe, is the parameter `speak`. */
module TtsSegments {
  import opened Wrappers
  import opened Strings
  import opened Decimal
  import opened Paths
  import opened SummaryBudget

  const IntroText: string := "Welcome to your daily email digest."
  const OutroText: string := "This concludes your daily email digest."
  const MaxSegmentChars: nat := 4000

  // ---------------------------------------------------------------------
  // File names.

  predicate IsAsciiAlnum(c: char) {
    ('0' <= c <= '9') || ('a' <= c <= 'z') || ('A' <= c <= 'Z')
  }

  /** `str.isalnum` for one character: exact for ASCII; for other characters
      the Unicode classification is the parameter `otherAlnum`. */
  predicate IsAlnum(c: char, otherAlnum: char -> bool) {
    if c < '\U{80}' then IsAsciiAlnum(c) else otherAlnum(c)
  }

  predicate Allowed(c: char, otherAlnum: char -> bool) {
    IsAlnum(c, otherAlnum) || c == '-' || c == '_' || c == '.'
  }

  function SafeChar(c: char, otherAlnum: char -> bool): (r: char)
    ensures Allowed(r, otherAlnum)
    ensures Allowed(c, otherAlnum) ==> r == c
  {
    if Allowed(c, otherAlnum) then c else '_'
  }

  /** Every character that is neither alphanumeric nor one of `-`, `_`, `.`
      replaced by `_`. */
  function SafeChars(s: string, otherAlnum: char -> bool): (r: string)
    ensures |r| == |s|
    ensures forall i :: 0 <= i < |s| ==> r[i] == SafeChar(s[i], otherAlnum)
  {
    seq(|s|, i requires 0 <= i < |s| => SafeChar(s[i], otherAlnum))
  }

  /** The name ends in `.mp3` in any letter case. */
  predicate EndsMp3(s: string) {
    |s| >= 4 && LowerAscii(s[|s| - 4..]) == ".mp3"
  }

  /** The file name actually used for a requested name. */
  function SafeFilename(name: string, otherAlnum: char -> bool): (r: string)
    ensures |r| == |name| || |r| == |name| + 4
    ensures EndsMp3(r)
  {
    var m := SafeChars(name, otherAlnum);
    if EndsMp3(m) then m
    else
      var r := m + ".mp3";
      assert r[|r| - 4..] == ".mp3";
      LowerMp3();
      r
  }

  lemma LowerMp3()
    ensures LowerAscii(".mp3") == ".mp3"
  {
    var l := LowerAscii(".mp3");
    assert l[0] == '.' && l[1] == 'm' && l[2] == 'p' && l[3] == '3';
  }

  /** The used name is made only of allowed characters and starts with the
      sanitised request. (Kept apart from `SafeFilename` so that proofs about
      whole segment lists do not carry these quantifiers for every name.) */
  lemma SafeFilenameChars(name: string, otherAlnum: char -> bool)
    ensures var r := SafeFilename(name, otherAlnum);
            (forall i :: 0 <= i < |r| ==> Allowed(r[i], otherAlnum))
            && r[..|name|] == SafeChars(name, otherAlnum)
  {
  }

  /** The suffix is added only when it is missing. */
  lemma SafeFilenameKeepsSuffix(name: string, otherAlnum: char -> bool)
    ensures EndsMp3(SafeChars(name, otherAlnum)) <==> |SafeFilename(name, otherAlnum)| == |name|
  {
  }

  lemma SafeCharsOfAllowed(s: string, otherAlnum: char -> bool)
    requires forall i :: 0 <= i < |s| ==> Allowed(s[i], otherAlnum)
    ensures SafeChars(s, otherAlnum) == s
  {
  }

  /** Sanitising a sanitised name changes nothing. */
  lemma SafeFilenameIdempotent(name: string, otherAlnum: char -> bool)
    ensures SafeFilename(SafeFilename(name, otherAlnum), otherAlnum) == SafeFilename(name, otherAlnum)
  {
    var r := SafeFilename(name, otherAlnum);
    SafeCharsOfAllowed(r, otherAlnum);
  }

  /** A name made of allowed characters keeps them as its start. */
  lemma SafeFilenameKeepsPrefix(p: string, rest: string, otherAlnum: char -> bool)
    requires forall i :: 0 <= i < |p| ==> Allowed(p[i], otherAlnum)
    ensures |p| <= |SafeFilename(p + rest, otherAlnum)|
    ensures SafeFilename(p + rest, otherAlnum)[..|p|] == p
  {
    var r := SafeFilename(p + rest, otherAlnum);
    assert r[..|p|] == r[..|p + rest|][..|p|];
  }

  // ---------------------------------------------------------------------
  // One segment.

  /** `generate_speech_segment`: `None` without a client or text; otherwise the
      file in `dir` under the sanitised name with the duration the service and
      probe gave, or `None` when they failed. */
  function GenerateSpeechSegment(clientReady: bool, text: string, filename: string, dir: string,
                                 otherAlnum: char -> bool, outcome: Option<nat>): (r: Option<(FilePath, nat)>)
    ensures !clientReady || text == [] ==> r == None
    ensures r.Some? ==> r.value.0 == FilePath(dir, SafeFilename(filename, otherAlnum)) && outcome == Some(r.value.1)
    ensures clientReady && text != [] && outcome.Some? ==> r.Some?
  {
    if !clientReady || text == [] then None
    else
      match outcome
      case None => None
      case Some(d) => Some((FilePath(dir, SafeFilename(filename, otherAlnum)), d))
  }

  /** What one synthesised segment records. */
  datatype SegmentInfo = SegmentInfo(source: string, text: string, audioPath: FilePath, durationMs: nat)

  /** The spoken text for a summary: a lead-in naming the source, cut to 4000 characters. */
  function SegmentText(source: string, summary: string): (t: string)
    ensures |t| <= MaxSegmentChars
    ensures t <= "Next up, from " + source + ". " + summary
  {
    Take("Next up, from " + source + ". " + summary, MaxSegmentChars)
  }

  /** Short texts are spoken whole, long ones are cut to exactly 4000 characters. */
  lemma SegmentTextLength(source: string, summary: string)
    ensures var full := "Next up, from " + source + ". " + summary;
            (|full| <= MaxSegmentChars ==> SegmentText(source, summary) == full)
            && (|full| > MaxSegmentChars ==> |SegmentText(source, summary)| == MaxSegmentChars)
  {
  }

  /** The number a segment file starts with: three digits and an underscore. */
  function NumberPrefix(index: nat): string {
    ZeroPad(index, 3) + "_"
  }

  function Numbered(index: nat, tail: string): string {
    NumberPrefix(index) + tail
  }

  /** One pass of the summary loop, given the summary, the file number and the
      call number: the segment it produced, if any. */
  type Attempt = (Summary, nat, nat) -> Option<SegmentInfo>

  /** The summary loop: each summary is tried in turn, as file number `index`
      and call number `attempt`; the file number advances only on success and
      the call number on every pass. */
  function SummarySegments(ss: seq<Summary>, index: nat, attempt: nat, try: Attempt): (r: seq<SegmentInfo>)
    ensures |r| <= |ss|
    decreases |ss|
  {
    if |ss| == 0 then []
    else
      var o := try(ss[0], index, attempt);
      Found(o) + SummarySegments(ss[1..], Next(o, index), attempt + 1, try)
  }

  /** The file number after an attempt: one more after a success. */
  function Next(o: Option<SegmentInfo>, index: nat): (n: nat)
    ensures n == index + |Found(o)|
  {
    if o.Some? then index + 1 else index
  }

  /** The file number the summary loop stops at. */
  function NextIndex(ss: seq<Summary>, index: nat, attempt: nat, try: Attempt): nat
    decreases |ss|
  {
    if |ss| == 0 then index
    else
      var o := try(ss[0], index, attempt);
      NextIndex(ss[1..], Next(o, index), attempt + 1, try)
  }

  /** The segment an attempt produced, as a list of zero or one. */
  function Found(o: Option<SegmentInfo>): (r: seq<SegmentInfo>)
    ensures |r| <= 1
    ensures o.Some? ==> r == [o.value]
    ensures o.None? ==> r == []
  {
    if o.Some? then [o.value] else []
  }

  /** The segment for summary `s` as file number `index` and call number
      `attempt`: its text is the lead-in and summary, its file the first 20
      characters of the source after the number. */
  function SummaryAttempt(s: Summary, index: nat, attempt: nat, dir: string, otherAlnum: char -> bool,
                          speak: (nat, string, string) -> Option<nat>): (r: Option<SegmentInfo>)
  {
    var text := SegmentText(s.source, s.text);
    var name := SummaryName(s, index, otherAlnum);
    match speak(attempt, text, name)
    case Some(d) => Some(SegmentInfo(s.source, text, FilePath(dir, name), d))
    case None => None
  }

  /** The sanitised file name of summary `s` as file number `index`. */
  function SummaryName(s: Summary, index: nat, otherAlnum: char -> bool): string {
    SafeFilename(Numbered(index, Take(s.source, 20) + ".mp3"), otherAlnum)
  }

  function SummaryTry(dir: string, otherAlnum: char -> bool, speak: (nat, string, string) -> Option<nat>): Attempt {
    (s: Summary, index: nat, attempt: nat) => SummaryAttempt(s, index, attempt, dir, otherAlnum, speak)
  }

  /** An attempt is `generate_speech_segment` on the summary's text and
      numbered file name: a segment exactly when that call succeeds, holding
      the file and duration it reports, the source and the text. */
  lemma SummaryAttemptIsSegment(s: Summary, index: nat, attempt: nat, dir: string, otherAlnum: char -> bool,
                                speak: (nat, string, string) -> Option<nat>)
    ensures var text := SegmentText(s.source, s.text);
            var name := Numbered(index, Take(s.source, 20) + ".mp3");
            var g := GenerateSpeechSegment(true, text, name, dir, otherAlnum, speak(attempt, text, SafeFilename(name, otherAlnum)));
            var r := SummaryAttempt(s, index, attempt, dir, otherAlnum, speak);
            (r.Some? <==> g.Some?)
            && (r.Some? ==> g.value == (r.value.audioPath, r.value.durationMs) && r.value.source == s.source && r.value.text == text)
  {
    NonEmptySegmentText(s.source, s.text);
  }

  /** A segment from an attempt lives in `dir` under a name starting with its number. */
  lemma SummaryAttemptNumbered(s: Summary, index: nat, attempt: nat, dir: string, otherAlnum: char -> bool,
                               speak: (nat, string, string) -> Option<nat>)
    ensures var r := SummaryAttempt(s, index, attempt, dir, otherAlnum, speak);
            r.Some? ==> NumberedAs(r.value, index) && r.value.audioPath.dir == dir
  {
    NumberedPrefix(index, Take(s.source, 20) + ".mp3", otherAlnum);
  }

  lemma NonEmptySegmentText(source: string, summary: string)
    ensures SegmentText(source, summary) != []
  {
    assert |"Next up, from " + source + ". " + summary| >= 14;
  }

  /** A fixed announcement (the intro or the outro) as file number `index`. */
  function Announcement(source: string, text: string, tail: string, index: nat, attempt: nat, dir: string,
                        otherAlnum: char -> bool, speak: (nat, string, string) -> Option<nat>): (r: Option<SegmentInfo>)
  {
    var name := SafeFilename(Numbered(index, tail), otherAlnum);
    match speak(attempt, text, name)
    case Some(d) => Some(SegmentInfo(source, text, FilePath(dir, name), d))
    case None => None
  }

  /** An announcement is `generate_speech_segment` on its text and numbered
      file name, and its file starts with its number. */
  lemma AnnouncementIsSegment(source: string, text: string, tail: string, index: nat, attempt: nat, dir: string,
                              otherAlnum: char -> bool, speak: (nat, string, string) -> Option<nat>)
    requires text != []
    ensures var name := Numbered(index, tail);
            var g := GenerateSpeechSegment(true, text, name, dir, otherAlnum, speak(attempt, text, SafeFilename(name, otherAlnum)));
            var r := Announcement(source, text, tail, index, attempt, dir, otherAlnum, speak);
            (r.Some? <==> g.Some?)
            && (r.Some? ==> g.value == (r.value.audioPath, r.value.durationMs) && r.value.source == source
                            && r.value.text == text && NumberedAs(r.value, index))
  {
    NumberedPrefix(index, tail, otherAlnum);
  }

  /** The result of `generate_speech_segments`: the directory and the segments.
      The intro is file 000 and call 0, the summaries follow as calls 1 to n,
      and the outro takes the next free number and call n + 1. */
  function GenerateSpeechSegments(clientReady: bool, tempDir: Option<string>, ss: seq<Summary>,
                                  otherAlnum: char -> bool, speak: (nat, string, string) -> Option<nat>)
    : (r: (Option<string>, seq<SegmentInfo>))
    ensures !clientReady || tempDir.None? ==> r == (None, [])
    ensures r.0.None? <==> r.1 == []
    ensures r.0.Some? ==> r.0 == tempDir
    ensures |r.1| <= |ss| + 2
  {
    if !clientReady || tempDir.None? then (None, [])
    else
      var all := SegmentList(tempDir.value, ss, otherAlnum, speak);
      if all == [] then (None, []) else (Some(tempDir.value), all)
  }

  /** The intro, the summary segments and the outro that succeeded, in that order. */
  function SegmentList(dir: string, ss: seq<Summary>, otherAlnum: char -> bool,
                       speak: (nat, string, string) -> Option<nat>): (r: seq<SegmentInfo>)
    ensures |r| <= |ss| + 2
  {
    Assemble(IntroSegment(dir, otherAlnum, speak), ss, SummaryTry(dir, otherAlnum, speak),
             OutroTry(dir, |ss| + 1, otherAlnum, speak))
  }

  /** The outro as file number `index`, spoken as call `attempt`. */
  function OutroTry(dir: string, attempt: nat, otherAlnum: char -> bool,
                    speak: (nat, string, string) -> Option<nat>): nat -> Option<SegmentInfo> {
    (index: nat) => Announcement("Outro", OutroText, "outro.mp3", index, attempt, dir, otherAlnum, speak)
  }

  /** The first segment if there is one, the loop's segments numbered on from
      it, and the last segment numbered on from those. */
  function Assemble(first: Option<SegmentInfo>, ss: seq<Summary>, try: Attempt, last: nat -> Option<SegmentInfo>)
    : (r: seq<SegmentInfo>)
    ensures |r| <= |ss| + 2
  {
    var head := Found(first);
    var mids := SummarySegments(ss, |head|, 1, try);
    head + mids + Found(last(|head| + |mids|))
  }

  // ---------------------------------------------------------------------
  // Numbering.

  /** The number prefix of a numbered name survives sanitising. */
  lemma NumberedPrefix(index: nat, tail: string, otherAlnum: char -> bool)
    ensures NumberPrefix(index) <= SafeFilename(Numbered(index, tail), otherAlnum)
  {
    var p := NumberPrefix(index);
    assert forall i :: 0 <= i < |p| ==> Allowed(p[i], otherAlnum) by {
      forall i | 0 <= i < |p|
        ensures Allowed(p[i], otherAlnum)
      {
        if i < |p| - 1 {
          assert IsDigit(ZeroPad(index, 3)[i]);
        }
      }
    }
    assert Numbered(index, tail) == p + tail;
    SafeFilenameKeepsPrefix(p, tail, otherAlnum);
    var r := SafeFilename(p + tail, otherAlnum);
    assert r[..|p|] == p;
  }

  /** The file of a segment starts with its number. */
  predicate NumberedAs(s: SegmentInfo, index: nat) {
    NumberPrefix(index) <= s.audioPath.name
  }

  /** The segments carry consecutive numbers from `index`. */
  predicate NumberedFrom(segs: seq<SegmentInfo>, index: nat) {
    forall k :: 0 <= k < |segs| ==> NumberedAs(segs[k], index + k)
  }

  /** The k-th segment satisfies `mark` with number `index + k`. */
  ghost predicate Labelled(segs: seq<SegmentInfo>, index: nat, mark: (SegmentInfo, nat) -> bool) {
    forall k :: 0 <= k < |segs| ==> mark(segs[k], index + k)
  }

  /** Every segment an attempt produces satisfies `mark` with the file number it was given. */
  ghost predicate KeepsLabel(try: Attempt, mark: (SegmentInfo, nat) -> bool) {
    forall s, index, attempt :: try(s, index, attempt).Some? ==> mark(try(s, index, attempt).value, index)
  }

  lemma FoundLabelled(o: Option<SegmentInfo>, index: nat, mark: (SegmentInfo, nat) -> bool)
    requires o.Some? ==> mark(o.value, index)
    ensures Labelled(Found(o), index, mark)
  {
  }

  lemma LabelledAppend(a: seq<SegmentInfo>, b: seq<SegmentInfo>, index: nat, mark: (SegmentInfo, nat) -> bool)
    requires Labelled(a, index, mark) && Labelled(b, index + |a|, mark)
    ensures Labelled(a + b, index, mark)
  {
    forall k | 0 <= k < |a + b|
      ensures mark((a + b)[k], index + k)
    {
      if k >= |a| {
        assert (a + b)[k] == b[k - |a|];
      }
    }
  }

  /** When every attempt labels its segment with the number it was given, the
      loop's segments carry consecutive numbers from `index`: a failed attempt
      leaves its number to the next success. */
  lemma {:induction false} SummarySegmentsLabelled(ss: seq<Summary>, index: nat, attempt: nat, try: Attempt,
                                                   mark: (SegmentInfo, nat) -> bool)
    requires KeepsLabel(try, mark)
    ensures Labelled(SummarySegments(ss, index, attempt, try), index, mark)
    decreases |ss|
  {
    if |ss| > 0 {
      var o := try(ss[0], index, attempt);
      FoundLabelled(o, index, mark);
      SummarySegmentsLabelled(ss[1..], Next(o, index), attempt + 1, try, mark);
      LabelledAppend(Found(o), SummarySegments(ss[1..], Next(o, index), attempt + 1, try), index, mark);
    }
  }

  lemma SummaryTryKeepsNumber(dir: string, otherAlnum: char -> bool, speak: (nat, string, string) -> Option<nat>)
    ensures KeepsLabel(SummaryTry(dir, otherAlnum, speak), NumberedAs)
  {
    forall s, index, attempt
      ensures SummaryTry(dir, otherAlnum, speak)(s, index, attempt).Some?
              ==> NumberedAs(SummaryTry(dir, otherAlnum, speak)(s, index, attempt).value, index)
    {
      SummaryAttemptNumbered(s, index, attempt, dir, otherAlnum, speak);
    }
  }

  /** A list assembled from parts that each keep the number they are given is
      numbered consecutively from 0. */
  lemma AssembleLabelled(first: Option<SegmentInfo>, ss: seq<Summary>, try: Attempt, last: nat -> Option<SegmentInfo>,
                         mark: (SegmentInfo, nat) -> bool)
    requires first.Some? ==> mark(first.value, 0)
    requires KeepsLabel(try, mark)
    requires forall index :: last(index).Some? ==> mark(last(index).value, index)
    ensures Labelled(Assemble(first, ss, try, last), 0, mark)
  {
    var head := Found(first);
    var mids := SummarySegments(ss, |head|, 1, try);
    FoundLabelled(first, 0, mark);
    SummarySegmentsLabelled(ss, |head|, 1, try, mark);
    FoundLabelled(last(|head| + |mids|), |head| + |mids|, mark);
    LabelledAppend(head, mids, 0, mark);
    LabelledAppend(head + mids, Found(last(|head| + |mids|)), 0, mark);
  }

  /** An announcement's file starts with its number. */
  lemma AnnouncementNumbered(source: string, text: string, tail: string, index: nat, attempt: nat, dir: string,
                             otherAlnum: char -> bool, speak: (nat, string, string) -> Option<nat>)
    ensures var r := Announcement(source, text, tail, index, attempt, dir, otherAlnum, speak);
            r.Some? ==> NumberedAs(r.value, index)
  {
    NumberedPrefix(index, tail, otherAlnum);
  }

  lemma OutroKeepsNumber(dir: string, attempt: nat, otherAlnum: char -> bool, speak: (nat, string, string) -> Option<nat>)
    ensures forall index :: OutroTry(dir, attempt, otherAlnum, speak)(index).Some?
                            ==> NumberedAs(OutroTry(dir, attempt, otherAlnum, speak)(index).value, index)
  {
    forall index: nat
      ensures OutroTry(dir, attempt, otherAlnum, speak)(index).Some?
              ==> NumberedAs(OutroTry(dir, attempt, otherAlnum, speak)(index).value, index)
    {
      AnnouncementNumbered("Outro", OutroText, "outro.mp3", index, attempt, dir, otherAlnum, speak);
    }
  }

  /** The segment list of a run is numbered 000, 001, … in list order. */
  lemma SegmentListNumbered(dir: string, ss: seq<Summary>, otherAlnum: char -> bool,
                            speak: (nat, string, string) -> Option<nat>)
    ensures Labelled(SegmentList(dir, ss, otherAlnum, speak), 0, NumberedAs)
  {
    AnnouncementNumbered("Intro", IntroText, "intro.mp3", 0, 0, dir, otherAlnum, speak);
    SummaryTryKeepsNumber(dir, otherAlnum, speak);
    OutroKeepsNumber(dir, |ss| + 1, otherAlnum, speak);
    AssembleLabelled(Announcement("Intro", IntroText, "intro.mp3", 0, 0, dir, otherAlnum, speak),
                     ss, SummaryTry(dir, otherAlnum, speak), OutroTry(dir, |ss| + 1, otherAlnum, speak), NumberedAs);
  }

  /** All segments of a run, intro and outro included, are numbered 000, 001, …
      in list order. */
  lemma SegmentsNumbered(clientReady: bool, tempDir: Option<string>, ss: seq<Summary>,
                         otherAlnum: char -> bool, speak: (nat, string, string) -> Option<nat>)
    ensures NumberedFrom(GenerateSpeechSegments(clientReady, tempDir, ss, otherAlnum, speak).1, 0)
  {
    if clientReady && tempDir.Some? {
      SegmentListNumbered(tempDir.value, ss, otherAlnum, speak);
    }
  }

  // ---------------------------------------------------------------------
  // The summary loop.

  /** Over two stretches of summaries the loop gives the segments of the first,
      then those of the second numbered on from where the first stopped. */
  lemma {:induction false} SummarySegmentsAppend(a: seq<Summary>, b: seq<Summary>, index: nat, attempt: nat, try: Attempt)
    ensures SummarySegments(a + b, index, attempt, try)
         == SummarySegments(a, index, attempt, try) + SummarySegments(b, NextIndex(a, index, attempt, try), attempt + |a|, try)
    decreases |a|
  {
    if |a| == 0 {
      assert a + b == b;
    } else {
      var o := try(a[0], index, attempt);
      assert (a + b)[0] == a[0];
      assert (a + b)[1..] == a[1..] + b;
      SummarySegmentsAppend(a[1..], b, Next(o, index), attempt + 1, try);
      SeqAssoc(Found(o), SummarySegments(a[1..], Next(o, index), attempt + 1, try),
               SummarySegments(b, NextIndex(a, index, attempt, try), attempt + |a|, try));
    }
  }

  /** The loop stops at its starting number plus the number of segments it produced. */
  lemma {:induction false} NextIndexCounts(ss: seq<Summary>, index: nat, attempt: nat, try: Attempt)
    ensures NextIndex(ss, index, attempt, try) == index + |SummarySegments(ss, index, attempt, try)|
    decreases |ss|
  {
    if |ss| > 0 {
      NextIndexCounts(ss[1..], Next(try(ss[0], index, attempt), index), attempt + 1, try);
    }
  }

  lemma SeqAssoc<T>(a: seq<T>, b: seq<T>, c: seq<T>)
    ensures a + (b + c) == (a + b) + c
  {
  }

  /** When every attempt succeeds, the k-th segment is the k-th summary's,
      as file number `index + k` and call `attempt + k`. */
  lemma {:induction false} AllSucceed(ss: seq<Summary>, index: nat, attempt: nat, try: Attempt)
    requires forall s, i, n :: try(s, i, n).Some?
    ensures |SummarySegments(ss, index, attempt, try)| == |ss|
    ensures forall k :: 0 <= k < |ss| ==> SummarySegments(ss, index, attempt, try)[k] == try(ss[k], index + k, attempt + k).value
    decreases |ss|
  {
    if ss != [] {
      AllSucceed(ss[1..], index + 1, attempt + 1, try);
      var r := SummarySegments(ss, index, attempt, try);
      forall k | 0 <= k < |ss|
        ensures r[k] == try(ss[k], index + k, attempt + k).value
      {
        if k > 0 {
          assert ss[1..][k - 1] == ss[k];
        }
      }
    }
  }

  /** When every attempt fails there are no summary segments. */
  lemma {:induction false} NoneSucceed(ss: seq<Summary>, index: nat, attempt: nat, try: Attempt)
    requires forall s, i, n :: try(s, i, n).None?
    ensures SummarySegments(ss, index, attempt, try) == []
    decreases |ss|
  {
    if ss != [] {
      NoneSucceed(ss[1..], index, attempt + 1, try);
    }
  }

  /** A speech service that always answers gives every summary its segment,
      in order, with its source and its spoken text. */
  lemma EverySummarySpoken(ss: seq<Summary>, index: nat, dir: string, otherAlnum: char -> bool,
                           speak: (nat, string, string) -> Option<nat>)
    requires forall n, t, f :: speak(n, t, f).Some?
    ensures var r := SummarySegments(ss, index, 1, SummaryTry(dir, otherAlnum, speak));
            |r| == |ss| && forall k :: 0 <= k < |ss| ==> r[k].source == ss[k].source && r[k].text == SegmentText(ss[k].source, ss[k].text)
  {
    var try := SummaryTry(dir, otherAlnum, speak);
    forall s, i, n
      ensures try(s, i, n).Some?
    {
      SummaryAttemptIsSegment(s, i, n, dir, otherAlnum, speak);
    }
    AllSucceed(ss, index, 1, try);
  }

  /** A speech service that always answers gives the intro, one segment per
      summary and the outro. */
  lemma EveryCallAnswered(dir: string, ss: seq<Summary>, otherAlnum: char -> bool,
                          speak: (nat, string, string) -> Option<nat>)
    requires forall n, t, f :: speak(n, t, f).Some?
    ensures GenerateSpeechSegments(true, Some(dir), ss, otherAlnum, speak).0 == Some(dir)
    ensures var r := GenerateSpeechSegments(true, Some(dir), ss, otherAlnum, speak).1;
            |r| == |ss| + 2 && r[0].source == "Intro" && r[|r| - 1].source == "Outro"
  {
    var try := SummaryTry(dir, otherAlnum, speak);
    var intro := Announcement("Intro", IntroText, "intro.mp3", 0, 0, dir, otherAlnum, speak);
    var outro := OutroTry(dir, |ss| + 1, otherAlnum, speak);
    forall s, i, n
      ensures try(s, i, n).Some?
    {
      SummaryAttemptIsSegment(s, i, n, dir, otherAlnum, speak);
    }
    AssembleFull(intro, ss, try, outro);
  }

  /** When every part succeeds the list has the first segment, one per
      summary and the last segment. */
  lemma AssembleFull(first: Option<SegmentInfo>, ss: seq<Summary>, try: Attempt, last: nat -> Option<SegmentInfo>)
    requires first.Some?
    requires forall s, i, n :: try(s, i, n).Some?
    requires forall i :: last(i).Some?
    ensures var r := Assemble(first, ss, try, last);
            |r| == |ss| + 2 && r[0] == first.value && r[|r| - 1] == last(|ss| + 1).value
  {
    AllSucceed(ss, 1, 1, try);
  }

  /** When every call fails there are no segments and no directory. */
  lemma NothingSucceeds(ss: seq<Summary>, tempDir: Option<string>, otherAlnum: char -> bool,
                        speak: (nat, string, string) -> Option<nat>)
    requires forall n, t, f :: speak(n, t, f).None?
    ensures GenerateSpeechSegments(true, tempDir, ss, otherAlnum, speak) == (None, [])
  {
    if tempDir.Some? {
      NoneSucceed(ss, 0, 1, SummaryTry(tempDir.value, otherAlnum, speak));
    }
  }

  // ---------------------------------------------------------------------
  // Which summaries are spoken, for any speech service.

  /** The file number pass `j` of the summary loop runs with: the starting
      number plus one per earlier pass that produced a segment. */
  function PassNumber(ss: seq<Summary>, index: nat, attempt: nat, try: Attempt, j: nat): nat
    requires j <= |ss|
  {
    NextIndex(ss[..j], index, attempt, try)
  }

  /** What pass `j` of the summary loop produces. */
  function PassResult(ss: seq<Summary>, index: nat, attempt: nat, try: Attempt, j: nat): Option<SegmentInfo>
    requires j < |ss|
  {
    try(ss[j], PassNumber(ss, index, attempt, try, j), attempt + j)
  }

  /** The passes from `lo` on that produce a segment. */
  function SpokenFrom(ss: seq<Summary>, index: nat, attempt: nat, try: Attempt, lo: nat): (ix: seq<nat>)
    requires lo <= |ss|
    ensures forall k :: 0 <= k < |ix| ==> lo <= ix[k] < |ss|
    ensures forall k, l :: 0 <= k < l < |ix| ==> ix[k] < ix[l]
    decreases |ss| - lo
  {
    if lo == |ss| then []
    else (if PassResult(ss, index, attempt, try, lo).Some? then [lo] else []) + SpokenFrom(ss, index, attempt, try, lo + 1)
  }

  /** The passes that produce a segment, in increasing order (exactly those,
      by `SpokenIndexesExact`). */
  function SpokenIndexes(ss: seq<Summary>, index: nat, attempt: nat, try: Attempt): (ix: seq<nat>)
    ensures forall k :: 0 <= k < |ix| ==> ix[k] < |ss|
    ensures forall k, l :: 0 <= k < l < |ix| ==> ix[k] < ix[l]
  {
    SpokenFrom(ss, index, attempt, try, 0)
  }

  lemma {:induction false} SpokenFromExact(ss: seq<Summary>, index: nat, attempt: nat, try: Attempt, lo: nat)
    requires lo <= |ss|
    ensures forall j :: lo <= j < |ss| ==>
              (j in SpokenFrom(ss, index, attempt, try, lo) <==> PassResult(ss, index, attempt, try, j).Some?)
    decreases |ss| - lo
  {
    if lo < |ss| {
      SpokenFromExact(ss, index, attempt, try, lo + 1);
    }
  }

  /** A pass is among the spoken passes exactly when it produces a segment. */
  lemma SpokenIndexesExact(ss: seq<Summary>, index: nat, attempt: nat, try: Attempt)
    ensures forall j :: 0 <= j < |ss| ==>
              (j in SpokenIndexes(ss, index, attempt, try) <==> PassResult(ss, index, attempt, try, j).Some?)
  {
    SpokenFromExact(ss, index, attempt, try, 0);
  }

  /** Over two stretches of summaries the loop stops where the second stretch,
      started where the first stopped, stops. */
  lemma {:induction false} NextIndexAppend(a: seq<Summary>, b: seq<Summary>, index: nat, attempt: nat, try: Attempt)
    ensures NextIndex(a + b, index, attempt, try) == NextIndex(b, NextIndex(a, index, attempt, try), attempt + |a|, try)
    decreases |a|
  {
    if |a| == 0 {
      assert a + b == b;
    } else {
      assert (a + b)[0] == a[0];
      assert (a + b)[1..] == a[1..] + b;
      NextIndexAppend(a[1..], b, Next(try(a[0], index, attempt), index), attempt + 1, try);
    }
  }

  /** Pass `lo` runs the rest of the loop from its own file number. */
  lemma PassStep(ss: seq<Summary>, index: nat, attempt: nat, try: Attempt, lo: nat)
    requires lo < |ss|
    ensures var p := PassNumber(ss, index, attempt, try, lo);
            var o := try(ss[lo], p, attempt + lo);
            PassNumber(ss, index, attempt, try, lo + 1) == Next(o, p)
            && SummarySegments(ss[lo..], p, attempt + lo, try)
               == Found(o) + SummarySegments(ss[lo + 1..], PassNumber(ss, index, attempt, try, lo + 1), attempt + (lo + 1), try)
  {
    var x := ss[lo];
    assert ss[..lo + 1] == ss[..lo] + [x];
    NextIndexAppend(ss[..lo], [x], index, attempt, try);
    assert [x][1..] == [];
    assert ss[lo..][0] == x;
    assert ss[lo..][1..] == ss[lo + 1..];
  }

  lemma {:induction false} SpokenFromSegments(ss: seq<Summary>, index: nat, attempt: nat, try: Attempt, lo: nat)
    requires lo <= |ss|
    ensures var r := SummarySegments(ss[lo..], PassNumber(ss, index, attempt, try, lo), attempt + lo, try);
            var ix := SpokenFrom(ss, index, attempt, try, lo);
            |r| == |ix| && forall k :: 0 <= k < |ix| ==> Some(r[k]) == PassResult(ss, index, attempt, try, ix[k])
    decreases |ss| - lo
  {
    if lo < |ss| {
      SpokenFromSegments(ss, index, attempt, try, lo + 1);
      PassStep(ss, index, attempt, try, lo);
      var r := SummarySegments(ss[lo..], PassNumber(ss, index, attempt, try, lo), attempt + lo, try);
      var rest := SummarySegments(ss[lo + 1..], PassNumber(ss, index, attempt, try, lo + 1), attempt + (lo + 1), try);
      var ix := SpokenFrom(ss, index, attempt, try, lo);
      var rix := SpokenFrom(ss, index, attempt, try, lo + 1);
      var o := PassResult(ss, index, attempt, try, lo);
      if o.Some? {
        ConsSpoken(ss, index, attempt, try, lo, r, rest, ix, rix);
      } else {
        SkipSpoken(ss, index, attempt, try, r, rest, ix, rix);
      }
    }
  }

  /** A pass that produces nothing leaves the two lists as they were. */
  lemma SkipSpoken(ss: seq<Summary>, index: nat, attempt: nat, try: Attempt,
                   r: seq<SegmentInfo>, rest: seq<SegmentInfo>, ix: seq<nat>, rix: seq<nat>)
    requires r == [] + rest && ix == [] + rix && |rest| == |rix|
    requires forall k :: 0 <= k < |rix| ==> rix[k] < |ss| && Some(rest[k]) == PassResult(ss, index, attempt, try, rix[k])
    ensures |r| == |ix|
    ensures forall k :: 0 <= k < |ix| ==> ix[k] < |ss| && Some(r[k]) == PassResult(ss, index, attempt, try, ix[k])
  {
    EmptyPrepend(rest);
    EmptyPrepend(rix);
  }

  /** Putting a producing pass and its segment in front keeps the two lists in step. */
  lemma ConsSpoken(ss: seq<Summary>, index: nat, attempt: nat, try: Attempt, lo: nat,
                   r: seq<SegmentInfo>, rest: seq<SegmentInfo>, ix: seq<nat>, rix: seq<nat>)
    requires lo < |ss|
    requires PassResult(ss, index, attempt, try, lo).Some?
    requires r == [PassResult(ss, index, attempt, try, lo).value] + rest && ix == [lo] + rix
    requires |rest| == |rix|
    requires forall k :: 0 <= k < |rix| ==> rix[k] < |ss| && Some(rest[k]) == PassResult(ss, index, attempt, try, rix[k])
    ensures |r| == |ix|
    ensures forall k :: 0 <= k < |ix| ==> ix[k] < |ss| && Some(r[k]) == PassResult(ss, index, attempt, try, ix[k])
  {
    forall k | 0 <= k < |ix|
      ensures ix[k] < |ss| && Some(r[k]) == PassResult(ss, index, attempt, try, ix[k])
    {
      if k > 0 {
        assert r[k] == rest[k - 1] && ix[k] == rix[k - 1];
      }
    }
  }

  lemma EmptyPrepend<T>(s: seq<T>)
    ensures [] + s == s
  {
  }

  /** The summary loop's segments are one per pass that produces one, in
      order, each the segment that pass produced. */
  lemma SummarySegmentsAreSpoken(ss: seq<Summary>, index: nat, attempt: nat, try: Attempt)
    ensures |SummarySegments(ss, index, attempt, try)| == |SpokenIndexes(ss, index, attempt, try)|
    ensures forall k :: 0 <= k < |SpokenIndexes(ss, index, attempt, try)| ==>
              Some(SummarySegments(ss, index, attempt, try)[k]) == PassResult(ss, index, attempt, try, SpokenIndexes(ss, index, attempt, try)[k])
  {
    assert PassNumber(ss, index, attempt, try, 0) == index by {
      assert ss[..0] == [];
    }
    assert ss[0..] == ss;
    SpokenFromSegments(ss, index, attempt, try, 0);
  }

  /** The intro segment: file 000, call 0. */
  function IntroSegment(dir: string, otherAlnum: char -> bool, speak: (nat, string, string) -> Option<nat>): Option<SegmentInfo> {
    Announcement("Intro", IntroText, "intro.mp3", 0, 0, dir, otherAlnum, speak)
  }

  /** The file number the summaries start from: 1 after a spoken intro, else 0. */
  function FirstNumber(dir: string, otherAlnum: char -> bool, speak: (nat, string, string) -> Option<nat>): nat {
    |Found(IntroSegment(dir, otherAlnum, speak))|
  }

  /** The summaries that are spoken, as pass positions. */
  function SpokenSummaryIndexes(dir: string, ss: seq<Summary>, otherAlnum: char -> bool,
                                speak: (nat, string, string) -> Option<nat>): seq<nat> {
    SpokenIndexes(ss, FirstNumber(dir, otherAlnum, speak), 1, SummaryTry(dir, otherAlnum, speak))
  }

  /** The file number the outro gets: the next one after the intro and the spoken summaries. */
  function OutroNumber(dir: string, ss: seq<Summary>, otherAlnum: char -> bool,
                       speak: (nat, string, string) -> Option<nat>): nat {
    FirstNumber(dir, otherAlnum, speak) + |SpokenSummaryIndexes(dir, ss, otherAlnum, speak)|
  }

  /** The outro segment: the next free file number, call n + 1. */
  function OutroSegment(dir: string, ss: seq<Summary>, otherAlnum: char -> bool,
                        speak: (nat, string, string) -> Option<nat>): Option<SegmentInfo> {
    Announcement("Outro", OutroText, "outro.mp3", OutroNumber(dir, ss, otherAlnum, speak), |ss| + 1, dir, otherAlnum, speak)
  }

  /** The intro is there exactly when call 0 is answered, and the outro
      exactly when call n + 1 is answered, each under its numbered file name. */
  lemma AnnouncementsAnswered(dir: string, ss: seq<Summary>, otherAlnum: char -> bool,
                              speak: (nat, string, string) -> Option<nat>)
    ensures var name := SafeFilename(Numbered(0, "intro.mp3"), otherAlnum);
            var a := speak(0, IntroText, name);
            IntroSegment(dir, otherAlnum, speak)
            == if a.Some? then Some(SegmentInfo("Intro", IntroText, FilePath(dir, name), a.value)) else None
    ensures var name := SafeFilename(Numbered(OutroNumber(dir, ss, otherAlnum, speak), "outro.mp3"), otherAlnum);
            var a := speak(|ss| + 1, OutroText, name);
            OutroSegment(dir, ss, otherAlnum, speak)
            == if a.Some? then Some(SegmentInfo("Outro", OutroText, FilePath(dir, name), a.value)) else None
  {
    AnnouncementAnswer("Intro", IntroText, "intro.mp3", 0, 0, dir, otherAlnum, speak);
    AnnouncementAnswer("Outro", OutroText, "outro.mp3", OutroNumber(dir, ss, otherAlnum, speak), |ss| + 1, dir, otherAlnum, speak);
  }

  /** `r` is laid out as the speech segments are: the first segment, if
      there is one; then, numbered on from it, exactly the segments of the
      summary passes that produce one, in order, each what its pass produced;
      then the last segment, numbered on from those, if there is one. */
  predicate InOrder(r: seq<SegmentInfo>, first: Option<SegmentInfo>, ss: seq<Summary>, try: Attempt,
                    last: nat -> Option<SegmentInfo>)
  {
    var h := |Found(first)|;
    var ix := SpokenIndexes(ss, h, 1, try);
    var o := last(h + |ix|);
    |r| == h + |ix| + |Found(o)|
    && (first.Some? ==> r[0] == first.value)
    && (forall k :: 0 <= k < |ix| ==> Some(r[h + k]) == PassResult(ss, h, 1, try, ix[k]))
    && (o.Some? ==> r[|r| - 1] == o.value)
  }

  /** For any speech service, the returned list is the intro, if it was
      spoken, then the segments of exactly the summary passes that produced
      one, in order, then the outro, under the next free file number, if it
      was spoken. */
  lemma SpeechSegmentsInOrder(dir: string, ss: seq<Summary>, otherAlnum: char -> bool,
                              speak: (nat, string, string) -> Option<nat>)
    ensures InOrder(GenerateSpeechSegments(true, Some(dir), ss, otherAlnum, speak).1, IntroSegment(dir, otherAlnum, speak),
                    ss, SummaryTry(dir, otherAlnum, speak), OutroTry(dir, |ss| + 1, otherAlnum, speak))
  {
    SegmentListIsAssemble(dir, ss, otherAlnum, speak);
    AssembleInOrder(IntroSegment(dir, otherAlnum, speak), ss, SummaryTry(dir, otherAlnum, speak),
                    OutroTry(dir, |ss| + 1, otherAlnum, speak));
  }

  /** With a directory and a client, the returned list is the intro, the
      summary loop and the outro put together. */
  lemma SegmentListIsAssemble(dir: string, ss: seq<Summary>, otherAlnum: char -> bool,
                              speak: (nat, string, string) -> Option<nat>)
    ensures GenerateSpeechSegments(true, Some(dir), ss, otherAlnum, speak).1
         == Assemble(IntroSegment(dir, otherAlnum, speak), ss, SummaryTry(dir, otherAlnum, speak),
                     OutroTry(dir, |ss| + 1, otherAlnum, speak))
  {
  }

  /** The middle of the list holds, in order, the source and spoken text of
      exactly the summaries whose call was answered. */
  lemma SpeechSegmentsKeepSummaries(dir: string, ss: seq<Summary>, otherAlnum: char -> bool,
                                    speak: (nat, string, string) -> Option<nat>)
    ensures var r := GenerateSpeechSegments(true, Some(dir), ss, otherAlnum, speak).1;
            var h := |Found(IntroSegment(dir, otherAlnum, speak))|;
            var ix := SpokenIndexes(ss, h, 1, SummaryTry(dir, otherAlnum, speak));
            h + |ix| <= |r|
            && forall k :: 0 <= k < |ix| ==>
                 r[h + k].source == ss[ix[k]].source && r[h + k].text == SegmentText(ss[ix[k]].source, ss[ix[k]].text)
  {
    SpeechSegmentsInOrder(dir, ss, otherAlnum, speak);
    SummaryTryLabels(dir, otherAlnum, speak);
    InOrderKeepsSummaries(GenerateSpeechSegments(true, Some(dir), ss, otherAlnum, speak).1, IntroSegment(dir, otherAlnum, speak),
                          ss, SummaryTry(dir, otherAlnum, speak), OutroTry(dir, |ss| + 1, otherAlnum, speak));
  }

  /** Every segment a summary attempt produces carries that summary's source and spoken text. */
  ghost predicate Labels(try: Attempt) {
    forall s: Summary, i: nat, a: nat :: try(s, i, a).Some? ==>
      try(s, i, a).value.source == s.source && try(s, i, a).value.text == SegmentText(s.source, s.text)
  }

  lemma SummaryTryLabels(dir: string, otherAlnum: char -> bool, speak: (nat, string, string) -> Option<nat>)
    ensures Labels(SummaryTry(dir, otherAlnum, speak))
  {
  }

  /** In a list laid out by labelling attempts, the middle holds the spoken summaries' sources and texts. */
  lemma InOrderKeepsSummaries(r: seq<SegmentInfo>, first: Option<SegmentInfo>, ss: seq<Summary>, try: Attempt,
                              last: nat -> Option<SegmentInfo>)
    requires InOrder(r, first, ss, try, last)
    requires Labels(try)
    ensures var h := |Found(first)|;
            var ix := SpokenIndexes(ss, h, 1, try);
            h + |ix| <= |r|
            && forall k :: 0 <= k < |ix| ==>
                 r[h + k].source == ss[ix[k]].source && r[h + k].text == SegmentText(ss[ix[k]].source, ss[ix[k]].text)
  {
  }

  /** The outro the list ends with is the one numbered after the intro and the spoken summaries. */
  lemma OutroIsLast(dir: string, ss: seq<Summary>, otherAlnum: char -> bool,
                    speak: (nat, string, string) -> Option<nat>)
    ensures OutroTry(dir, |ss| + 1, otherAlnum, speak)(OutroNumber(dir, ss, otherAlnum, speak))
         == OutroSegment(dir, ss, otherAlnum, speak)
  {
  }

  /** The list is the first segment, one segment per pass of the loop that
      produces one, numbered on from the first, and the last segment numbered
      on from those. */
  lemma AssembleInOrder(first: Option<SegmentInfo>, ss: seq<Summary>, try: Attempt, last: nat -> Option<SegmentInfo>)
    ensures InOrder(Assemble(first, ss, try, last), first, ss, try, last)
  {
    var h := |Found(first)|;
    var mids := SummarySegments(ss, h, 1, try);
    var o := last(h + |mids|);
    assert Assemble(first, ss, try, last) == Found(first) + mids + Found(o);
    SummarySegmentsAreSpoken(ss, h, 1, try);
    Layout(first, mids, o);
  }

  /** Where the parts of `first + mids + last` sit. */
  lemma Layout(first: Option<SegmentInfo>, mids: seq<SegmentInfo>, last: Option<SegmentInfo>)
    ensures var r := Found(first) + mids + Found(last);
            var h := |Found(first)|;
            |r| == h + |mids| + |Found(last)|
            && (first.Some? ==> r[0] == first.value)
            && (forall k :: 0 <= k < |mids| ==> r[h + k] == mids[k])
            && (last.Some? ==> r[|r| - 1] == last.value)
  {
  }

  /** An announcement is there exactly when its call is answered. */
  lemma AnnouncementAnswer(source: string, text: string, tail: string, index: nat, attempt: nat, dir: string,
                           otherAlnum: char -> bool, speak: (nat, string, string) -> Option<nat>)
    ensures var name := SafeFilename(Numbered(index, tail), otherAlnum);
            var a := speak(attempt, text, name);
            Announcement(source, text, tail, index, attempt, dir, otherAlnum, speak)
            == if a.Some? then Some(SegmentInfo(source, text, FilePath(dir, name), a.value)) else None
  {
  }

  /** The summary segments are the succeeding passes' summaries, in order,
      with their sources and spoken texts. */
  lemma SpokenSummaries(dir: string, ss: seq<Summary>, index: nat, otherAlnum: char -> bool,
                        speak: (nat, string, string) -> Option<nat>)
    ensures var try := SummaryTry(dir, otherAlnum, speak);
            var r := SummarySegments(ss, index, 1, try);
            var ix := SpokenIndexes(ss, index, 1, try);
            |r| == |ix|
            && forall k :: 0 <= k < |ix| ==> r[k].source == ss[ix[k]].source && r[k].text == SegmentText(ss[ix[k]].source, ss[ix[k]].text)
  {
    var try := SummaryTry(dir, otherAlnum, speak);
    SummarySegmentsAreSpoken(ss, index, 1, try);
    var r := SummarySegments(ss, index, 1, try);
    var ix := SpokenIndexes(ss, index, 1, try);
    forall k | 0 <= k < |ix|
      ensures r[k].source == ss[ix[k]].source && r[k].text == SegmentText(ss[ix[k]].source, ss[ix[k]].text)
    {
      var j := ix[k];
      assert Some(r[k]) == SummaryAttempt(ss[j], PassNumber(ss, index, 1, try, j), 1 + j, dir, otherAlnum, speak);
      SummaryAttemptIsSegment(ss[j], PassNumber(ss, index, 1, try, j), 1 + j, dir, otherAlnum, speak);
    }
  }

  /** For any speech service, a summary is spoken exactly when its call (call
      j + 1, under the file number its pass runs with) is answered. */
  lemma SpokenExactlyWhenAnswered(dir: string, ss: seq<Summary>, index: nat, otherAlnum: char -> bool,
                                  speak: (nat, string, string) -> Option<nat>)
    ensures var try := SummaryTry(dir, otherAlnum, speak);
            forall j :: 0 <= j < |ss| ==>
              (j in SpokenIndexes(ss, index, 1, try)
               <==> speak(1 + j, SegmentText(ss[j].source, ss[j].text),
                          SummaryName(ss[j], PassNumber(ss, index, 1, try, j), otherAlnum)).Some?)
  {
    SpokenIndexesExact(ss, index, 1, SummaryTry(dir, otherAlnum, speak));
  }
}

=== FILE: wrappers.dfy ===
/** The optional-value datatype shared by every module of the model. Python's
    `None` return (and a dictionary key that is absent) is `None`; any other
    value is `Some`. */
module Wrappers {

  datatype Option<+T> = None | Some(value: T) {

    /** The value, or `default` when there is none (Python's `d.get(k, default)`). */
    function GetOr(default: T): T {
      match this
      case Some(v) => v
      case None => default
    }
  }

  /** Python truthiness of an optional string: present and non-empty. */
  predicate Truthy(o: Option<seq<char>>) {
    o.Some? && o.value != []
  }
}
